=== FILE: README.md ===
# Product management web application — a Dafny model of its core

The repository holds three versions of an Express product-management
application, written as successive labs.

- **Lab03** is the full version. Products, carts, users and an audit log live in
  DynamoDB tables. Product images live in S3. Sessions carry the logged-in user,
  and middleware decides who may see which page. When DynamoDB cannot be reached,
  the product operations fall back to an array held in the process.
- **lab1** is an SQL-backed variant with registration and login.
- **Lab3_basic** is a first version that keeps its products in a plain array.

This project models the core of all three as pure Dafny functions over immutable
values:

- A table is the sequence of its items in scan order.
- A request's outcome is a `Result` or an `Option`.
- Generated identifiers, the clock, password hashing, the hash comparison,
  `Number(...)` on form text, and whether an S3 call succeeds are all parameters.

Module by module:

| module | models |
|---|---|
| `Seqs`, `Text` | The JavaScript array and string operations the application relies on: `filter`, `findIndex`/`find`, `reduce`, a stable numeric `sort`, `slice` with negative bounds, `startsWith`, `includes`, `join`, `trim`, `String(n)`, `parseInt`. |
| `Table` | The generic repository: key lookup, field scan, put, delete, keyed update, and the `SET` expression the update sends. |
| `Catalog` | The product record, the products repository's scans, the filter `advancedSearch` composes, soft delete, restore and stock update. |
| `MockCatalog` | The in-memory branch of the DynamoDB product service. |
| `Carts`, `CartService` | The cart repository and the cart service. |
| `AuditLog` | The product audit log: repository and service. |
| `ProductService` | The products service, including pagination and inventory statistics. |
| `ProductRoutes` | The product listing and deleted-products pages. |
| `Users`, `UserRoutes` | User accounts, login, and the user-management handlers. |
| `AuthGate` | The session middleware. |
| `ImageStore` | The S3 image service. |
| `Registration` | lab1's registration and login. |
| `BasicProducts` | The Lab3_basic product controller. |

## Model

| member | source | states |
|---|---|---|
| Table.FindById | Lab03/repositories/base.repository.js:31-38 | The lookup finds nothing exactly when no item carries the key. What it finds is an item of the table stored under that key. |
| Table.FindByIdUnique | Lab03/repositories/base.repository.js:31-38 | When keys are unique, looking up an item's own key returns that very item. |
| Table.FindByField | Lab03/repositories/base.repository.js:90-100 | The scan returns exactly the items whose field equals the value: every result matches, and every matching item is returned. |
| Table.Delete | Lab03/repositories/base.repository.js:81-87 | After a delete no item carries the key, and every item under another key is still present. |
| Table.Put | Lab03/repositories/base.repository.js:41-48 | A put stores the item. A new key appends it; an existing key replaces the stored item. Items under other keys stay where they were. |
| Table.PutKeepsKeysUnique | Lab03/repositories/base.repository.js:41-48 | A put keeps the table's keys unique. |
| Table.Update | Lab03/repositories/base.repository.js:51-78 | A keyed update changes only the item under the key, by the given change. Every other item is untouched. An absent key changes nothing. |
| Table.UpdateKeepsKeysUnique | Lab03/repositories/base.repository.js:51-78 | An update that does not touch the key keeps keys unique. |
| Table.PlaceholderInjective | Lab03/repositories/base.repository.js:56 | Different attribute positions get different `:valN` placeholders, so no written value overwrites another. |
| Table.SetClauses | Lab03/repositories/base.repository.js:55-62 | There is one clause per data key, in key order. The `i`-th reads `#key = :val<i>` when the names map has a non-empty `#key` entry, and `key = :val<i>` otherwise. |
| Table.BuildUpdate | Lab03/repositories/base.repository.js:51-78 | The update expression is `SET ` followed by the clauses joined by ", ". There is one placeholder per data key. The names map is attached exactly when it is non-empty. |
| Table.BuildUpdateBindsEveryKey | Lab03/repositories/base.repository.js:55-63 | Each data key's value is bound to its own placeholder, and that key's `SET` clause assigns exactly that placeholder. |
| Table.BuildUpdateHasEveryClause | Lab03/repositories/base.repository.js:55-68 | The sent expression contains every data key's clause. |
| Table.BuildUpdateAppendsClause | Lab03/repositories/base.repository.js:55-68 | One more data key adds its clause at the end of the expression, after ", ": the clauses appear in key order. |
| Table.SendUpdate | Lab03/repositories/base.repository.js:51-77 | The store accepts the request exactly when no clause assigns a reserved word directly. An accepted request applies the caller's change to the item under the key and leaves every other item alone. A refused one names a reserved word that a data key writes without an alias. Each caller proves that its change writes exactly the request's data (Table.WritesData): see ProductService.OverwriteWritesData and Carts.SetQuantityWritesData. |
| Table.AliasedKeysAccepted | Lab03/repositories/base.repository.js:55-61 | A request whose names map aliases every reserved key it writes is accepted and applied. |
| Table.BareReservedKeyRefused | Lab03/repositories/base.repository.js:55-61 | A reserved key without an alias puts its bare `key = :valN` clause in the expression, and the store refuses the request. |
| Carts.FindByUserId | Lab03/repositories/carts.repository.js:16-26 | Every line returned is a stored line of that user. |
| Carts.FindByUserIdComplete | Lab03/repositories/carts.repository.js:16-26 | Every stored line of that user is returned. |
| Carts.FindCartItem | Lab03/repositories/carts.repository.js:29-40 | Nothing is found exactly when the user has no line for that product. Otherwise the result is the first such line in scan order. |
| Carts.UpdateQuantity | Lab03/repositories/carts.repository.js:43-48 | Only the quantity and modification time of the target line change. Every other line is untouched. |
| Carts.SetQuantityWritesData | Lab03/repositories/carts.repository.js:43-48 | The change made to the line is exactly the request's data. `quantity` and `updatedAt` read back the values bound to them. The id, owner, product and `createdAt` are unchanged. |
| Carts.UpdateQuantityWritesData | Lab03/repositories/carts.repository.js:43-48 | After the update, the line under the id holds exactly the data the request writes, and its other attributes are as before. |
| Carts.UpdateQuantityAccepted | Lab03/repositories/carts.repository.js:43-48 | The quantity request names no reserved word, so the store accepts it, and its answer is the updated table. |
| Carts.UpdateQuantityRequest | Lab03/repositories/carts.repository.js:43-48 | The request sent is `SET quantity = :val0, updatedAt = :val1`. It binds the new quantity and the time, and carries no names map. |
| Carts.ClearCart | Lab03/repositories/carts.repository.js:51-56 | Deleting, one by one, the ids read for the user removes exactly the lines under those ids. Nothing of that user remains. |
| Carts.ClearCartKeepsOthers | Lab03/repositories/carts.repository.js:51-56 | With unique line ids, clearing removes exactly that user's lines. Every other user's lines stay, in order. |
| Catalog.ActiveOrDeleted | Lab03/repositories/products.repository.js:16-44 | A record matches the active filter exactly when it does not match `isDeleted = true`. |
| Catalog.TierOf | Lab03/services/products.service.js:156-164 | The stock tier: out of stock exactly at zero, in stock exactly from five, and low otherwise, negative counts included. |
| Catalog.FindAllActive | Lab03/repositories/products.repository.js:16-26 | The scan returns exactly the records that lack the flag or have it false, in both directions. |
| Catalog.FindDeleted | Lab03/repositories/products.repository.js:34-44 | The scan returns exactly the records flagged deleted. |
| Catalog.ActiveDeletedPartition | Lab03/repositories/products.repository.js:16-44 | Together the active and deleted scans return every record exactly once: their sizes add up and their multisets combine to the table. |
| Catalog.FindByCategory | Lab03/repositories/products.repository.js:47-58 | The scan returns exactly the active records in the category. |
| Catalog.SearchByName | Lab03/repositories/products.repository.js:61-75 | The scan returns exactly the active records whose name contains the term. |
| Catalog.FindByPriceRange | Lab03/repositories/products.repository.js:78-90 | The scan returns exactly the active records priced within the inclusive range. |
| Catalog.AdvancedSearchPlan | Lab03/repositories/products.repository.js:93-129 | The active clause always comes first. Each other clause is present exactly when its criterion is given; with both price bounds, BETWEEN replaces the two one-sided clauses. The names map is present only with a search term. |
| Catalog.NoCriteriaFilterText | Lab03/repositories/products.repository.js:94-123 | Without criteria, the joined filter string is the active clause alone. |
| Catalog.SearchValuesFacts | Lab03/repositories/products.repository.js:95-118 | `:false` is always bound. Each criterion that is given binds its own placeholder to its value. |
| Catalog.SearchPlanDenotesCriteria | Lab03/repositories/products.repository.js:93-134 | The request `advancedSearch` builds accepts a product exactly when the product is active and meets every given criterion. |
| Catalog.AdvancedSearch | Lab03/repositories/products.repository.js:93-134 | Every result is a stored record the request accepts, and every such record is returned. |
| Catalog.NoCriteriaIsFindAllActive | Lab03/repositories/products.repository.js:93-134 | A search without criteria returns the same sequence as `findAllActive`. |
| Catalog.CategorySearchIsFindByCategory | Lab03/repositories/products.repository.js:98-101 | A category-only search returns the same sequence as `findByCategory`. |
| Catalog.NameSearchIsSearchByName | Lab03/repositories/products.repository.js:115-119 | A term-only search returns the same sequence as `searchByName`, even for the empty term. |
| Catalog.RangeSearchIsFindByPriceRange | Lab03/repositories/products.repository.js:103-106 | A search with both bounds returns the same sequence as `findByPriceRange`. |
| Catalog.SoftDelete | Lab03/repositories/products.repository.js:137-148 | Soft delete flags the target deleted and stamps `deletedAt`, and changes nothing else. |
| Catalog.Restore | Lab03/repositories/products.repository.js:151-161 | Restore makes the target active, removes `deletedAt`, and changes nothing else. |
| Catalog.UpdateQuantity | Lab03/repositories/products.repository.js:164-174 | Only the stock count of the target record changes. |
| Catalog.ApplyUpdate | Lab03/services/products.service.js:60-69 | Editing sets the six written attributes of the target. It keeps the target's flag, creation time and `deletedAt`, and leaves every other record untouched. |
| Catalog.RestoreUndoesSoftDelete | Lab03/repositories/products.repository.js:137-161 | Restoring after a soft delete gives the same table as restoring directly. It gives the original table when the record was active with an explicit `false` flag and no stamp. |
| Catalog.SoftDeleteHides | Lab03/repositories/products.repository.js:137-148 | After a soft delete, the active listing is the old listing without that record, in the same order. |
| MockCatalog.FalsyFlagIsActive | Lab03/services/dynamodb.service.js:50 | The fallback's `!p.isDeleted` selects the same records as the store's active filter. |
| MockCatalog.GetAllProducts | Lab03/services/dynamodb.service.js:46-50 | The fallback listing is exactly what `findAllActive` returns on the same records. |
| MockCatalog.GetAllProductsIncludeDeleted | Lab03/services/dynamodb.service.js:72-76 | The admin listing holds every record: the active ones and the deleted ones together, as a multiset. |
| MockCatalog.GetProductById | Lab03/services/dynamodb.service.js:88-90 | The lookup returns the first record with the id, or nothing exactly when none has it. |
| MockCatalog.CreateProduct | Lab03/services/dynamodb.service.js:106-116 | Create appends one record carrying the input, with `isDeleted` false and a creation stamp, and keeps the array before it. |
| MockCatalog.Overlay | Lab03/services/dynamodb.service.js:135 | Each supplied field overrides the stored one and each absent field keeps it. The id, flag and creation time are kept. |
| MockCatalog.UpdateProduct | Lab03/services/dynamodb.service.js:131-137 | The data is overlaid onto the first record with the id only. No match changes nothing. |
| MockCatalog.DeleteProduct | Lab03/services/dynamodb.service.js:168-174 | Soft delete sets the flag on the first record with the id and changes nothing else. |
| MockCatalog.RestoreProduct | Lab03/services/dynamodb.service.js:216-222 | Restore clears the flag on the first record with the id and changes nothing else. |
| MockCatalog.HardDeleteProduct | Lab03/services/dynamodb.service.js:197-200 | Hard delete drops every record with the id and keeps every other record. |
| MockCatalog.GetProductsByCategory | Lab03/services/dynamodb.service.js:245-248 | The fallback's category listing equals `findByCategory`. |
| MockCatalog.RestoreUndoesDelete | Lab03/services/dynamodb.service.js:168-222 | After a soft delete and a restore, the record is found again at the same position and listed as active. The array is unchanged when the record had an explicit `false` flag. |
| MockCatalog.DeleteHidesRecord | Lab03/services/dynamodb.service.js:168-174 | When ids are unique, a soft-deleted record leaves the listing but stays in the array. |
| MockCatalog.InitialListing | Lab03/services/dynamodb.service.js:10-41 | The seed data lists two products and holds one soft-deleted product. |
| AuditLog.LogAction | Lab03/repositories/product-logs.repository.js:17-28 | Logging stores one entry carrying the given id, product, tag, actor, serialised details and time, through the base repository's put. Under a fresh id the entry is appended at the end. Under an id already stored, it replaces that entry and the length stays the same. Entries under other ids keep their place. Unique ids stay unique. |
| AuditLog.FindByProductId | Lab03/repositories/product-logs.repository.js:31-44 | The result is newest first and is a permutation of that product's entries. |
| AuditLog.FindByUserId | Lab03/repositories/product-logs.repository.js:47-59 | The result is newest first and is a permutation of that user's entries. |
| AuditLog.FindByAction | Lab03/repositories/product-logs.repository.js:62-77 | The result is newest first and is a permutation of the entries with that tag. |
| AuditLog.FindAllSorted | Lab03/repositories/product-logs.repository.js:80-83 | The result is newest first and is a permutation of all entries. |
| AuditLog.TallyActionsCounts | Lab03/services/product-logs.service.js:55-59 | After counting, each bucket holds the number of entries with its tag. |
| AuditLog.GetLogStats | Lab03/services/product-logs.service.js:40-67 | The total is the number of entries. Each bucket counts its tag. The recent list is the first ten (or fewer) entries of the newest-first order. |
| AuditLog.BucketsCountKnown | Lab03/services/product-logs.service.js:55-59 | The five buckets together count exactly the entries with a known tag. |
| AuditLog.BucketsAtMostTotal | Lab03/services/product-logs.service.js:43-59 | The buckets sum to at most the total. They sum to exactly the total when every tag is known. |
| AuditLog.ActionDisplay | Lab03/services/product-logs.service.js:111-120 | Each of the five tags gets its fixed text, class and icon. Any other tag is echoed with the neutral style. |
| AuditLog.DisplayClassIdentifiesKnownTag | Lab03/services/product-logs.service.js:111-120 | A known tag's style class belongs to no other tag, known or unknown. |
| AuditLog.ParseDetails | Lab03/services/product-logs.service.js:92-99 | Text that does not parse shows as empty details. Parsed text, or a value that is not a string, is shown as it is. |
| AuditLog.Enrich | Lab03/services/product-logs.service.js:70-108 | Enrichment gives one entry per log, in order. The user shows as "Unknown" exactly when no user has the log's userId, and a found user carries no password. The product shows as removed exactly when no product has the log's productId. Each entry gets its parsed details and display style. |
| AuditLog.LoggedDetailsReadBack | Lab03/services/product-logs.service.js:92-99 | Wherever the stored entry sits in the table, its details read back unchanged once enriched. |
| AuditLog.EnrichOne | Lab03/services/product-logs.service.js:70-108 | One log is shown with its user without the password, or "Unknown" exactly when no user has its userId; with its product, or "Đã xóa" exactly when no product has its productId; with its parsed details and its display style. |
| AuditLog.EntriesOfEnrich | Lab03/services/product-logs.service.js:70-108 | Enriching keeps the entries, in the same order. |
| AuditLog.GetLogsByProductId | Lab03/services/product-logs.service.js:17-20 | The result's entries are exactly that product's logs, as a multiset, newest first. Each is enriched from its own entry. |
| AuditLog.GetLogsByUserId | Lab03/services/product-logs.service.js:23-26 | The result's entries are exactly that user's logs, as a multiset, newest first. Each is enriched from its own entry. |
| AuditLog.GetLogsByAction | Lab03/services/product-logs.service.js:29-32 | The result's entries are exactly the logs with that tag, as a multiset, newest first. Each is enriched from its own entry and shows that tag's display. |
| AuditLog.GetAllLogs | Lab03/services/product-logs.service.js:11-14 | The result's entries are all the logs, as a multiset, newest first. Each is enriched from its own entry. |
| AuthGate.IsAuthenticated | Lab03/middleware/auth.js:9-14 | The request passes exactly when the session holds a user. Otherwise it is redirected to the login page. |
| AuthGate.IsAdmin | Lab03/middleware/auth.js:17-28 | The request passes exactly when the session user's role is admin. Otherwise it gets 403. |
| AuthGate.IsStaffOrAdmin | Lab03/middleware/auth.js:31-43 | The request passes exactly when the role is admin or staff. Otherwise it gets 403. |
| AuthGate.CurrentUser | Lab03/middleware/auth.js:46-49 | Views see a current user exactly when the session holds one, and it is that user. |
| AuthGate.CurrentUserIffAuthenticated | Lab03/middleware/auth.js:46-49 | Views show a current user exactly on the requests the authentication gate lets through. |
| AuthGate.GatesNested | Lab03/middleware/auth.js:9-43 | Admin passes staff-or-admin, which passes authentication. A customer passes only authentication. |
| Users.StripPassword | Lab03/repositories/users.repository.js:31 | A stripped user has no password and otherwise equals the stored user. |
| Users.FindByUsername | Lab03/repositories/users.repository.js:16-27 | The result is the first user with that name in scan order, or nothing exactly when no user has it. |
| Users.AllWithoutPassword | Lab03/repositories/users.repository.js:29-33 | The result holds every user, in order, each without a password and otherwise unchanged. |
| Users.FindByIdWithoutPassword | Lab03/repositories/users.repository.js:35-42 | Nothing is found exactly when no user has the id. What is found has that id, carries no password, and is a stored user otherwise unchanged. |
| Users.VerifyPasswordRoundTrip | Lab03/services/users.service.js:9-16 | A password verifies against its own stored hash and never against a record without one. With an injective hash, no other password verifies. |
| Users.FindByRole | Lab03/repositories/users.repository.js:44-57 | Every user with that role appears, password cleared. Every result is a stored user with that role, password cleared. Order is the table's. |
| Users.StrippedSelection | Lab03/repositories/users.repository.js:44-57 | Clearing the passwords of the users a scan keeps shows each kept user, and nothing that is not a stored user. |
| Users.CreateUser | Lab03/services/users.service.js:67-85 | The put is rejected exactly when the record has no `id`. Otherwise the stored record carries the password's hash, users under other ids stay, and the returned record has no password. |
| Users.UpdateUser | Lab03/services/users.service.js:88-116 | An update sets username and role, and the hash only when a password is supplied. Id, `userId` and creation time are kept, and other users are untouched. |
| Users.DeleteUser | Lab03/services/users.service.js:119-130 | After a delete no user has the id, and every other user remains. |
| Users.AuthenticateUser | Lab03/services/users.service.js:133-154 | A store failure, an unknown name and a wrong password each give their own failure. Login succeeds exactly when the hash matches, and the session then holds `{ id, username, role }`. |
| Users.LoginSessionShape | Lab03/services/users.service.js:142-149 | A successful login's session user has an `id` but no `userId`. |
| Users.CreatedUserCanLogIn | Lab03/services/users.service.js:133-154 | A user created with a fresh id and an unused name can log in with the password it was created with. |
| UserRoutes.EditData | Lab03/routes/users.js:54-64 | The update data always carries username and role. It carries the password exactly when the password is non-empty after `trim()`. |
| UserRoutes.EditReplacesHashIffPasswordHasText | Lab03/routes/users.js:54-64 | An edit replaces the stored hash when the submitted password contains a non-space character. When every character is white space, the old hash stays. |
| UserRoutes.AddUserRecord | Lab03/routes/users.js:31-42 | The add handler's record puts the generated identifier under `userId` and has no `id`. |
| UserRoutes.AddUserAsWrittenAlwaysFails | Lab03/routes/users.js:34-39 | As written, adding a user is always rejected by the store, because the record lacks the table key. |
| UserRoutes.AddUserRecordFixed | Lab03/routes/users.js:31-42 | The corrected record carries the generated identifier as `id`. |
| UserRoutes.AddUserFixedStoresAccount | Lab03/routes/users.js:31-42 | With the corrected record, the account is stored under the new id, can be fetched by it, and stores only the hash. |
| UserRoutes.DeleteGuard | Lab03/routes/users.js:67-75 | The guard as written refuses exactly when the session user's `userId` is the target. |
| UserRoutes.GuardNeverFiresAfterLogin | Lab03/routes/users.js:69 | After any Lab03 login (Lab03/routes/auth.js:20 stores the authenticated user), the written guard never refuses. |
| UserRoutes.DeleteHandler | Lab03/routes/users.js:67-75 | A refusal leaves the users unchanged. Otherwise the target is deleted. |
| UserRoutes.AdminCanDeleteSelf | Lab03/routes/users.js:67-75 | A logged-in admin who asks to delete their own id is let through, and their record is removed. |
| UserRoutes.DeleteGuardFixed | Lab03/routes/users.js:68-71 | The corrected guard refuses exactly when the session user's `id` is the target. |
| UserRoutes.FixedGuardRefusesExactlySelf | Lab03/routes/users.js:68-71 | After a login, the corrected guard refuses exactly the logged-in user's own id. |
| ProductService.CreateProduct | Lab03/services/products.service.js:32-54 | Create makes an active record under the new id from the converted fields, with empty text for absent ones. It is found by that id unless the id was already taken. Under a fresh id the table gains exactly that record at the end; records under other ids stay where they were. One CREATE entry with name, price and quantity is appended. |
| ProductService.KeptImage | Lab03/services/products.service.js:65 | An edit keeps the submitted image if non-empty. Otherwise it keeps the current record's image, or "" when there is no record. |
| ProductService.UpdateProductAsWritten | Lab03/services/products.service.js:57-78 | An edit as written is always refused with the reserved word `name`, so no UPDATE entry is appended. |
| ProductService.UpdateAsWrittenSendsBareName | Lab03/services/products.service.js:68 | For every form, the request sent without a names map contains `name = :val0`, and the edit is refused. |
| ProductService.OnlyNameReserved | Lab03/services/products.service.js:60-67 | Of the six attributes an edit writes, only `name` is reserved, and the map `{"#name": "name"}` aliases it. |
| ProductService.OverwriteWritesData | Lab03/services/products.service.js:60-68 | The change an edit makes to a record is exactly the data its request writes. The six fields read back their bound values. `id`, `isDeleted`, `createdAt` and `deletedAt` are unchanged. |
| ProductService.UpdateProduct | Lab03/services/products.service.js:57-78 | The corrected edit passes `{"#name": "name"}`. The store accepts the request, and the edited record then holds exactly the request's data. One UPDATE entry is appended with the record as it was and the data written. |
| ProductService.EntryIsLogAction | Lab03/repositories/product-logs.repository.js:17-28 | Under a fresh log id, appending a mutation's entry is what `logAction`'s put does. |
| ProductService.DeleteProduct | Lab03/services/products.service.js:81-92 | After a delete the record is soft-deleted and absent from the active listing. One DELETE entry with its former name is appended. |
| ProductService.HardDeleteProduct | Lab03/services/products.service.js:95-106 | After a hard delete the record is gone and all others remain. One HARD_DELETE entry with its former name is appended. |
| ProductService.RestoreProduct | Lab03/services/products.service.js:109-116 | After a restore the record is active. One RESTORE entry with no details is appended. |
| ProductService.Apply | Lab03/services/products.service.js:32-116 | Each mutating call appends exactly one entry naming its product, tag, actor and time, and keeps the earlier entries. |
| ProductService.RunLogsEveryCall | Lab03/services/products.service.js:32-116 | After any sequence of calls, the old entries are intact and there is exactly one new entry per call, in call order. |
| ProductService.PageCount | Lab03/services/products.service.js:139 | The page count is the least number of pages that hold all items. |
| ProductService.Paginate | Lab03/services/products.service.js:138-152 | A page holds at most `limit` items: for page 1 onwards, the slice from `(page - 1) * limit`. It reports the requested page as current. Totals, `hasNext` and `hasPrev` are as documented. |
| ProductService.PageStartIsProduct | Lab03/services/products.service.js:140 | The stepwise start index equals `(page - 1) * limit`. |
| ProductService.PagesUpToPrefix | Lab03/services/products.service.js:140-144 | Reading pages one to k in turn yields the first k·limit items. |
| ProductService.PageStartMonotone | Lab03/services/products.service.js:140 | Later pages start later. |
| ProductService.PagesCoverListing | Lab03/services/products.service.js:129-153 | Pages 1 to totalPages show every item exactly once, in order, and every later page is empty. |
| ProductService.Listing | Lab03/services/products.service.js:131-136 | The listing is the search result when filters are given, and otherwise the active products. It holds only active products, and only matching ones under filters. |
| ProductService.GetProductsPaginated | Lab03/services/products.service.js:129-153 | A page holds only active products, only matching ones when filters are given. From page 1 on, it is the slice of the listing starting at `(page - 1) * limit`. The requested page is current, the totals count the whole listing, and `hasNext`/`hasPrev` are as documented. |
| ProductService.InventoryStatus | Lab03/services/products.service.js:156-164 | The whole badge per stock tier: "Hết hàng"/danger/❌ at zero, "Sắp hết (n)"/warning/⚠️ below five (negatives included), "Còn hàng"/success/✅ otherwise. The class is the tier's class. |
| ProductService.Bump | Lab03/services/products.service.js:178-188 | Counting one more product raises the total by one and its tier by one, and adds price × quantity. |
| ProductService.TallyCounts | Lab03/services/products.service.js:178-188 | Counting a listing gives its size, its per-tier counts and its summed stock value. |
| ProductService.GetInventoryStats | Lab03/services/products.service.js:167-191 | The statistics of the active listing: total, tier counts, and the sum of price × quantity. |
| ProductService.TiersSumToTotal | Lab03/services/products.service.js:181-187 | Every product falls in exactly one tier, so the tier counts sum to the total. |
| CartService.StockStatus | Lab03/services/carts.service.js:137-145 | The whole cart badge per stock tier: "Hết hàng"/danger/❌ at zero, "Sắp hết (còn n)"/warning/⚠️ below five, "Còn hàng"/success/✅ otherwise. |
| CartService.CartAndInventoryBadgesAgree | Lab03/services/carts.service.js:137-145 | The cart and inventory badges agree on class and icon at every stock level. Only the low-stock wording differs. |
| CartService.AddToCart | Lab03/services/carts.service.js:11-53 | A missing product, a discontinued one, and short stock are each reported, in that order. On every error the cart is unchanged. A success either tops up the existing line, with the sum within stock, or puts a new line. An active product with enough stock is added exactly when no line exists or the topped-up sum still fits; otherwise the top-up overflow is reported with the stock. |
| CartService.GetCartCount | Lab03/services/carts.service.js:131-134 | A user with no lines has count zero. |
| CartService.GetCartCountSnoc | Lab03/services/carts.service.js:131-134 | A further line adds its quantity to its owner's count and nothing to anyone else's. With the zero case, this fixes the count as the sum of the user's quantities. |
| CartService.CountAtLeastLines | Lab03/services/carts.service.js:131-134 | When each of the user's lines holds at least one unit, the count is at least the number of lines. |
| CartService.AddToCartRaisesCount | Lab03/services/carts.service.js:28-52 | A successful add raises the user's item count by exactly the quantity added, whether a line was topped up or created. |
| CartService.AddToCartTopsUp | Lab03/services/carts.service.js:30-39 | When the pair already has a line, a successful add writes the summed quantity to it. |
| CartService.NewLineRaisesCount | Lab03/services/carts.service.js:40-52 | A line put under a new id adds its quantity to its owner's count. |
| CartService.AddToCartAcceptsNegativeQuantity | Lab03/services/carts.service.js:11-25 | Asking for −2 of an in-stock product succeeds and leaves a line of −2. |
| CartService.AddToCartChecked | Lab03/services/carts.service.js:11-25 | Corrected: a quantity below one is refused exactly, and otherwise the add behaves as written. A new line holds between one unit and the stock. |
| CartService.AddToCartCheckedKeepsLinesPositive | Lab03/services/carts.service.js:11-53 | With the check in place, lines that all hold at least one unit still do after any add. |
| CartService.LiveProduct | Lab03/services/carts.service.js:63-65 | A line's product is shown exactly when it exists and is not flagged deleted. |
| CartService.JoinLine | Lab03/services/carts.service.js:66-75 | A joined line carries its product, price × quantity, availability exactly when stock covers the line, and the stock badge. |
| CartService.JoinAllKeepsLiveLines | Lab03/services/carts.service.js:62-77 | Joining keeps exactly the lines with a live product, in order, each joined. |
| CartService.GetCartWithProducts | Lab03/services/carts.service.js:56-84 | The view holds the user's lines whose product is live, in order, each joined, and counts them. The total amount is the sum of the subtotals. |
| CartService.UserLine | Lab03/services/carts.service.js:88-89 | A line is picked exactly when the user has a line with that id. |
| CartService.UpdateCartItemQuantity | Lab03/services/carts.service.js:87-109 | Behaviour as written: a foreign or missing line is refused. Zero or less removes the line. Otherwise stock is checked and the quantity written. A line whose product is gone fails on `null`. |
| CartService.UpdateAfterHardDeleteFails | Lab03/services/carts.service.js:102-103 | Concretely, a positive update of a line whose product was hard-deleted fails on the missing product. |
| CartService.UpdateCartItemQuantityChecked | Lab03/services/carts.service.js:87-109 | Corrected: a missing product is reported, never a failure on `null`. Otherwise the update behaves as written, and a written quantity lies between one and the stock. |
| CartService.RemoveFromCart | Lab03/services/carts.service.js:112-122 | Only one of the user's own lines can be removed. Afterwards no line has that id, and lines under other ids stay. |
| CartService.ClearCart | Lab03/services/carts.service.js:125-128 | Clearing reports success and leaves no line of the user. With unique ids, exactly the other users' lines remain. |
| ImageStore.UploadKey | Lab03/services/s3.service.js:35 | The key is the image folder followed by the original file name. |
| ImageStore.UploadImage | Lab03/services/s3.service.js:33-52 | A stored upload returns the regional URL of its key. A failed upload returns "". |
| ImageStore.DeleteImageByUrl | Lab03/services/s3.service.js:54-77 | An empty URL deletes nothing. The regional prefix is tried first, then the global one. A URL with neither prefix deletes nothing. |
| ImageStore.UploadThenDeleteRoundTrip | Lab03/services/s3.service.js:33-77 | Deleting by the URL an upload returned deletes exactly the uploaded key. A failed upload's URL deletes nothing. |
| ImageStore.UploadUrlsDistinct | Lab03/services/s3.service.js:35-46 | Different file names give different URLs. |
| ImageStore.ListImages | Lab03/services/s3.service.js:8-31 | The listing keeps exactly the non-folder, non-empty objects, each with its regional URL. A failed listing is empty. |
| ImageStore.ListedImagesDeletable | Lab03/services/s3.service.js:19-26 | Every listed image's URL deletes exactly its key. |
| ProductRoutes.CriteriaOf | Lab03/routes/products.js:45-50 | Each criterion is given exactly when its query parameter is truthy. Price bounds are converted with `Number`. |
| ProductRoutes.HasFiltersIffCriteria | Lab03/routes/products.js:40-50 | The filtered branch is taken exactly when the criteria ask for something. |
| ProductRoutes.CurrentPage | Lab03/routes/products.js:28-30 | The page is never zero. An absent page, one that does not parse, and one that parses to zero are page one. A page that parses to a nonzero number is that number, negatives included. |
| ProductRoutes.HexPageLinkOpensPage | Lab03/routes/products.js:30 | `?page=0x1f` opens page 31, since `parseInt` reads the `0x` prefix as hexadecimal. |
| ProductRoutes.PageLinkOpensPage | Lab03/routes/products.js:28-30 | A `?page=N` link for nonzero N opens page N. |
| ProductRoutes.Selection | Lab03/routes/products.js:42-54 | With filters, the selection is the search result. Without them, it is the active listing. |
| ProductRoutes.SortedSelection | Lab03/routes/products.js:57 | The sorted selection is newest first and a permutation of the selection. It holds only stored active products, and only matching ones under filters. |
| ProductRoutes.ListProducts | Lab03/routes/products.js:27-85 | The page holds at most six products, newest first, each stored and active, and each matching under filters. The pagination fields are as documented. |
| ProductRoutes.SelectionMatches | Lab03/routes/products.js:42-54 | The selection holds stored active products, and only matching ones under filters. |
| ProductRoutes.SliceOfSorted | Lab03/routes/products.js:63 | A slice of a sorted sequence is sorted and holds only its elements. |
| ProductRoutes.ConsecutivePagesOrdered | Lab03/routes/products.js:57-63 | Everything on page n is at least as new as everything on page n + 1. |
| ProductRoutes.OpenedPage | Lab03/routes/products.js:27-85 | Following the link to page n shows page n of the sorted selection. |
| ProductRoutes.SameFiltersSameSelection | Lab03/routes/products.js:28-57 | The page parameter plays no part in the selection. |
| ProductRoutes.ListIsPage | Lab03/routes/products.js:59-66 | The listing shows the current page of the sorted selection. |
| ProductRoutes.SortedPagesOrdered | Lab03/routes/products.js:57-63 | On a sorted list, page n is throughout at least as new as page n + 1. |
| ProductRoutes.DeletedView | Lab03/routes/products.js:88-99 | The deleted view equals `findDeleted`. It shows a record exactly when the record is not active. |
| Seqs.SortDesc | Lab03/routes/products.js:57 | Sorting newest first gives a sorted permutation of the input. It is stable: for every key, the elements with that key appear in their input order. |
| Seqs.InsertDescKeepsTies | Lab03/routes/products.js:57 | Inserting an element places it ahead of the elements with an equal key, which is what makes the sort keep ties in input order. |
| Text.TrimShape | Lab03/routes/users.js:58 | `trim()` is the stretch of the text after its leading white space, followed only by white space, and neither starting nor ending with white space. |
| Text.TrimEmptyIffAllSpace | Lab03/routes/users.js:58 | `trim()` gives "" exactly when every character is white space. |
| Text.ParseInt | Lab03/routes/products.js:30 | `parseInt` yields `NaN` exactly when no digit follows the white space, the sign and any `0x` prefix. A negative result needs a leading minus. |
| Text.ParseIntOfIntToString | Lab03/routes/products.js:30 | `parseInt(String(n))` is `n`. |
| Text.ParseIntReadsHex | Lab03/routes/products.js:30 | `parseInt("0x1f")` is 31. |
| Text.ParseIntReadsSignedHex | Lab03/routes/products.js:30 | `parseInt("-0X10")` is −16. |
| Text.ParseIntBarePrefix | Lab03/routes/products.js:30 | `parseInt("0x")` is `NaN`. |
| Text.JoinAppend | Lab03/repositories/base.repository.js:68 | Joining two non-empty runs of parts puts exactly one separator between them. |
| Text.JoinHasPart | Lab03/repositories/base.repository.js:68 | A joined text contains each of its parts. |
| Seqs.JsSlice | Lab03/services/products.service.js:144 | `slice` with bounds from zero up is the stretch between the clamped bounds. Any slice is empty or such a stretch. |
| Seqs.JsSliceTakesPrefix | Lab03/services/product-logs.service.js:64 | `slice(0, k)` is the first `k` elements, or all of them when there are fewer. |
| BasicProducts.CreateProduct | Lab3_basic/controllers/product.controller.js:8-20 | Create appends one item whose id is the decimal clock reading and whose fields are the converted form. |
| BasicProducts.FindProduct | Lab3_basic/controllers/product.controller.js:21-24 | The edit form finds the first item with the id, or nothing exactly when none has it. |
| BasicProducts.CreatedProductIsFound | Lab3_basic/controllers/product.controller.js:8-24 | A product created at a fresh clock reading is the one the edit form then finds. |
| BasicProducts.CreatedIdsDiffer | Lab3_basic/controllers/product.controller.js:12 | Different clock readings give different ids. |
| BasicProducts.UpdateProduct | Lab3_basic/controllers/product.controller.js:25-34 | An unknown id fails. Otherwise only the first matching item's name, price and quantity change. |
| BasicProducts.UpdateThenFind | Lab3_basic/controllers/product.controller.js:25-34 | After an update, the edit form shows the submitted values. |
| BasicProducts.SpliceOne | Lab3_basic/controllers/product.controller.js:37 | `splice(start, 1)` removes the element at the resolved start, counting a negative start from the end, and nothing past the end. |
| BasicProducts.DeleteProductAsWritten | Lab3_basic/controllers/product.controller.js:35-39 | As written: a present id removes its first item, and an unknown id removes the last item. |
| BasicProducts.DeleteUnknownIdDropsLastProduct | Lab3_basic/controllers/product.controller.js:36-37 | Concretely, deleting an unknown id from a one-item list removes the item, which has another id. |
| BasicProducts.DeleteProduct | Lab3_basic/controllers/product.controller.js:35-39 | Corrected: an unknown id changes nothing, and a present id removes its first item. |
| BasicProducts.DeleteRemovesExactlyThatId | Lab3_basic/controllers/product.controller.js:35-39 | With unique ids, the corrected delete removes exactly the item with that id and keeps all others, in order. |
| BasicProducts.DeleteAgreesWhenPresent | Lab3_basic/controllers/product.controller.js:36-37 | The written and corrected deletes agree whenever the id is present. |
| Registration.CheckEmailIffShape | lab1/controllers/auth.controller.js:31-32 | The email scan accepts exactly the strings of `/^[^\s@]+@[^\s@]+\.[^\s@]+$/`. |
| Registration.FindByUsername | lab1/models/user.model.js:5-13 | The lookup finds nothing exactly when no row has that username. Otherwise it returns a stored row with it. |
| Registration.FindByEmail | lab1/models/user.model.js:15-23 | The lookup finds nothing exactly when no row has that email. Otherwise it returns a stored row with it. |
| Registration.Register | lab1/controllers/auth.controller.js:12-72 | Registration reports a failing check, and no earlier check fails. On success every check passes and one row with the hashed password is inserted. |
| Registration.RegisterOkIffAllChecksPass | lab1/controllers/auth.controller.js:17-65 | A row is inserted exactly when the form passes every check. |
| Registration.UsernameCheckedBeforeEmail | lab1/controllers/auth.controller.js:45-55 | When both username and email are taken, the username is reported. |
| Registration.RegisterKeepsAccountsWellFormed | lab1/controllers/auth.controller.js:26-65 | Registration keeps every username well-formed and every email well-shaped, and the new row's username and email are unused. |
| Registration.LookupLogin | lab1/controllers/auth.controller.js:89-93 | The login name is looked up as a username first, then as an email. |
| Registration.Login | lab1/controllers/auth.controller.js:80-124 | Missing fields, an unknown name and a wrong password fail; the last two give the same error. A success names an account whose username or email is the name and whose hash the password matches. When the name refers to an account, the login succeeds exactly when the password matches that account's hash, and the session holds that account's id, username and email. |
| Registration.RegisteredUserCanLogIn | lab1/controllers/auth.controller.js:80-117 | A freshly registered user can log in with the username and with the email. |
| Registration.EmailNotUsername | lab1/controllers/auth.controller.js:89-93 | An email never matches a registered username, so a login by email always reaches the email lookup. |

## Left out

- ProductService: each mutation appends its log entry, taking the `uuidv4()` id in `Stamp.logId` as fresh. ProductService.EntryIsLogAction shows that the append is `logAction`'s put under a fresh id. A repeated id would replace an entry instead (AuditLog.LogAction), and the count promises of ProductService.Apply and ProductService.RunLogsEveryCall assume it does not happen.
- The DynamoDB and S3 calls themselves, and the network. Each repository operation is modelled by its effect on the table, and an S3 call's success is a parameter. The one refusal the model includes is the reserved-word check on an update (Table.SendUpdate). Its word list holds only `name`, the one reserved word among the attribute names written through `update`. Other validation and service errors are left out.
- DynamoDB's `UpdateItem` on a missing key creates the item (an upsert). The model leaves the table unchanged instead.
- The switch between the DynamoDB branch and the in-memory branch of the product service (`useAWS`, a process-wide flag) is left out. Each branch is modelled on its own: `Catalog` for the DynamoDB branch and `MockCatalog` for the in-memory one. The DynamoDB branch's own `updateProduct` (Lab03/services/dynamodb.service.js:131-165) is the one the edit route calls (Lab03/routes/products.js:148). It aliases `#name` and writes five fields, without a log entry. It is not modelled separately from the products repository's `update`.
- Concurrency between requests is left out. The models apply one call at a time.
- `Number(...)` on form text, and so `NaN`, floating point and non-integer prices, is a parameter `toNumber: string -> int`. Prices and quantities are integers.
- ISO time stamps are integers, and `new Date(...)` on a malformed stamp is left out. The sort comparators assume valid times.
- Users.CreateUser: the JavaScript spread copies any extra attribute; the model keeps only the fields of `NewUser`.
- Password hashing (SHA-256 in Lab03, bcrypt in lab1) and bcrypt's comparison are uninterpreted parameters.
- JWT signing and `req.session.token` in lab1's login are left out, as is the session store.
- Rendering, redirects and status pages are modelled as outcome values. Views and templates are left out. The Lab3_basic handlers `getAllProducts` and `getAddForm` only render, so they are not modelled.
- Lab3_basic `updateProduct` with an unknown id throws on `undefined`. The model reports this as `Err(NoSuchProduct)`.
- In lab1, a database error in `register`/`login` re-renders the form; the model leaves these catch branches out. MySQL's default case-insensitive collation for `WHERE username = ?` is left out too: lookups compare exactly.
- String lengths count Unicode scalar values, not UTF-16 code units, so `username.length < 3` and `password.length < 6` differ for characters outside the Basic Multilingual Plane.
- AuditLog.ActionDisplay: JavaScript's prototype keys are left out. For a tag such as `constructor` or `toString`, `displays[action]` in `getActionDisplay` (Lab03/services/product-logs.service.js:111-120) is an inherited, truthy value, while the model gives the neutral badge. The same holds for `stats.byAction[log.action]` in AuditLog.GetLogStats: only the five named tags are counted.
- The products service's `getAllProducts`, `getAllProductsIncludeDeleted`, `getDeletedProducts`, `getProductById`, `searchProducts` and `getProductsByCategory` are one-line delegations. Each is modelled by the repository function it calls. The repository's `findAll` and `findAllIncludeDeleted` return the table itself.
- ProductService.GetProductsPaginated: requires `limit >= 1`. The source's default is 10. With a limit of 0, JavaScript computes `Infinity` pages and a `NaN` slice bound and returns an empty page; an integer model cannot represent `Infinity` or `NaN`.
- ProductService.Paginate: the slice is described index-wise only for page 1 and beyond. For page 0 and negative pages the result is still the JavaScript slice, but no closed form is stated for it.

## Findings

| source | as written | input that shows it | evidently intended | confidence | as-written member | corrected member |
|---|---|---|---|---|---|---|
| Lab3_basic/controllers/product.controller.js:36-37 | `splice(findIndex(...), 1)` with no check for -1 | deleting id "2" from `[{id:"1"}]` removes product "1" | an unknown id deletes nothing | high (not executed) | BasicProducts.DeleteProductAsWritten, BasicProducts.DeleteUnknownIdDropsLastProduct | BasicProducts.DeleteProduct, BasicProducts.DeleteRemovesExactlyThatId |
| Lab03/routes/users.js:69 | the self-delete guard compares `req.session.user.userId` | an admin logged in through Lab03/routes/auth.js:20, whose session user is `{ id, username, role }`, posts `/delete/<own id>` and is deleted | compare `req.session.user.id` | high (not executed) | UserRoutes.DeleteGuard, UserRoutes.GuardNeverFiresAfterLogin, UserRoutes.AdminCanDeleteSelf | UserRoutes.DeleteGuardFixed, UserRoutes.FixedGuardRefusesExactlySelf |
| Lab03/routes/users.js:34-39 | the new user's identifier is stored as `userId`, while the Users table is keyed by `id` | any add-user form: the put lacks the key attribute and is rejected | store the identifier as `id` | medium (not executed; the key schema is `id` in Lab03/repositories/users.repository.js:12 and Lab03/scripts/seed-tables.js:23-25) | UserRoutes.AddUserRecord, UserRoutes.AddUserAsWrittenAlwaysFails | UserRoutes.AddUserRecordFixed, UserRoutes.AddUserFixedStoresAccount |
| Lab03/services/carts.service.js:11-25 | no lower bound on the requested quantity | `addToCart(u, p, -2)` on an empty cart creates a line of −2 and a count of −2 | refuse quantities below one | medium (not executed; Lab03/routes/cart.js:32 passes `Number(quantity)` with 1 only as the fallback for zero and `NaN`, so −2 reaches the service) | CartService.AddToCart, CartService.AddToCartAcceptsNegativeQuantity | CartService.AddToCartChecked, CartService.AddToCartCheckedKeepsLinesPositive |
| Lab03/services/carts.service.js:102-103 | `product.quantity` is read without checking that the product still exists | a line for product "p1" after "p1" is hard-deleted, updated to quantity 3, throws a `TypeError` | report the missing product | high (not executed) | CartService.UpdateCartItemQuantity, CartService.UpdateAfterHardDeleteFails | CartService.UpdateCartItemQuantityChecked |
| Lab03/services/products.service.js:68 | `productsRepository.update(id, dataToUpdate)` is called without a names map, so the request reads `SET name = :val0, …`; `name` is a DynamoDB reserved word | any call of `products.service.updateProduct`: the store refuses the request, the call throws, and no UPDATE entry is logged. No route in the repository calls this function; the edit route uses `dynamodb.service.updateProduct`, which aliases `#name` | pass `{"#name": "name"}`, as Lab03/repositories/categories.repository.js:15 does with the same `update` | medium, but latent (not executed; no route reaches this function. The rest of the program aliases `name` everywhere, at Lab03/repositories/products.repository.js:64-66 and 116-118) | ProductService.UpdateProductAsWritten, ProductService.UpdateAsWrittenSendsBareName | ProductService.UpdateProduct, ProductService.OnlyNameReserved |

=== FILE: audit_log.dfy ===
/** The product audit trail (Lab03/repositories/product-logs.repository.js and
    Lab03/services/product-logs.service.js): appending entries, the filtered
    newest-first listings, the statistics page and the display enrichment.
    JSON serialisation is abstract: a serialised blob parses back to what was
    written, and a blob that does not parse shows as empty details. */
module AuditLog {
  import opened Outcome
  import opened Seqs
  import opened Catalog
  import Users
  import Table

  /** What each kind of mutation records. */
  datatype Details =
    | CreateDetails(name: string, price: int, quantity: int)
    | UpdateDetails(before: Option<Product>, after: ProductUpdate)
    | NameDetails(deletedName: Option<string>)
    | NoDetails

  /** The `details` attribute as found in the table: the serialised text the
      application writes, text that is not valid JSON, or a non-string value. */
  datatype StoredDetails = Serialized(d: Details) | Unparseable(text: string) | Structured(d: Details)

  datatype LogEntry = LogEntry(
    id: string, productId: string, action: string, userId: string, details: StoredDetails, time: int)

  const CREATE := "CREATE"
  const UPDATE := "UPDATE"
  const DELETE := "DELETE"
  const RESTORE := "RESTORE"
  const HARD_DELETE := "HARD_DELETE"

  predicate IsKnownAction(a: string) {
    a == CREATE || a == UPDATE || a == DELETE || a == RESTORE || a == HARD_DELETE
  }

  function TimeOf(e: LogEntry): int {
    e.time
  }

  /** The primary key of the log table. */
  function LogKey(e: LogEntry): string {
    e.id
  }

  /** `logAction`: builds one entry with the given subject, tag and actor and stores it
      with the base repository's put. Under a fresh id the entry is appended; an entry
      already stored under the id is replaced. */
  function LogAction(logs: seq<LogEntry>, id: string, productId: string, action: string,
                     userId: string, details: Details, now: int): (r: (LogEntry, seq<LogEntry>))
    ensures r.0.id == id && r.0.productId == productId && r.0.action == action
    ensures r.0.userId == userId && r.0.time == now && r.0.details == Serialized(details)
    ensures r.0 in r.1
    ensures (forall i :: 0 <= i < |logs| ==> logs[i].id != id) ==> r.1 == logs + [r.0]
    ensures (exists i :: 0 <= i < |logs| && logs[i].id == id) ==> |r.1| == |logs|
    ensures forall i :: 0 <= i < |logs| && logs[i].id != id ==> r.1[i] == logs[i]
    ensures Table.KeysUnique(logs, LogKey) ==> Table.KeysUnique(r.1, LogKey)
  {
    var e := LogEntry(id, productId, action, userId, Serialized(details), now);
    if Table.KeysUnique(logs, LogKey) then
      Table.PutKeepsKeysUnique(logs, LogKey, e);
      (e, Table.Put(logs, LogKey, e))
    else
      (e, Table.Put(logs, LogKey, e))
  }

  function ForProduct(productId: string): LogEntry -> bool {
    (e: LogEntry) => e.productId == productId
  }

  function ByUser(userId: string): LogEntry -> bool {
    (e: LogEntry) => e.userId == userId
  }

  function WithAction(action: string): LogEntry -> bool {
    (e: LogEntry) => e.action == action
  }

  /** `findByProductId`: that product's entries, newest first. */
  function FindByProductId(logs: seq<LogEntry>, productId: string): (r: seq<LogEntry>)
    ensures SortedDesc(r, TimeOf)
    ensures multiset(r) == multiset(Filter(logs, ForProduct(productId)))
    ensures forall i :: 0 <= i < |r| ==> r[i].productId == productId
  {
    var r := SortDesc(Filter(logs, ForProduct(productId)), TimeOf);
    assert forall i :: 0 <= i < |r| ==> r[i] in multiset(Filter(logs, ForProduct(productId)));
    r
  }

  /** `findByUserId`: that user's entries, newest first. */
  function FindByUserId(logs: seq<LogEntry>, userId: string): (r: seq<LogEntry>)
    ensures SortedDesc(r, TimeOf)
    ensures multiset(r) == multiset(Filter(logs, ByUser(userId)))
    ensures forall i :: 0 <= i < |r| ==> r[i].userId == userId
  {
    var r := SortDesc(Filter(logs, ByUser(userId)), TimeOf);
    assert forall i :: 0 <= i < |r| ==> r[i] in multiset(Filter(logs, ByUser(userId)));
    r
  }

  /** `findByAction`: the entries with that tag, newest first. */
  function FindByAction(logs: seq<LogEntry>, action: string): (r: seq<LogEntry>)
    ensures SortedDesc(r, TimeOf)
    ensures multiset(r) == multiset(Filter(logs, WithAction(action)))
    ensures forall i :: 0 <= i < |r| ==> r[i].action == action
  {
    var r := SortDesc(Filter(logs, WithAction(action)), TimeOf);
    assert forall i :: 0 <= i < |r| ==> r[i] in multiset(Filter(logs, WithAction(action)));
    r
  }

  /** `findAllSorted`: every entry, newest first. */
  function FindAllSorted(logs: seq<LogEntry>): (r: seq<LogEntry>)
    ensures SortedDesc(r, TimeOf)
    ensures multiset(r) == multiset(logs)
  {
    SortDesc(logs, TimeOf)
  }

  // ---------------------------------------------------------------------------
  // Statistics

  datatype ActionCounts = ActionCounts(create: nat, update: nat, delete: nat, restore: nat, hardDelete: nat) {
    function Sum(): nat {
      create + update + delete + restore + hardDelete
    }
  }

  datatype LogStats = LogStats(total: nat, byAction: ActionCounts, recent: seq<LogEntry>)

  /** One more entry: the bucket of its tag goes up by one; an unknown tag changes nothing. */
  function BumpAction(counts: ActionCounts, e: LogEntry): ActionCounts {
    if e.action == CREATE then counts.(create := counts.create + 1)
    else if e.action == UPDATE then counts.(update := counts.update + 1)
    else if e.action == DELETE then counts.(delete := counts.delete + 1)
    else if e.action == RESTORE then counts.(restore := counts.restore + 1)
    else if e.action == HARD_DELETE then counts.(hardDelete := counts.hardDelete + 1)
    else counts
  }

  /** The buckets after counting a log front to back. */
  function TallyActions(logs: seq<LogEntry>): ActionCounts {
    if |logs| == 0 then ActionCounts(0, 0, 0, 0, 0)
    else BumpAction(TallyActions(logs[..|logs| - 1]), logs[|logs| - 1])
  }

  /** Counting front to back puts in each bucket the number of entries with that tag. */
  lemma {:induction false} TallyActionsCounts(logs: seq<LogEntry>)
    ensures TallyActions(logs).create == Count(logs, WithAction(CREATE))
    ensures TallyActions(logs).update == Count(logs, WithAction(UPDATE))
    ensures TallyActions(logs).delete == Count(logs, WithAction(DELETE))
    ensures TallyActions(logs).restore == Count(logs, WithAction(RESTORE))
    ensures TallyActions(logs).hardDelete == Count(logs, WithAction(HARD_DELETE))
  {
    if |logs| > 0 {
      var init, e := logs[..|logs| - 1], logs[|logs| - 1];
      assert logs == init + [e];
      TallyActionsCounts(init);
      FilterSnoc(init, e, WithAction(CREATE));
      FilterSnoc(init, e, WithAction(UPDATE));
      FilterSnoc(init, e, WithAction(DELETE));
      FilterSnoc(init, e, WithAction(RESTORE));
      FilterSnoc(init, e, WithAction(HARD_DELETE));
    }
  }

  /** `getLogStats`: counts each known tag in one pass, and keeps the ten newest entries. */
  method GetLogStats(logs: seq<LogEntry>) returns (stats: LogStats)
    ensures stats.total == |logs|
    ensures stats.byAction.create == Count(logs, WithAction(CREATE))
    ensures stats.byAction.update == Count(logs, WithAction(UPDATE))
    ensures stats.byAction.delete == Count(logs, WithAction(DELETE))
    ensures stats.byAction.restore == Count(logs, WithAction(RESTORE))
    ensures stats.byAction.hardDelete == Count(logs, WithAction(HARD_DELETE))
    ensures |stats.recent| == if |logs| < 10 then |logs| else 10
    ensures stats.recent == FindAllSorted(logs)[..|stats.recent|]
  {
    var counts := ActionCounts(0, 0, 0, 0, 0);
    var i := 0;
    while i < |logs|
      invariant 0 <= i <= |logs|
      invariant counts == TallyActions(logs[..i])
    {
      assert logs[..i + 1][..i] == logs[..i];
      counts := BumpAction(counts, logs[i]);
      i := i + 1;
    }
    assert logs[..|logs|] == logs;
    TallyActionsCounts(logs);
    var sorted := FindAllSorted(logs);
    var n := if |logs| < 10 then |logs| else 10;
    stats := LogStats(|logs|, counts, sorted[..n]);
  }

  function KnownFilter(): LogEntry -> bool {
    (e: LogEntry) => IsKnownAction(e.action)
  }

  /** The five buckets together count exactly the entries with a known tag. */
  lemma {:induction false} BucketsCountKnown(logs: seq<LogEntry>)
    ensures Count(logs, WithAction(CREATE)) + Count(logs, WithAction(UPDATE))
          + Count(logs, WithAction(DELETE)) + Count(logs, WithAction(RESTORE))
          + Count(logs, WithAction(HARD_DELETE)) == Count(logs, KnownFilter())
  {
    if |logs| > 0 {
      BucketsCountKnown(logs[1..]);
    }
  }

  /** An unknown tag counts toward the total but toward no bucket: the buckets sum to
      at most the total, and to exactly the total when every tag is known. */
  lemma BucketsAtMostTotal(logs: seq<LogEntry>, stats: LogStats)
    requires stats.total == |logs|
    requires stats.byAction == ActionCounts(
      Count(logs, WithAction(CREATE)), Count(logs, WithAction(UPDATE)), Count(logs, WithAction(DELETE)),
      Count(logs, WithAction(RESTORE)), Count(logs, WithAction(HARD_DELETE)))
    ensures stats.byAction.Sum() <= stats.total
    ensures stats.byAction.Sum() == stats.total <==> forall i :: 0 <= i < |logs| ==> IsKnownAction(logs[i].action)
  {
    BucketsCountKnown(logs);
    CountAllIff(logs, KnownFilter());
  }

  // ---------------------------------------------------------------------------
  // Display

  /** `getActionDisplay`: a fixed entry for each known tag, a neutral one echoing the tag otherwise. */
  function ActionDisplay(action: string): (r: Badge)
    ensures action == CREATE ==> r == Badge("Tạo mới", "success", "➕")
    ensures action == UPDATE ==> r == Badge("Cập nhật", "warning", "✏️")
    ensures action == DELETE ==> r == Badge("Xóa", "danger", "🗑️")
    ensures action == RESTORE ==> r == Badge("Khôi phục", "info", "♻️")
    ensures action == HARD_DELETE ==> r == Badge("Xóa vĩnh viễn", "dark", "💀")
    ensures !IsKnownAction(action) ==> r == Badge(action, "secondary", "📝")
  {
    if action == CREATE then Badge("Tạo mới", "success", "➕")
    else if action == UPDATE then Badge("Cập nhật", "warning", "✏️")
    else if action == DELETE then Badge("Xóa", "danger", "🗑️")
    else if action == RESTORE then Badge("Khôi phục", "info", "♻️")
    else if action == HARD_DELETE then Badge("Xóa vĩnh viễn", "dark", "💀")
    else Badge(action, "secondary", "📝")
  }

  /** Each tag, known or not, gets its own style: the class tells the known tags apart
      and never confuses one of them with an unknown tag. */
  lemma DisplayClassIdentifiesKnownTag(a: string, b: string)
    requires IsKnownAction(a)
    requires ActionDisplay(a).cssClass == ActionDisplay(b).cssClass
    ensures a == b
  {
  }

  /** `user || { username: "Unknown" }`. */
  datatype UserRef = KnownUser(user: Users.User) | UnknownUser {
    function Username(): string {
      match this
      case KnownUser(u) => u.username
      case UnknownUser => "Unknown"
    }
  }

  /** `product || { name: "Đã xóa" }`. */
  datatype ProductRef = KnownProduct(product: Product) | RemovedProduct {
    function Name(): string {
      match this
      case KnownProduct(p) => p.name
      case RemovedProduct => "Đã xóa"
    }
  }

  /** `JSON.parse` of the details, falling back to `{}` when the text does not parse;
      a non-string value is kept as it is. */
  function ParseDetails(sd: StoredDetails): (d: Details)
    ensures sd.Unparseable? ==> d == NoDetails
    ensures sd.Serialized? || sd.Structured? ==> d == sd.d
  {
    match sd
    case Serialized(d) => d
    case Unparseable(_) => NoDetails
    case Structured(d) => d
  }

  datatype EnrichedLog = EnrichedLog(
    entry: LogEntry, user: UserRef, product: ProductRef, details: Details, display: Badge)

  /** One log with its user (password stripped) or "Unknown", its product or
      "Đã xóa", its parsed details and its badge. */
  function EnrichOne(e: LogEntry, users: seq<Users.User>, products: seq<Product>): (r: EnrichedLog)
    ensures r.entry == e
    ensures r.user.UnknownUser? <==> forall k :: 0 <= k < |users| ==> users[k].id != e.userId
    ensures r.user.KnownUser? ==>
      && r.user.user.password.None? && r.user.user.id == e.userId
      && exists k :: 0 <= k < |users| && users[k] == r.user.user.(password := users[k].password)
    ensures r.product.RemovedProduct? <==> forall k :: 0 <= k < |products| ==> products[k].id != e.productId
    ensures r.product.KnownProduct? ==> r.product.product in products && r.product.product.id == e.productId
    ensures r.details == ParseDetails(e.details)
    ensures r.display == ActionDisplay(e.action)
  {
    var u := Users.FindByIdWithoutPassword(users, e.userId);
    var p := Table.FindById(products, Catalog.Key, e.productId);
    EnrichedLog(
      e,
      if u.Some? then KnownUser(u.value) else UnknownUser,
      if p.Some? then KnownProduct(p.value) else RemovedProduct,
      ParseDetails(e.details),
      ActionDisplay(e.action))
  }

  /** `enrichLogsWithDetails`: one enriched entry per log, in the same order, with
      "Unknown" for a missing user and "Đã xóa" for a missing product. */
  function Enrich(logs: seq<LogEntry>, users: seq<Users.User>, products: seq<Product>): (r: seq<EnrichedLog>)
    ensures |r| == |logs|
    ensures forall i :: 0 <= i < |logs| ==> r[i].entry == logs[i]
    ensures forall i :: 0 <= i < |logs| ==>
      (r[i].user.UnknownUser? <==> forall k :: 0 <= k < |users| ==> users[k].id != logs[i].userId)
    ensures forall i :: 0 <= i < |logs| ==>
      (r[i].user.KnownUser? ==> r[i].user.user.password.None? && r[i].user.user.id == logs[i].userId)
    ensures forall i :: 0 <= i < |logs| ==>
      (r[i].product.RemovedProduct? <==> forall k :: 0 <= k < |products| ==> products[k].id != logs[i].productId)
    ensures forall i :: 0 <= i < |logs| ==> r[i].details == ParseDetails(logs[i].details)
    ensures forall i :: 0 <= i < |logs| ==> r[i].display == ActionDisplay(logs[i].action)
    ensures forall i :: 0 <= i < |logs| ==> r[i] == EnrichOne(logs[i], users, products)
  {
    seq(|logs|, i requires 0 <= i < |logs| => EnrichOne(logs[i], users, products))
  }

  /** The raw entries behind enriched logs, in the same order. */
  function Entries(r: seq<EnrichedLog>): (e: seq<LogEntry>)
    ensures |e| == |r|
    ensures forall i :: 0 <= i < |r| ==> e[i] == r[i].entry
  {
    seq(|r|, i requires 0 <= i < |r| => r[i].entry)
  }

  /** Enriching keeps the entries: they read back in the same order. */
  lemma EntriesOfEnrich(logs: seq<LogEntry>, users: seq<Users.User>, products: seq<Product>)
    ensures Entries(Enrich(logs, users, products)) == logs
  {
    var e := Entries(Enrich(logs, users, products));
    assert forall i :: 0 <= i < |logs| ==> e[i] == logs[i];
  }

  /** Details written by `logAction` read back unchanged. */
  lemma LoggedDetailsReadBack(logs: seq<LogEntry>, id: string, productId: string, action: string,
                              userId: string, details: Details, now: int,
                              users: seq<Users.User>, products: seq<Product>)
    ensures var r := LogAction(logs, id, productId, action, userId, details, now);
      forall k :: 0 <= k < |r.1| && r.1[k] == r.0 ==> Enrich(r.1, users, products)[k].details == details
  {
  }

  /** `getLogsByProductId`: that product's entries, enriched, newest first. */
  function GetLogsByProductId(logs: seq<LogEntry>, productId: string, users: seq<Users.User>, products: seq<Product>)
    : (r: seq<EnrichedLog>)
    ensures |r| == Count(logs, ForProduct(productId))
    ensures multiset(Entries(r)) == multiset(Filter(logs, ForProduct(productId)))
    ensures forall i :: 0 <= i < |r| ==> r[i] == EnrichOne(r[i].entry, users, products)
    ensures forall i :: 0 <= i < |r| ==> r[i].entry.productId == productId
    ensures forall i, j :: 0 <= i < j < |r| ==> r[i].entry.time >= r[j].entry.time
  {
    var found := FindByProductId(logs, productId);
    EntriesOfEnrich(found, users, products);
    Enrich(found, users, products)
  }

  /** `getLogsByUserId`: that user's entries, enriched, newest first. */
  function GetLogsByUserId(logs: seq<LogEntry>, userId: string, users: seq<Users.User>, products: seq<Product>)
    : (r: seq<EnrichedLog>)
    ensures |r| == Count(logs, ByUser(userId))
    ensures multiset(Entries(r)) == multiset(Filter(logs, ByUser(userId)))
    ensures forall i :: 0 <= i < |r| ==> r[i] == EnrichOne(r[i].entry, users, products)
    ensures forall i :: 0 <= i < |r| ==> r[i].entry.userId == userId
    ensures forall i, j :: 0 <= i < j < |r| ==> r[i].entry.time >= r[j].entry.time
  {
    var found := FindByUserId(logs, userId);
    EntriesOfEnrich(found, users, products);
    Enrich(found, users, products)
  }

  /** `getLogsByAction`: the entries with that tag, enriched, newest first. */
  function GetLogsByAction(logs: seq<LogEntry>, action: string, users: seq<Users.User>, products: seq<Product>)
    : (r: seq<EnrichedLog>)
    ensures |r| == Count(logs, WithAction(action))
    ensures multiset(Entries(r)) == multiset(Filter(logs, WithAction(action)))
    ensures forall i :: 0 <= i < |r| ==> r[i] == EnrichOne(r[i].entry, users, products)
    ensures forall i :: 0 <= i < |r| ==> r[i].entry.action == action && r[i].display == ActionDisplay(action)
    ensures forall i, j :: 0 <= i < j < |r| ==> r[i].entry.time >= r[j].entry.time
  {
    var found := FindByAction(logs, action);
    EntriesOfEnrich(found, users, products);
    Enrich(found, users, products)
  }

  /** `getAllLogs`: every entry enriched, newest first. */
  function GetAllLogs(logs: seq<LogEntry>, users: seq<Users.User>, products: seq<Product>): (r: seq<EnrichedLog>)
    ensures |r| == |logs|
    ensures multiset(Entries(r)) == multiset(logs)
    ensures forall i :: 0 <= i < |r| ==> r[i] == EnrichOne(r[i].entry, users, products)
    ensures forall i, j :: 0 <= i < j < |r| ==> r[i].entry.time >= r[j].entry.time
  {
    var found := FindAllSorted(logs);
    EntriesOfEnrich(found, users, products);
    Enrich(found, users, products)
  }
}

=== FILE: auth_gate.dfy ===
/** Session-based access control (Lab03/middleware/auth.js): each middleware
    is a decision over the session — pass on to the handler, redirect to the
    login page, or answer 403. */
module AuthGate {
  import opened Outcome

  /** The user object a login stores in the session. Lab03's login stores
      `{ id, username, role }`; lab1's stores `{ id, username, email }`.
      `userId` is the attribute the user-deletion guard reads. */
  datatype SessionUser = SessionUser(
    id: Option<string>,
    userId: Option<string>,
    username: string,
    role: Option<string>,
    email: Option<string>)

  /** `req.session`: missing altogether, or present with or without a user. */
  datatype Session = NoSession | Session(user: Option<SessionUser>)

  datatype Gate = Next | RedirectToLogin | Forbidden

  predicate HasUser(s: Session) {
    s.Session? && s.user.Some?
  }

  predicate HasRole(s: Session, role: string) {
    HasUser(s) && s.user.value.role == Some(role)
  }

  /** `isAuthenticated`. */
  function IsAuthenticated(s: Session): (g: Gate)
    ensures g == Next <==> HasUser(s)
    ensures g != Next ==> g == RedirectToLogin
  {
    if HasUser(s) then Next else RedirectToLogin
  }

  /** `isAdmin`. */
  function IsAdmin(s: Session): (g: Gate)
    ensures g == Next <==> HasRole(s, "admin")
    ensures g != Next ==> g == Forbidden
  {
    if HasUser(s) && s.user.value.role == Some("admin") then Next else Forbidden
  }

  /** `isStaffOrAdmin`. */
  function IsStaffOrAdmin(s: Session): (g: Gate)
    ensures g == Next <==> HasRole(s, "admin") || HasRole(s, "staff")
    ensures g != Next ==> g == Forbidden
  {
    if HasUser(s) && (s.user.value.role == Some("admin") || s.user.value.role == Some("staff"))
    then Next else Forbidden
  }

  /** `addUserToLocals`: the user views see as the current user, none without a session. */
  function CurrentUser(s: Session): (u: Option<SessionUser>)
    ensures u.Some? <==> HasUser(s)
    ensures u.Some? ==> s.Session? && u == s.user
  {
    if s.Session? then s.user else None
  }

  /** Views show a current user exactly on the requests the authentication gate lets through. */
  lemma CurrentUserIffAuthenticated(s: Session)
    ensures CurrentUser(s).Some? <==> IsAuthenticated(s) == Next
  {
  }

  /** The gates are nested: admin passes staff-or-admin, which passes plain authentication,
      and a customer (any other role) passes only the last. */
  lemma GatesNested(s: Session)
    ensures IsAdmin(s) == Next ==> IsStaffOrAdmin(s) == Next
    ensures IsStaffOrAdmin(s) == Next ==> IsAuthenticated(s) == Next
    ensures HasRole(s, "customer") ==> IsAuthenticated(s) == Next && IsStaffOrAdmin(s) == Forbidden
  {
  }
}

=== FILE: basic_products.dfy ===
/** The in-memory product list of the basic variant
    (Lab3_basic/controllers/product.controller.js): one shared array, mutated by
    `push`, by assignment through `find`, and by `splice` at a `findIndex`. */
module BasicProducts {
  import opened Outcome
  import opened Seqs
  import opened Text

  datatype Item = Item(id: string, name: string, price: int, quantity: int)

  /** The posted form; `price` and `quantity` arrive as text. */
  datatype Submission = Submission(name: string, price: string, quantity: string)

  function HasId(id: string): Item -> bool {
    (p: Item) => p.id == id
  }

  function LacksId(id: string): Item -> bool {
    (p: Item) => p.id != id
  }

  /** No two items share an id. */
  predicate IdsUnique(s: seq<Item>) {
    forall i, j :: 0 <= i < j < |s| ==> s[i].id != s[j].id
  }

  /** `createProduct`: a new item, id the decimal clock reading, numbers converted with
      `Number`, pushed at the end. */
  function CreateProduct(s: seq<Item>, form: Submission, now: int, toNumber: string -> int): (r: seq<Item>)
    ensures |r| == |s| + 1 && r[..|s|] == s
    ensures r[|s|] == Item(IntToString(now), form.name, toNumber(form.price), toNumber(form.quantity))
  {
    s + [Item(IntToString(now), form.name, toNumber(form.price), toNumber(form.quantity))]
  }

  /** `getEditForm`: the first item with that id, if any. */
  function FindProduct(s: seq<Item>, id: string): (r: Option<Item>)
    ensures r.None? <==> forall i :: 0 <= i < |s| ==> s[i].id != id
    ensures r.Some? ==> r.value.id == id && r.value == s[FindIndex(s, HasId(id))]
  {
    Find(s, HasId(id))
  }

  /** A product created at a clock reading no item's id shows is the one the edit form finds. */
  lemma CreatedProductIsFound(s: seq<Item>, form: Submission, now: int, toNumber: string -> int)
    requires forall i :: 0 <= i < |s| ==> s[i].id != IntToString(now)
    ensures FindProduct(CreateProduct(s, form, now, toNumber), IntToString(now))
         == Some(Item(IntToString(now), form.name, toNumber(form.price), toNumber(form.quantity)))
  {
    var r := CreateProduct(s, form, now, toNumber);
    assert FindIndex(r, HasId(IntToString(now))) == |s|;
  }

  /** Two items created at different clock readings get different ids. */
  lemma CreatedIdsDiffer(a: int, b: int)
    requires a != b
    ensures IntToString(a) != IntToString(b)
  {
    if IntToString(a) == IntToString(b) {
      IntToStringInjective(a, b);
    }
  }

  /** `updateProduct` with no such item dereferences `undefined` and the request fails. */
  datatype UpdateError = NoSuchProduct

  /** `updateProduct`: the name, price and quantity of the first item with that id are
      replaced; its id, every other item and the order are kept. */
  function UpdateProduct(s: seq<Item>, id: string, form: Submission, toNumber: string -> int)
    : (r: Result<seq<Item>, UpdateError>)
    ensures r.Err? <==> forall i :: 0 <= i < |s| ==> s[i].id != id
    ensures r.Ok? ==> |r.value| == |s|
    ensures r.Ok? ==> var k := FindIndex(s, HasId(id));
      && r.value[k] == Item(id, form.name, toNumber(form.price), toNumber(form.quantity))
      && forall i :: 0 <= i < |s| && i != k ==> r.value[i] == s[i]
  {
    var k := FindIndex(s, HasId(id));
    if k == -1 then Err(NoSuchProduct)
    else Ok(s[k := s[k].(name := form.name, price := toNumber(form.price), quantity := toNumber(form.quantity))])
  }

  /** After an update, the edit form shows the submitted values. */
  lemma UpdateThenFind(s: seq<Item>, id: string, form: Submission, toNumber: string -> int)
    requires UpdateProduct(s, id, form, toNumber).Ok?
    ensures FindProduct(UpdateProduct(s, id, form, toNumber).value, id)
         == Some(Item(id, form.name, toNumber(form.price), toNumber(form.quantity)))
  {
    var r := UpdateProduct(s, id, form, toNumber).value;
    var k := FindIndex(s, HasId(id));
    assert FindIndex(r, HasId(id)) == k by {
      assert forall j :: 0 <= j < k ==> r[j] == s[j];
    }
  }

  /** `splice(start, 1)`: removes the element at `start`, a negative start counting
      from the end; nothing is removed when the position is past the end. */
  function SpliceOne(s: seq<Item>, start: int): (r: seq<Item>)
    ensures var k := SliceBound(|s|, start);
      (k < |s| ==> r == s[..k] + s[k + 1..]) && (k == |s| ==> r == s)
  {
    var k := SliceBound(|s|, start);
    if k < |s| then s[..k] + s[k + 1..] else s
  }

  /** `deleteProduct` as written: `splice(findIndex(...), 1)`. */
  function DeleteProductAsWritten(s: seq<Item>, id: string): (r: seq<Item>)
    ensures FindIndex(s, HasId(id)) >= 0 ==> r == s[..FindIndex(s, HasId(id))] + s[FindIndex(s, HasId(id)) + 1..]
    ensures FindIndex(s, HasId(id)) == -1 && |s| > 0 ==> r == s[..|s| - 1]
  {
    SpliceOne(s, FindIndex(s, HasId(id)))
  }

  /** With an unknown id, `findIndex` yields -1 and `splice(-1, 1)` drops the last
      product, which has another id. */
  lemma DeleteUnknownIdDropsLastProduct()
    ensures var s := [Item("1", "Pen", 5, 3)];
      DeleteProductAsWritten(s, "2") == [] && s[0].id != "2"
  {
    var s := [Item("1", "Pen", 5, 3)];
    assert FindIndex(s, HasId("2")) == -1;
  }

  /** `deleteProduct` as intended: the first item with that id is removed; nothing
      changes when there is none. */
  function DeleteProduct(s: seq<Item>, id: string): (r: seq<Item>)
    ensures FindIndex(s, HasId(id)) == -1 ==> r == s
    ensures FindIndex(s, HasId(id)) >= 0 ==> r == s[..FindIndex(s, HasId(id))] + s[FindIndex(s, HasId(id)) + 1..]
  {
    var k := FindIndex(s, HasId(id));
    if k == -1 then s else SpliceOne(s, k)
  }

  /** With unique ids, deleting removes exactly the items with that id: afterwards the
      id is gone and every other item is still there, in order. */
  lemma DeleteRemovesExactlyThatId(s: seq<Item>, id: string)
    requires IdsUnique(s)
    ensures DeleteProduct(s, id) == Filter(s, LacksId(id))
    ensures FindProduct(DeleteProduct(s, id), id).None?
  {
    var k := FindIndex(s, HasId(id));
    if k == -1 {
      FilterAll(s, LacksId(id));
    } else {
      DeletePresentIsFilter(s, id, k);
    }
    var r := Filter(s, LacksId(id));
    assert forall i :: 0 <= i < |r| ==> LacksId(id)(r[i]);
  }

  /** The one item carrying a present id is the only one the filter drops. */
  lemma DeletePresentIsFilter(s: seq<Item>, id: string, k: int)
    requires IdsUnique(s)
    requires 0 <= k < |s| && s[k].id == id
    ensures s[..k] + s[k + 1..] == Filter(s, LacksId(id))
  {
    assert forall j :: 0 <= j < |s| && j != k ==> s[j].id != s[k].id;
    FilterDropsOne(s, LacksId(id), k);
  }

  /** The intended deletion and the written one agree whenever the id is present. */
  lemma DeleteAgreesWhenPresent(s: seq<Item>, id: string)
    requires exists i :: 0 <= i < |s| && s[i].id == id
    ensures DeleteProductAsWritten(s, id) == DeleteProduct(s, id)
  {
  }
}

=== FILE: cart_service.dfy ===
/** The cart service (Lab03/services/carts.service.js): adding with the
    existence, discontinued and stock checks and the merge into an existing
    line; the joined cart view with its totals; quantity updates, removal and
    the item count. Products are read from the products table. */
module CartService {
  import opened Outcome
  import opened Seqs
  import opened Text
  import opened Catalog
  import opened Carts
  import Table
  import ProductService

  /** The errors the service throws, by message. `MissingProductRead` is the
      `TypeError` of reading `quantity` from a `null` product. */
  datatype CartError =
    | ProductNotFound
    | ProductDiscontinued
    | InsufficientStock(available: int)
    | ExceedsStock(available: int)
    | LineNotFound
    | MissingProductRead
    | InvalidQuantity

  function LookupProduct(products: seq<Product>, productId: string): Option<Product> {
    Table.FindById(products, Catalog.Key, productId)
  }

  /** `getStockStatus`: the stock badge shown on a cart line. */
  function StockStatus(quantity: int): (r: Badge)
    ensures r.cssClass == TierOf(quantity).CssClass()
    ensures TierOf(quantity) == OutOfStock ==> r == Badge("Hết hàng", "danger", "❌")
    ensures TierOf(quantity) == LowStock ==> r == Badge("Sắp hết (còn " + IntToString(quantity) + ")", "warning", "⚠️")
    ensures TierOf(quantity) == InStock ==> r == Badge("Còn hàng", "success", "✅")
  {
    if quantity == 0 then Badge("Hết hàng", "danger", "❌")
    else if quantity < 5 then Badge("Sắp hết (còn " + IntToString(quantity) + ")", "warning", "⚠️")
    else Badge("Còn hàng", "success", "✅")
  }

  /** The cart badge and the inventory badge agree on class and icon for every stock
      level; only the low-stock wording differs. */
  lemma CartAndInventoryBadgesAgree(quantity: int)
    ensures StockStatus(quantity).cssClass == ProductService.InventoryStatus(quantity).cssClass
    ensures StockStatus(quantity).icon == ProductService.InventoryStatus(quantity).icon
    ensures TierOf(quantity) != LowStock ==> StockStatus(quantity) == ProductService.InventoryStatus(quantity)
  {
  }

  // ---------------------------------------------------------------------------
  // addToCart

  /** `addToCart` as written: the product must exist, not be discontinued, and have at
      least `quantity` in stock; an existing line for the pair is topped up if the sum
      still fits in stock, otherwise a new line is put under `newId`. The cart is
      returned unchanged with every error. */
  function AddToCart(products: seq<Product>, lines: seq<CartItem>, userId: string, productId: string,
                     quantity: int, newId: string, now: int): (r: (Result<CartItem, CartError>, seq<CartItem>))
    ensures r.0.Err? ==> r.1 == lines
    ensures LookupProduct(products, productId).None? <==> r.0 == Err(ProductNotFound)
    ensures LookupProduct(products, productId).Some? && IsMarkedDeleted(LookupProduct(products, productId).value)
      ==> r.0 == Err(ProductDiscontinued)
    ensures LookupProduct(products, productId).Some? && !IsMarkedDeleted(LookupProduct(products, productId).value)
      && LookupProduct(products, productId).value.quantity < quantity
      ==> r.0 == Err(InsufficientStock(LookupProduct(products, productId).value.quantity))
    ensures r.0.Ok? ==> var p := LookupProduct(products, productId).value;
      && IsActive(p) && r.0.value.userId == userId && r.0.value.productId == productId
      && r.0.value.quantity <= p.quantity
    ensures r.0.Ok? && FindCartItem(lines, userId, productId).Some? ==>
      var e := FindCartItem(lines, userId, productId).value;
      r.0.value == e.(quantity := e.quantity + quantity) && r.1 == Carts.UpdateQuantity(lines, e.id, e.quantity + quantity, now)
    ensures r.0.Ok? && FindCartItem(lines, userId, productId).None? ==>
      r.0.value == CartItem(newId, userId, productId, quantity, now, now) && r.1 == Table.Put(lines, Carts.Key, r.0.value)
    ensures var lp := LookupProduct(products, productId); var line := FindCartItem(lines, userId, productId);
      lp.Some? && !IsMarkedDeleted(lp.value) && quantity <= lp.value.quantity ==>
        && (line.None? ==> r.0.Ok?)
        && (line.Some? ==> (r.0.Ok? <==> line.value.quantity + quantity <= lp.value.quantity))
        && (line.Some? && line.value.quantity + quantity > lp.value.quantity ==> r.0 == Err(ExceedsStock(lp.value.quantity)))
  {
    match LookupProduct(products, productId)
    case None => (Err(ProductNotFound), lines)
    case Some(p) =>
      if IsMarkedDeleted(p) then (Err(ProductDiscontinued), lines)
      else if p.quantity < quantity then (Err(InsufficientStock(p.quantity)), lines)
      else
        match FindCartItem(lines, userId, productId)
        case Some(e) =>
          var total := e.quantity + quantity;
          if total > p.quantity then (Err(ExceedsStock(p.quantity)), lines)
          else (Ok(e.(quantity := total)), Carts.UpdateQuantity(lines, e.id, total, now))
        case None =>
          var item := CartItem(newId, userId, productId, quantity, now, now);
          (Ok(item), Table.Put(lines, Carts.Key, item))
  }

  /** `getCartCount`: the sum of the quantities on the user's lines. */
  function GetCartCount(lines: seq<CartItem>, userId: string): (r: int)
    ensures FindByUserId(lines, userId) == [] ==> r == 0
  {
    SumOf(FindByUserId(lines, userId), Quantity)
  }

  /** A new line adds its quantity to its owner's count and nothing to anyone else's. */
  lemma GetCartCountSnoc(lines: seq<CartItem>, x: CartItem, userId: string)
    ensures GetCartCount(lines + [x], userId) == GetCartCount(lines, userId) + (if x.userId == userId then x.quantity else 0)
  {
    FilterSnoc(lines, x, OwnedBy(userId));
    if x.userId == userId {
      SumOfSnoc(FindByUserId(lines, userId), x, Quantity);
    } else {
      assert FindByUserId(lines, userId) + [] == FindByUserId(lines, userId);
    }
  }

  /** When every line of the user holds at least one unit, the count is at least the
      number of lines. */
  lemma CountAtLeastLines(lines: seq<CartItem>, userId: string)
    requires forall i :: 0 <= i < |lines| && lines[i].userId == userId ==> lines[i].quantity >= 1
    ensures GetCartCount(lines, userId) >= |FindByUserId(lines, userId)|
  {
    SumOfPositive(FindByUserId(lines, userId));
  }

  /** A sum of positive quantities is at least their number. */
  lemma {:induction false} SumOfPositive(s: seq<CartItem>)
    ensures (forall i :: 0 <= i < |s| ==> s[i].quantity >= 1) ==> SumOf(s, Quantity) >= |s|
  {
    if |s| > 0 {
      SumOfPositive(s[1..]);
    }
  }

  /** Updating a line under a unique id moves the owner's count by the change in that line. */
  lemma CountAfterUpdate(t: seq<CartItem>, userId: string, k: int, e: CartItem, delta: int, now: int)
    requires Table.KeysUnique(t, Carts.Key)
    requires 0 <= k < |t| && t[k] == e && e.userId == userId
    ensures GetCartCount(Carts.UpdateQuantity(t, e.id, e.quantity + delta, now), userId) == GetCartCount(t, userId) + delta
  {
    var x := e.(quantity := e.quantity + delta, updatedAt := now);
    assert Carts.UpdateQuantity(t, e.id, e.quantity + delta, now) == t[k := x];
    SumAfterWrite(t, userId, k, x);
  }

  /** Replacing one of the owner's lines moves the owner's sum by the change in quantity. */
  lemma {:induction false} SumAfterWrite(t: seq<CartItem>, userId: string, k: nat, x: CartItem)
    requires k < |t| && t[k].userId == userId && x.userId == userId
    ensures SumOf(Filter(t[k := x], OwnedBy(userId)), Quantity)
         == SumOf(Filter(t, OwnedBy(userId)), Quantity) - t[k].quantity + x.quantity
  {
    var u := t[k := x];
    if k == 0 {
      assert u[1..] == t[1..];
    } else {
      assert u[1..] == t[1..][k - 1 := x];
      SumAfterWrite(t[1..], userId, k - 1, x);
    }
  }

  /** A successful add raises the user's item count by exactly the quantity added,
      both when a line is topped up and when a new line is created. */
  lemma AddToCartRaisesCount(products: seq<Product>, lines: seq<CartItem>, userId: string, productId: string,
                             quantity: int, newId: string, now: int)
    requires Table.KeysUnique(lines, Carts.Key)
    requires forall i :: 0 <= i < |lines| ==> lines[i].id != newId
    requires AddToCart(products, lines, userId, productId, quantity, newId, now).0.Ok?
    ensures GetCartCount(AddToCart(products, lines, userId, productId, quantity, newId, now).1, userId)
         == GetCartCount(lines, userId) + quantity
  {
    match FindCartItem(lines, userId, productId)
    case Some(e) => TopUpCase(products, lines, userId, productId, quantity, newId, now, e);
    case None => NewLineCase(products, lines, userId, productId, quantity, newId, now);
  }

  /** A successful add for a pair that already has a line writes the summed quantity to it. */
  lemma AddToCartTopsUp(products: seq<Product>, lines: seq<CartItem>, userId: string, productId: string,
                  quantity: int, newId: string, now: int, e: CartItem)
    requires FindCartItem(lines, userId, productId) == Some(e)
    requires AddToCart(products, lines, userId, productId, quantity, newId, now).0.Ok?
    ensures AddToCart(products, lines, userId, productId, quantity, newId, now).1
        == Carts.UpdateQuantity(lines, e.id, e.quantity + quantity, now)
  {
  }

  lemma TopUpCase(products: seq<Product>, lines: seq<CartItem>, userId: string, productId: string,
                  quantity: int, newId: string, now: int, e: CartItem)
    requires Table.KeysUnique(lines, Carts.Key)
    requires FindCartItem(lines, userId, productId) == Some(e)
    requires AddToCart(products, lines, userId, productId, quantity, newId, now).0.Ok?
    ensures GetCartCount(AddToCart(products, lines, userId, productId, quantity, newId, now).1, userId)
         == GetCartCount(lines, userId) + quantity
  {
    var k := FindIndex(lines, LineFor(userId, productId));
    AddToCartTopsUp(products, lines, userId, productId, quantity, newId, now, e);
    CountAfterUpdate(lines, userId, k, e, quantity, now);
  }

  lemma NewLineCase(products: seq<Product>, lines: seq<CartItem>, userId: string, productId: string,
                    quantity: int, newId: string, now: int)
    requires forall i :: 0 <= i < |lines| ==> lines[i].id != newId
    requires FindCartItem(lines, userId, productId).None?
    requires AddToCart(products, lines, userId, productId, quantity, newId, now).0.Ok?
    ensures GetCartCount(AddToCart(products, lines, userId, productId, quantity, newId, now).1, userId)
         == GetCartCount(lines, userId) + quantity
  {
    var item := CartItem(newId, userId, productId, quantity, now, now);
    assert AddToCart(products, lines, userId, productId, quantity, newId, now).1 == Table.Put(lines, Carts.Key, item);
    NewLineRaisesCount(lines, item);
  }

  /** A line put under a new id adds its quantity to its owner's count. */
  lemma NewLineRaisesCount(lines: seq<CartItem>, item: CartItem)
    requires forall i :: 0 <= i < |lines| ==> lines[i].id != item.id
    ensures GetCartCount(Table.Put(lines, Carts.Key, item), item.userId) == GetCartCount(lines, item.userId) + item.quantity
  {
    assert Table.Put(lines, Carts.Key, item) == lines + [item];
    FilterSnoc(lines, item, OwnedBy(item.userId));
    SumOfSnoc(FindByUserId(lines, item.userId), item, Quantity);
  }

  /** Nothing bounds the requested quantity from below: on an empty cart, asking for
      -2 of an in-stock product succeeds and leaves a line of -2 and a count of -2. */
  lemma AddToCartAcceptsNegativeQuantity()
    ensures var p := Product("p1", "Pen", 10, 5, "", "", Some(false), Some(0), None, None);
            var r := AddToCart([p], [], "u1", "p1", -2, "c1", 0);
            r.0.Ok? && r.0.value.quantity == -2 && GetCartCount(r.1, "u1") == -2
  {
    var p := Product("p1", "Pen", 10, 5, "", "", Some(false), Some(0), None, None);
    var r := AddToCart([p], [], "u1", "p1", -2, "c1", 0);
    assert LookupProduct([p], "p1") == Some(p);
    assert r.1 == [CartItem("c1", "u1", "p1", -2, 0, 0)];
    assert FindByUserId(r.1, "u1") == r.1;
  }

  /** Every line holds at least one unit. */
  predicate PositiveLines(lines: seq<CartItem>) {
    forall i :: 0 <= i < |lines| ==> lines[i].quantity >= 1
  }

  /** `addToCart` with the missing lower bound: a request below one unit is refused
      before anything else; otherwise it behaves as written. */
  function AddToCartChecked(products: seq<Product>, lines: seq<CartItem>, userId: string, productId: string,
                            quantity: int, newId: string, now: int): (r: (Result<CartItem, CartError>, seq<CartItem>))
    ensures quantity < 1 <==> r.0 == Err(InvalidQuantity)
    ensures quantity >= 1 ==> r == AddToCart(products, lines, userId, productId, quantity, newId, now)
    ensures r.0.Ok? && FindCartItem(lines, userId, productId).None? ==>
      1 <= r.0.value.quantity <= LookupProduct(products, productId).value.quantity
  {
    if quantity < 1 then (Err(InvalidQuantity), lines)
    else AddToCart(products, lines, userId, productId, quantity, newId, now)
  }

  /** With the check in place no cart line can ever drop below one unit. */
  lemma AddToCartCheckedKeepsLinesPositive(products: seq<Product>, lines: seq<CartItem>, userId: string,
                                           productId: string, quantity: int, newId: string, now: int)
    requires PositiveLines(lines)
    ensures PositiveLines(AddToCartChecked(products, lines, userId, productId, quantity, newId, now).1)
  {
    var r := AddToCartChecked(products, lines, userId, productId, quantity, newId, now);
    if r.0.Ok? {
      match FindCartItem(lines, userId, productId)
      case Some(e) =>
      case None =>
        PutPositive(lines, r.0.value);
    }
  }

  /** Putting a positive line into positive lines keeps them positive. */
  lemma PutPositive(lines: seq<CartItem>, item: CartItem)
    requires PositiveLines(lines) && item.quantity >= 1
    ensures PositiveLines(Table.Put(lines, Carts.Key, item))
  {
    var k := FindIndex(lines, x => Carts.Key(x) == Carts.Key(item));
    if k != -1 {
      assert Table.Put(lines, Carts.Key, item) == lines[k := item];
    }
  }

  // ---------------------------------------------------------------------------
  // getCartWithProducts

  /** The product a line shows: present and not flagged deleted. */
  function LiveProduct(products: seq<Product>, productId: string): (r: Option<Product>)
    ensures r.Some? ==> r.value.id == productId && r.value in products && !IsMarkedDeleted(r.value)
    ensures r.None? <==> LookupProduct(products, productId).None? || IsMarkedDeleted(LookupProduct(products, productId).value)
  {
    var p := LookupProduct(products, productId);
    if p.Some? && !IsMarkedDeleted(p.value) then p else None
  }

  function HasLiveProduct(products: seq<Product>): CartItem -> bool {
    (c: CartItem) => LiveProduct(products, c.productId).Some?
  }

  datatype CartEntry = CartEntry(line: CartItem, product: Product, subtotal: int, isAvailable: bool, stockStatus: Badge)

  datatype CartView = CartView(items: seq<CartEntry>, totalItems: nat, totalAmount: int)

  function Subtotal(e: CartEntry): int {
    e.subtotal
  }

  /** One joined line. */
  function JoinLine(products: seq<Product>, line: CartItem): (e: CartEntry)
    requires LiveProduct(products, line.productId).Some?
    ensures e.line == line && e.product == LiveProduct(products, line.productId).value
    ensures e.subtotal == e.product.price * line.quantity
    ensures e.isAvailable <==> e.product.quantity >= line.quantity
    ensures e.stockStatus == StockStatus(e.product.quantity)
  {
    var p := LiveProduct(products, line.productId).value;
    CartEntry(line, p, p.price * line.quantity, p.quantity >= line.quantity, StockStatus(p.quantity))
  }

  /** The joined lines of `s`, built front to back. */
  function JoinAll(products: seq<Product>, s: seq<CartItem>): seq<CartEntry> {
    if |s| == 0 then []
    else
      var last := s[|s| - 1];
      JoinAll(products, s[..|s| - 1]) + (if LiveProduct(products, last.productId).Some? then [JoinLine(products, last)] else [])
  }

  /** Joining keeps exactly the lines with a live product, in order, each joined. */
  lemma {:induction false} JoinAllKeepsLiveLines(products: seq<Product>, s: seq<CartItem>)
    ensures |JoinAll(products, s)| == |Filter(s, HasLiveProduct(products))|
    ensures forall k :: 0 <= k < |JoinAll(products, s)| ==>
      var line := Filter(s, HasLiveProduct(products))[k];
      LiveProduct(products, line.productId).Some? && JoinAll(products, s)[k] == JoinLine(products, line)
  {
    if |s| > 0 {
      var init, last := s[..|s| - 1], s[|s| - 1];
      assert s == init + [last];
      JoinAllKeepsLiveLines(products, init);
      FilterSnoc(init, last, HasLiveProduct(products));
    }
  }

  /** `getCartWithProducts`: the user's lines whose product is live, in order, each
      with its subtotal, availability and stock badge, and the grand total. */
  method GetCartWithProducts(products: seq<Product>, lines: seq<CartItem>, userId: string) returns (view: CartView)
    ensures var kept := Filter(FindByUserId(lines, userId), HasLiveProduct(products));
      && |view.items| == |kept| && view.totalItems == |kept|
      && forall k :: 0 <= k < |kept| ==> LiveProduct(products, kept[k].productId).Some? && view.items[k] == JoinLine(products, kept[k])
    ensures view.totalAmount == SumOf(view.items, Subtotal)
  {
    var mine := FindByUserId(lines, userId);
    var items: seq<CartEntry> := [];
    var total := 0;
    var i := 0;
    while i < |mine|
      invariant 0 <= i <= |mine|
      invariant items == JoinAll(products, mine[..i])
      invariant total == SumOf(items, Subtotal)
    {
      var line := mine[i];
      assert mine[..i + 1][..i] == mine[..i];
      if LiveProduct(products, line.productId).Some? {
        var entry := JoinLine(products, line);
        SumOfSnoc(items, entry, Subtotal);
        total := total + entry.subtotal;
        items := items + [entry];
      }
      i := i + 1;
    }
    assert mine[..|mine|] == mine;
    JoinAllKeepsLiveLines(products, mine);
    view := CartView(items, |items|, total);
  }

  // ---------------------------------------------------------------------------
  // updateCartItemQuantity, removeFromCart

  function WithId(id: string): CartItem -> bool {
    (c: CartItem) => c.id == id
  }

  /** The line `cartItems.find(item => item.id === cartItemId)` picks among the user's lines. */
  function UserLine(lines: seq<CartItem>, userId: string, cartItemId: string): (r: Option<CartItem>)
    ensures r.None? <==> forall i :: 0 <= i < |lines| ==> !(lines[i].userId == userId && lines[i].id == cartItemId)
    ensures r.Some? ==> r.value in lines && r.value.userId == userId && r.value.id == cartItemId
  {
    FindByUserIdComplete(lines, userId);
    Find(FindByUserId(lines, userId), WithId(cartItemId))
  }

  /** `updateCartItemQuantity` as written: the line must be the user's; zero or less
      removes it; otherwise the line's product is read and its stock checked. A line
      whose product has been hard-deleted reaches `product.quantity` on `null`. */
  function UpdateCartItemQuantity(products: seq<Product>, lines: seq<CartItem>, userId: string,
                                  cartItemId: string, quantity: int, now: int)
    : (r: (Result<Option<CartItem>, CartError>, seq<CartItem>))
    ensures r.0.Err? ==> r.1 == lines
    ensures UserLine(lines, userId, cartItemId).None? <==> r.0 == Err(LineNotFound)
    ensures UserLine(lines, userId, cartItemId).Some? && quantity <= 0 ==>
      r.0 == Ok(None) && r.1 == Table.Delete(lines, Carts.Key, cartItemId)
    ensures UserLine(lines, userId, cartItemId).Some? && quantity > 0 ==>
      var line := UserLine(lines, userId, cartItemId).value;
      match LookupProduct(products, line.productId)
      case None => r.0 == Err(MissingProductRead)
      case Some(p) =>
        && (quantity > p.quantity ==> r.0 == Err(InsufficientStock(p.quantity)))
        && (quantity <= p.quantity ==>
              r.0 == Ok(Some(line.(quantity := quantity))) && r.1 == Carts.UpdateQuantity(lines, cartItemId, quantity, now))
  {
    match UserLine(lines, userId, cartItemId)
    case None => (Err(LineNotFound), lines)
    case Some(line) =>
      if quantity <= 0 then (Ok(None), Table.Delete(lines, Carts.Key, cartItemId))
      else
        match LookupProduct(products, line.productId)
        case None => (Err(MissingProductRead), lines)
        case Some(p) =>
          if quantity > p.quantity then (Err(InsufficientStock(p.quantity)), lines)
          else (Ok(Some(line.(quantity := quantity))), Carts.UpdateQuantity(lines, cartItemId, quantity, now))
  }

  /** A product hard-deleted while still in a cart makes any positive quantity update
      fail on the `null` product instead of with a message. */
  lemma UpdateAfterHardDeleteFails()
    ensures var line := CartItem("c1", "u1", "p1", 2, 0, 0);
            UpdateCartItemQuantity([], [line], "u1", "c1", 3, 1).0 == Err(MissingProductRead)
  {
    var line := CartItem("c1", "u1", "p1", 2, 0, 0);
    assert UserLine([line], "u1", "c1") == Some(line);
  }

  /** `updateCartItemQuantity` with the product's absence handled: it is reported as
      the missing product instead of failing on `null`; otherwise as written. */
  function UpdateCartItemQuantityChecked(products: seq<Product>, lines: seq<CartItem>, userId: string,
                                         cartItemId: string, quantity: int, now: int)
    : (r: (Result<Option<CartItem>, CartError>, seq<CartItem>))
    ensures r.0 != Err(MissingProductRead)
    ensures r.0.Err? ==> r.1 == lines
    ensures r.0 == Err(ProductNotFound) <==>
      UserLine(lines, userId, cartItemId).Some? && quantity > 0
      && LookupProduct(products, UserLine(lines, userId, cartItemId).value.productId).None?
    ensures r.0 != Err(ProductNotFound) ==>
      r == UpdateCartItemQuantity(products, lines, userId, cartItemId, quantity, now)
    ensures r.0 == Ok(None) <==> UserLine(lines, userId, cartItemId).Some? && quantity <= 0
    ensures r.0.Ok? && r.0.value.Some? ==>
      0 < r.0.value.value.quantity <= LookupProduct(products, r.0.value.value.productId).value.quantity
  {
    var r := UpdateCartItemQuantity(products, lines, userId, cartItemId, quantity, now);
    if r.0 == Err(MissingProductRead) then (Err(ProductNotFound), lines) else r
  }

  /** `removeFromCart`: only a line of the user's can be removed; it goes, and every
      line under another id stays. */
  function RemoveFromCart(lines: seq<CartItem>, userId: string, cartItemId: string)
    : (r: (Result<bool, CartError>, seq<CartItem>))
    ensures r.0 == Err(LineNotFound) <==> UserLine(lines, userId, cartItemId).None?
    ensures r.0.Err? ==> r.1 == lines
    ensures r.0.Ok? ==> r.0.value && forall i :: 0 <= i < |r.1| ==> r.1[i].id != cartItemId
    ensures forall i :: 0 <= i < |lines| && lines[i].id != cartItemId ==> lines[i] in r.1
  {
    match UserLine(lines, userId, cartItemId)
    case None => (Err(LineNotFound), lines)
    case Some(_) => (Ok(true), Table.Delete(lines, Carts.Key, cartItemId))
  }

  /** `clearCart`: the repository's clear, reporting success. */
  method ClearCart(lines: seq<CartItem>, userId: string) returns (ok: bool, r: seq<CartItem>)
    ensures ok
    ensures forall i :: 0 <= i < |r| ==> r[i] in lines && r[i].userId != userId
    ensures Table.KeysUnique(lines, Carts.Key) ==> r == Filter(lines, (c: CartItem) => c.userId != userId)
  {
    r := Carts.ClearCart(lines, userId);
    if Table.KeysUnique(lines, Carts.Key) {
      ClearCartKeepsOthers(lines, userId);
    }
    ok := true;
  }
}

=== FILE: carts.dfy ===
/** The cart-line store (Lab03/repositories/carts.repository.js): one line per
    (user, product) pair the application creates, keyed by its own id. */
module Carts {
  import opened Outcome
  import opened Seqs
  import opened Text
  import Table

  datatype CartItem = CartItem(
    id: string, userId: string, productId: string, quantity: int, createdAt: int, updatedAt: int)

  function Key(c: CartItem): string {
    c.id
  }

  function Quantity(c: CartItem): int {
    c.quantity
  }

  function OwnedBy(userId: string): CartItem -> bool {
    (c: CartItem) => c.userId == userId
  }

  function LineFor(userId: string, productId: string): CartItem -> bool {
    (c: CartItem) => c.userId == userId && c.productId == productId
  }

  /** `findByUserId`: that user's lines, in scan order. */
  function FindByUserId(t: seq<CartItem>, userId: string): (r: seq<CartItem>)
    ensures forall i :: 0 <= i < |r| ==> r[i] in t && r[i].userId == userId
  {
    Filter(t, OwnedBy(userId))
  }

  /** Every line of that user is among them. */
  lemma FindByUserIdComplete(t: seq<CartItem>, userId: string)
    ensures forall i :: 0 <= i < |t| && t[i].userId == userId ==> t[i] in FindByUserId(t, userId)
  {
    FilterKeepsMatches(t, OwnedBy(userId));
  }

  /** `findCartItem`: the first line of that user for that product, or `null`. */
  function FindCartItem(t: seq<CartItem>, userId: string, productId: string): (r: Option<CartItem>)
    ensures r.None? <==> forall i :: 0 <= i < |t| ==> !(t[i].userId == userId && t[i].productId == productId)
    ensures r.Some? ==> r.value.userId == userId && r.value.productId == productId
    ensures r.Some? ==> r.value == t[FindIndex(t, LineFor(userId, productId))]
  {
    Find(t, LineFor(userId, productId))
  }

  /** A line's attribute by its stored name. */
  function Attr(c: CartItem, a: string): Option<Table.AttrValue> {
    if a == "id" then Some(Table.Str(c.id))
    else if a == "userId" then Some(Table.Str(c.userId))
    else if a == "productId" then Some(Table.Str(c.productId))
    else if a == "quantity" then Some(Table.Num(c.quantity))
    else if a == "createdAt" then Some(Table.Time(c.createdAt))
    else if a == "updatedAt" then Some(Table.Time(c.updatedAt))
    else None
  }

  /** The change `updateQuantity` makes to the line it targets. */
  function SetQuantity(quantity: int, now: int): CartItem -> CartItem {
    (c: CartItem) => c.(quantity := quantity, updatedAt := now)
  }

  /** `updateQuantity`: sets the quantity and the modification time of the line under
      `id`; every other attribute, and every other line, is left as it was. */
  function UpdateQuantity(t: seq<CartItem>, id: string, quantity: int, now: int): (r: seq<CartItem>)
    ensures |r| == |t|
    ensures forall i :: 0 <= i < |t| && t[i].id != id ==> r[i] == t[i]
    ensures forall i :: 0 <= i < |t| && t[i].id == id ==> r[i] == t[i].(quantity := quantity, updatedAt := now)
  {
    Table.Update(t, Key, id, SetQuantity(quantity, now))
  }

  /** The line under `id` ends up with exactly the data the request writes. */
  lemma UpdateQuantityWritesData(t: seq<CartItem>, id: string, quantity: int, now: int)
    ensures forall i :: 0 <= i < |t| && t[i].id == id ==>
              Table.WritesData(t[i], UpdateQuantity(t, id, quantity, now)[i], UpdateQuantityData(quantity, now), Attr)
  {
    forall i | 0 <= i < |t| && t[i].id == id
      ensures Table.WritesData(t[i], UpdateQuantity(t, id, quantity, now)[i], UpdateQuantityData(quantity, now), Attr)
    {
      SetQuantityWritesData(quantity, now, t[i]);
    }
  }

  /** The store accepts the quantity request, which names no reserved word, and its
      answer is the updated table. */
  lemma UpdateQuantityAccepted(t: seq<CartItem>, id: string, quantity: int, now: int)
    ensures Table.SendUpdate(t, Key, id, SetQuantity(quantity, now), UpdateQuantityData(quantity, now), map[])
         == Ok(UpdateQuantity(t, id, quantity, now))
  {
    Table.AliasedKeysAccepted(t, Key, id, SetQuantity(quantity, now), UpdateQuantityData(quantity, now), map[]);
  }

  /** The data `updateQuantity` hands to the base repository's `update`. */
  function UpdateQuantityData(quantity: int, now: int): seq<(string, Table.AttrValue)> {
    [("quantity", Table.Num(quantity)), ("updatedAt", Table.Time(now))]
  }

  /** The change to the line is exactly the data the request writes: quantity and
      updatedAt get their bound values, and id, owner, product and createdAt stay. */
  lemma SetQuantityWritesData(quantity: int, now: int, c: CartItem)
    ensures Table.WritesData(c, SetQuantity(quantity, now)(c), UpdateQuantityData(quantity, now), Attr)
  {
    var data := UpdateQuantityData(quantity, now);
    forall a | Table.Unwritten(data, a) ensures Attr(SetQuantity(quantity, now)(c), a) == Attr(c, a) {
      assert data[0].0 != a && data[1].0 != a;
    }
  }

  /** The request that update sends: two placeholders, no attribute names. */
  lemma UpdateQuantityRequest(quantity: int, now: int)
    ensures Table.BuildUpdate(UpdateQuantityData(quantity, now), map[]).expression
         == "SET " + "quantity = :val0" + ", " + "updatedAt = :val1"
    ensures Table.BuildUpdate(UpdateQuantityData(quantity, now), map[]).values
         == map[":val0" := Table.Num(quantity), ":val1" := Table.Time(now)]
    ensures Table.BuildUpdate(UpdateQuantityData(quantity, now), map[]).names == None
  {
    UpdateQuantityExpression(quantity, now);
    UpdateQuantityValues(quantity, now);
  }

  lemma UpdateQuantityExpression(quantity: int, now: int)
    ensures Table.BuildUpdate(UpdateQuantityData(quantity, now), map[]).expression
         == "SET " + "quantity = :val0" + ", " + "updatedAt = :val1"
  {
    var clauses := Table.SetClauses(UpdateQuantityData(quantity, now), map[], 0);
    UpdateQuantityClauses(quantity, now);
    assert Join(clauses, ", ") == clauses[0] + ", " + clauses[1] by {
      assert clauses[1..] == [clauses[1]];
    }
  }

  lemma UpdateQuantityClauses(quantity: int, now: int)
    ensures Table.SetClauses(UpdateQuantityData(quantity, now), map[], 0)
         == ["quantity = :val0", "updatedAt = :val1"]
  {
    var data := UpdateQuantityData(quantity, now);
    var clauses := Table.SetClauses(data, map[], 0);
    assert NatToString(0) == "0" && NatToString(1) == "1";
    assert Table.AttrRef("quantity", map[]) == "quantity";
    assert Table.AttrRef("updatedAt", map[]) == "updatedAt";
    assert clauses[0] == "quantity = :val0";
    assert clauses[1] == "updatedAt = :val1";
  }

  lemma UpdateQuantityValues(quantity: int, now: int)
    ensures Table.BuildUpdate(UpdateQuantityData(quantity, now), map[]).values
         == map[":val0" := Table.Num(quantity), ":val1" := Table.Time(now)]
  {
    var data := UpdateQuantityData(quantity, now);
    var values := Table.BuildUpdate(data, map[]).values;
    assert NatToString(0) == "0" && NatToString(1) == "1";
    Table.BuildUpdateBindsEveryKey(data, map[], 0);
    Table.BuildUpdateBindsEveryKey(data, map[], 1);
    assert Table.Placeholder(0) == ":val0" && Table.Placeholder(1) == ":val1";
    assert values.Keys == set i | 0 <= i < 2 :: Table.Placeholder(i);
    forall x | x in values.Keys ensures x == ":val0" || x == ":val1" {
      var i :| 0 <= i < 2 && x == Table.Placeholder(i);
      assert i == 0 || i == 1;
    }
    assert values.Keys == {":val0", ":val1"};
  }

  /** The ids of that user's lines. */
  function LineIds(t: seq<CartItem>, userId: string): (r: seq<string>)
    ensures |r| == |FindByUserId(t, userId)|
    ensures forall i :: 0 <= i < |r| ==> r[i] == FindByUserId(t, userId)[i].id
  {
    var lines := FindByUserId(t, userId);
    seq(|lines|, i requires 0 <= i < |lines| => lines[i].id)
  }

  function IdNotIn(ids: seq<string>): CartItem -> bool {
    (c: CartItem) => c.id !in ids
  }

  /** `clearCart`: reads the user's lines, then deletes each by id. */
  method ClearCart(t: seq<CartItem>, userId: string) returns (r: seq<CartItem>)
    ensures forall i :: 0 <= i < |r| ==> r[i] in t && r[i].userId != userId
    ensures r == Filter(t, IdNotIn(LineIds(t, userId)))
  {
    var ids := LineIds(t, userId);
    FindByUserIdComplete(t, userId);
    r := t;
    FilterAll(t, IdNotIn([]));
    var i := 0;
    while i < |ids|
      invariant 0 <= i <= |ids|
      invariant r == Filter(t, IdNotIn(ids[..i]))
    {
      DeleteOneMore(t, ids, i);
      r := Table.Delete(r, Key, ids[i]);
      i := i + 1;
    }
    assert ids[..|ids|] == ids;
  }

  /** Deleting the next id extends the set of ids filtered out. */
  lemma DeleteOneMore(t: seq<CartItem>, ids: seq<string>, i: nat)
    requires i < |ids|
    ensures Table.Delete(Filter(t, IdNotIn(ids[..i])), Key, ids[i]) == Filter(t, IdNotIn(ids[..i + 1]))
  {
    assert ids[..i + 1] == ids[..i] + [ids[i]];
    FilterFilter(t, IdNotIn(ids[..i]), Table.KeyIsNot(Key, ids[i]), IdNotIn(ids[..i + 1]));
  }

  /** With unique line ids, clearing removes exactly that user's lines: every line of
      every other user stays, in order. */
  lemma {:induction false} ClearCartKeepsOthers(t: seq<CartItem>, userId: string)
    requires Table.KeysUnique(t, Key)
    ensures Filter(t, IdNotIn(LineIds(t, userId))) == Filter(t, (c: CartItem) => c.userId != userId)
  {
    var ids := LineIds(t, userId);
    forall i | 0 <= i < |t| ensures IdNotIn(ids)(t[i]) == (t[i].userId != userId) {
      if t[i].userId == userId {
        var lines := FindByUserId(t, userId);
        FindByUserIdComplete(t, userId);
        var j :| 0 <= j < |lines| && lines[j] == t[i];
        assert ids[j] == t[i].id;
      }
    }
    FilterExt(t, IdNotIn(ids), (c: CartItem) => c.userId != userId);
  }
}

=== FILE: catalog.dfy ===
/** The product record and the products repository
    (Lab03/repositories/products.repository.js): which records count as
    active or deleted, the scans built on that, the filter `advancedSearch`
    composes, and the soft-delete / restore / stock updates. */
module Catalog {
  import opened Outcome
  import opened Seqs
  import opened Text
  import Table

  /** A product as stored. `isDeleted` is a boolean attribute that older
      records may lack, hence three states; time stamps are instants. */
  datatype Product = Product(
    id: string,
    name: string,
    price: int,
    quantity: int,
    categoryId: string,
    urlImage: string,
    isDeleted: Option<bool>,
    createdAt: Option<int>,
    updatedAt: Option<int>,
    deletedAt: Option<int>)

  /** The primary key of the products table. */
  function Key(p: Product): string {
    p.id
  }

  /** An optional time stamp as a stored attribute. */
  function TimeAttr(t: Option<int>): Option<Table.AttrValue> {
    if t.Some? then Some(Table.Time(t.value)) else None
  }

  /** A record's attribute by its stored name; one the record lacks is `None`. */
  function Attr(p: Product, a: string): Option<Table.AttrValue> {
    if a == "id" then Some(Table.Str(p.id))
    else if a == "name" then Some(Table.Str(p.name))
    else if a == "price" then Some(Table.Num(p.price))
    else if a == "quantity" then Some(Table.Num(p.quantity))
    else if a == "categoryId" then Some(Table.Str(p.categoryId))
    else if a == "url_image" then Some(Table.Str(p.urlImage))
    else if a == "isDeleted" then (if p.isDeleted.Some? then Some(Table.Bool(p.isDeleted.value)) else None)
    else if a == "createdAt" then TimeAttr(p.createdAt)
    else if a == "updatedAt" then TimeAttr(p.updatedAt)
    else if a == "deletedAt" then TimeAttr(p.deletedAt)
    else None
  }

  /** `attribute_not_exists(isDeleted) OR isDeleted = false`. */
  predicate IsActive(p: Product) {
    match p.isDeleted
    case None => true
    case Some(flag) => flag == false
  }

  /** `isDeleted = true`. */
  predicate IsMarkedDeleted(p: Product) {
    p.isDeleted == Some(true)
  }

  /** Every record is either active or marked deleted, never both. */
  lemma ActiveOrDeleted(p: Product)
    ensures IsActive(p) <==> !IsMarkedDeleted(p)
  {
  }

  /** The three-tier stock label shared by the cart and the inventory pages. */
  datatype StockTier = OutOfStock | LowStock | InStock {
    /** The Bootstrap class the label is rendered with. */
    function CssClass(): string {
      match this
      case OutOfStock => "danger"
      case LowStock => "warning"
      case InStock => "success"
    }
  }

  /** A status label as the views render it: text, a Bootstrap class and an icon. */
  datatype Badge = Badge(text: string, cssClass: string, icon: string)

  /** `getStockStatus` / `getInventoryStatus`: exactly zero is out of stock,
      anything below five (negative counts included) is low. */
  function TierOf(quantity: int): (r: StockTier)
    ensures r == OutOfStock <==> quantity == 0
    ensures r == InStock <==> quantity >= 5
    ensures r.CssClass() == "warning" <==> quantity != 0 && quantity < 5
  {
    if quantity == 0 then OutOfStock else if quantity < 5 then LowStock else InStock
  }

  // ---------------------------------------------------------------------------
  // Scans

  /** `findAllActive`. */
  function FindAllActive(t: seq<Product>): (r: seq<Product>)
    ensures forall i :: 0 <= i < |r| ==> r[i] in t && IsActive(r[i])
    ensures forall i :: 0 <= i < |t| && IsActive(t[i]) ==> t[i] in r
  {
    FilterKeepsMatches(t, IsActive);
    Filter(t, IsActive)
  }

  /** `findDeleted`. */
  function FindDeleted(t: seq<Product>): (r: seq<Product>)
    ensures forall i :: 0 <= i < |r| ==> r[i] in t && IsMarkedDeleted(r[i])
    ensures forall i :: 0 <= i < |t| && IsMarkedDeleted(t[i]) ==> t[i] in r
  {
    FilterKeepsMatches(t, IsMarkedDeleted);
    Filter(t, IsMarkedDeleted)
  }

  /** The active and the deleted scans split the table between them. */
  lemma ActiveDeletedPartition(t: seq<Product>)
    ensures |FindAllActive(t)| + |FindDeleted(t)| == |t|
    ensures multiset(FindAllActive(t)) + multiset(FindDeleted(t)) == multiset(t)
  {
    FilterPartition(t, IsActive, IsMarkedDeleted);
  }

  /** The scan filter of `findByCategory`. */
  function InCategory(categoryId: string): Product -> bool {
    (p: Product) => p.categoryId == categoryId && IsActive(p)
  }

  /** The scan filter of `searchByName`. */
  function NameContains(term: string): Product -> bool {
    (p: Product) => Contains(p.name, term) && IsActive(p)
  }

  /** The scan filter of `findByPriceRange`. */
  function PriceBetween(lo: int, hi: int): Product -> bool {
    (p: Product) => lo <= p.price <= hi && IsActive(p)
  }

  /** The selection `advancedSearch` is meant to make. */
  function MatchesAll(c: Criteria): Product -> bool {
    (p: Product) => Matches(c, p)
  }

  /** Every record except the one under `id`. */
  function OtherThan(id: string): Product -> bool {
    (p: Product) => p.id != id
  }

  /** `findByCategory`. */
  function FindByCategory(t: seq<Product>, categoryId: string): (r: seq<Product>)
    ensures forall i :: 0 <= i < |r| ==> r[i] in t && IsActive(r[i]) && r[i].categoryId == categoryId
    ensures forall i :: 0 <= i < |t| && IsActive(t[i]) && t[i].categoryId == categoryId ==> t[i] in r
  {
    FilterKeepsMatches(t, InCategory(categoryId));
    Filter(t, InCategory(categoryId))
  }

  /** `searchByName`. */
  function SearchByName(t: seq<Product>, term: string): (r: seq<Product>)
    ensures forall i :: 0 <= i < |r| ==> r[i] in t && IsActive(r[i]) && Contains(r[i].name, term)
    ensures forall i :: 0 <= i < |t| && IsActive(t[i]) && Contains(t[i].name, term) ==> t[i] in r
  {
    FilterKeepsMatches(t, NameContains(term));
    Filter(t, NameContains(term))
  }

  /** `findByPriceRange`: an inclusive range. */
  function FindByPriceRange(t: seq<Product>, lo: int, hi: int): (r: seq<Product>)
    ensures forall i :: 0 <= i < |r| ==> r[i] in t && IsActive(r[i]) && lo <= r[i].price <= hi
    ensures forall i :: 0 <= i < |t| && IsActive(t[i]) && lo <= t[i].price <= hi ==> t[i] in r
  {
    FilterKeepsMatches(t, PriceBetween(lo, hi));
    Filter(t, PriceBetween(lo, hi))
  }

  // ---------------------------------------------------------------------------
  // advancedSearch: the filter it builds and the set it denotes

  /** The optional criteria. An empty `categoryId` or `searchTerm` is falsy and
      therefore absent; a price bound is absent only when undefined. */
  datatype Criteria = Criteria(
    categoryId: string,
    minPrice: Option<int>,
    maxPrice: Option<int>,
    searchTerm: string)

  /** The criteria of a search that asks for nothing. */
  const NoCriteria := Criteria("", None, None, "")

  /** One conjunct of the filter expression. */
  datatype Clause = ActiveClause | CategoryClause | BetweenClause | MinClause | MaxClause | NameClause

  function ClauseText(c: Clause): string {
    match c
    case ActiveClause => "(attribute_not_exists(isDeleted) OR isDeleted = :false)"
    case CategoryClause => "categoryId = :catId"
    case BetweenClause => "price BETWEEN :minPrice AND :maxPrice"
    case MinClause => "price >= :minPrice"
    case MaxClause => "price <= :maxPrice"
    case NameClause => "contains(#name, :search)"
  }

  /** The scan request `advancedSearch` sends. */
  datatype SearchPlan = SearchPlan(
    clauses: seq<Clause>,
    values: map<string, Table.AttrValue>,
    names: Option<map<string, string>>)

  /** `filterParts.join(" AND ")`. */
  function FilterExpression(plan: SearchPlan): string {
    Join(seq(|plan.clauses|, i requires 0 <= i < |plan.clauses| => ClauseText(plan.clauses[i])), " AND ")
  }

  /** What one clause says of a product, reading its placeholders from the request. */
  predicate ClauseHolds(cl: Clause, plan: SearchPlan, p: Product) {
    var v := plan.values;
    match cl
    case ActiveClause =>
      p.isDeleted.None?
      || (":false" in v && v[":false"] == Table.Bool(p.isDeleted.value))
    case CategoryClause =>
      ":catId" in v && v[":catId"] == Table.Str(p.categoryId)
    case BetweenClause =>
      ":minPrice" in v && ":maxPrice" in v && v[":minPrice"].Num? && v[":maxPrice"].Num?
      && v[":minPrice"].n <= p.price <= v[":maxPrice"].n
    case MinClause =>
      ":minPrice" in v && v[":minPrice"].Num? && v[":minPrice"].n <= p.price
    case MaxClause =>
      ":maxPrice" in v && v[":maxPrice"].Num? && p.price <= v[":maxPrice"].n
    case NameClause =>
      plan.names.Some? && "#name" in plan.names.value && plan.names.value["#name"] == "name"
      && ":search" in v && v[":search"].Str? && Contains(p.name, v[":search"].s)
  }

  /** Every clause in `cls` holds of the product. */
  predicate AllHold(cls: seq<Clause>, plan: SearchPlan, p: Product) {
    forall i :: 0 <= i < |cls| ==> ClauseHolds(cls[i], plan, p)
  }

  /** The product passes the scan filter: every clause holds. */
  predicate Denotes(plan: SearchPlan, p: Product) {
    AllHold(plan.clauses, plan, p)
  }

  lemma AllHoldConcat(a: seq<Clause>, b: seq<Clause>, plan: SearchPlan, p: Product)
    ensures AllHold(a + b, plan, p) <==> AllHold(a, plan, p) && AllHold(b, plan, p)
  {
    if AllHold(a, plan, p) && AllHold(b, plan, p) {
      forall i | 0 <= i < |a + b| ensures ClauseHolds((a + b)[i], plan, p) {
        if i >= |a| {
          assert (a + b)[i] == b[i - |a|];
        }
      }
    }
    if AllHold(a + b, plan, p) {
      forall i | 0 <= i < |a| ensures ClauseHolds(a[i], plan, p) {
        assert (a + b)[i] == a[i];
      }
      forall i | 0 <= i < |b| ensures ClauseHolds(b[i], plan, p) {
        assert (a + b)[|a| + i] == b[i];
      }
    }
  }

  /** The set the criteria are meant to select, stated directly. */
  predicate Matches(c: Criteria, p: Product) {
    && IsActive(p)
    && (c.categoryId != "" ==> p.categoryId == c.categoryId)
    && (c.minPrice.Some? ==> c.minPrice.value <= p.price)
    && (c.maxPrice.Some? ==> p.price <= c.maxPrice.value)
    && (c.searchTerm != "" ==> Contains(p.name, c.searchTerm))
  }

  function PriceClauses(c: Criteria): seq<Clause> {
    if c.minPrice.Some? && c.maxPrice.Some? then [BetweenClause]
    else if c.minPrice.Some? then [MinClause]
    else if c.maxPrice.Some? then [MaxClause]
    else []
  }

  function SearchValues(c: Criteria): map<string, Table.AttrValue> {
    var base := map[":false" := Table.Bool(false)];
    var withCat := if c.categoryId != "" then base[":catId" := Table.Str(c.categoryId)] else base;
    var withMin := if c.minPrice.Some? then withCat[":minPrice" := Table.Num(c.minPrice.value)] else withCat;
    var withMax := if c.maxPrice.Some? then withMin[":maxPrice" := Table.Num(c.maxPrice.value)] else withMin;
    if c.searchTerm != "" then withMax[":search" := Table.Str(c.searchTerm)] else withMax
  }

  /** `advancedSearch`'s request: the active clause always first, then one clause
      per given criterion; the names map only when a search term is given. */
  function AdvancedSearchPlan(c: Criteria): (plan: SearchPlan)
    ensures |plan.clauses| >= 1 && plan.clauses[0] == ActiveClause
    ensures CategoryClause in plan.clauses <==> c.categoryId != ""
    ensures BetweenClause in plan.clauses <==> c.minPrice.Some? && c.maxPrice.Some?
    ensures MinClause in plan.clauses <==> c.minPrice.Some? && c.maxPrice.None?
    ensures MaxClause in plan.clauses <==> c.minPrice.None? && c.maxPrice.Some?
    ensures NameClause in plan.clauses <==> c.searchTerm != ""
    ensures plan.names.Some? <==> c.searchTerm != ""
  {
    SearchPlan(
      [ActiveClause]
      + (if c.categoryId != "" then [CategoryClause] else [])
      + PriceClauses(c)
      + (if c.searchTerm != "" then [NameClause] else []),
      SearchValues(c),
      if c.searchTerm != "" then Some(map["#name" := "name"]) else None)
  }

  /** The filter string of a search with no criteria is the active clause alone. */
  lemma NoCriteriaFilterText()
    ensures FilterExpression(AdvancedSearchPlan(NoCriteria))
         == "(attribute_not_exists(isDeleted) OR isDeleted = :false)"
  {
    var plan := AdvancedSearchPlan(NoCriteria);
    assert plan.clauses == [ActiveClause];
  }

  /** The placeholders `advancedSearch` binds, one per given criterion. */
  lemma SearchValuesFacts(c: Criteria)
    ensures ":false" in SearchValues(c) && SearchValues(c)[":false"] == Table.Bool(false)
    ensures c.categoryId != "" ==> ":catId" in SearchValues(c) && SearchValues(c)[":catId"] == Table.Str(c.categoryId)
    ensures c.minPrice.Some? ==> ":minPrice" in SearchValues(c) && SearchValues(c)[":minPrice"] == Table.Num(c.minPrice.value)
    ensures c.maxPrice.Some? ==> ":maxPrice" in SearchValues(c) && SearchValues(c)[":maxPrice"] == Table.Num(c.maxPrice.value)
    ensures c.searchTerm != "" ==> ":search" in SearchValues(c) && SearchValues(c)[":search"] == Table.Str(c.searchTerm)
  {
  }

  /** The request `advancedSearch` builds selects exactly the products the criteria describe. */
  lemma SearchPlanDenotesCriteria(c: Criteria, p: Product)
    ensures Denotes(AdvancedSearchPlan(c), p) <==> Matches(c, p)
  {
    var plan := AdvancedSearchPlan(c);
    var cat := if c.categoryId != "" then [CategoryClause] else [];
    var name := if c.searchTerm != "" then [NameClause] else [];
    assert plan.clauses == [ActiveClause] + cat + PriceClauses(c) + name;
    ActivePart(c, p);
    CategoryPart(c, p);
    PricePart(c, p);
    NamePart(c, p);
    AllHoldConcat([ActiveClause] + cat + PriceClauses(c), name, plan, p);
    AllHoldConcat([ActiveClause] + cat, PriceClauses(c), plan, p);
    AllHoldConcat([ActiveClause], cat, plan, p);
  }

  lemma ActivePart(c: Criteria, p: Product)
    ensures AllHold([ActiveClause], AdvancedSearchPlan(c), p) <==> IsActive(p)
  {
    SearchValuesFacts(c);
  }

  lemma CategoryPart(c: Criteria, p: Product)
    ensures AllHold(if c.categoryId != "" then [CategoryClause] else [], AdvancedSearchPlan(c), p)
        <==> (c.categoryId != "" ==> p.categoryId == c.categoryId)
  {
    SearchValuesFacts(c);
  }

  lemma PricePart(c: Criteria, p: Product)
    ensures AllHold(PriceClauses(c), AdvancedSearchPlan(c), p)
        <==> (c.minPrice.Some? ==> c.minPrice.value <= p.price) && (c.maxPrice.Some? ==> p.price <= c.maxPrice.value)
  {
    SearchValuesFacts(c);
  }

  lemma NamePart(c: Criteria, p: Product)
    ensures AllHold(if c.searchTerm != "" then [NameClause] else [], AdvancedSearchPlan(c), p)
        <==> (c.searchTerm != "" ==> Contains(p.name, c.searchTerm))
  {
    SearchValuesFacts(c);
  }

  /** `advancedSearch`: the active products satisfying every given criterion, in scan order. */
  function AdvancedSearch(t: seq<Product>, c: Criteria): (r: seq<Product>)
    ensures forall i :: 0 <= i < |r| ==> r[i] in t && Denotes(AdvancedSearchPlan(c), r[i])
    ensures forall i :: 0 <= i < |t| && Denotes(AdvancedSearchPlan(c), t[i]) ==> t[i] in r
  {
    forall p | true ensures Denotes(AdvancedSearchPlan(c), p) <==> Matches(c, p) {
      SearchPlanDenotesCriteria(c, p);
    }
    FilterKeepsMatches(t, MatchesAll(c));
    Filter(t, MatchesAll(c))
  }

  /** A search without criteria lists the same products as `findAllActive`. */
  lemma NoCriteriaIsFindAllActive(t: seq<Product>)
    ensures AdvancedSearch(t, NoCriteria) == FindAllActive(t)
  {
    FilterExt(t, MatchesAll(NoCriteria), IsActive);
  }

  /** A category-only search agrees with `findByCategory`. */
  lemma CategorySearchIsFindByCategory(t: seq<Product>, categoryId: string)
    requires categoryId != ""
    ensures AdvancedSearch(t, NoCriteria.(categoryId := categoryId)) == FindByCategory(t, categoryId)
  {
    FilterExt(t, MatchesAll(NoCriteria.(categoryId := categoryId)), InCategory(categoryId));
  }

  /** A search-term-only search agrees with `searchByName`, even for the empty term. */
  lemma NameSearchIsSearchByName(t: seq<Product>, term: string)
    ensures AdvancedSearch(t, NoCriteria.(searchTerm := term)) == SearchByName(t, term)
  {
    forall p: Product ensures Matches(NoCriteria.(searchTerm := term), p) == (Contains(p.name, term) && IsActive(p)) {
      ContainsEmpty(p.name);
    }
    FilterExt(t, MatchesAll(NoCriteria.(searchTerm := term)), NameContains(term));
  }

  /** A search with both bounds agrees with `findByPriceRange`. */
  lemma RangeSearchIsFindByPriceRange(t: seq<Product>, lo: int, hi: int)
    ensures AdvancedSearch(t, NoCriteria.(minPrice := Some(lo), maxPrice := Some(hi)))
         == FindByPriceRange(t, lo, hi)
  {
    FilterExt(t, MatchesAll(NoCriteria.(minPrice := Some(lo), maxPrice := Some(hi))), PriceBetween(lo, hi));
  }

  // ---------------------------------------------------------------------------
  // Keyed updates

  /** `softDelete`: marks the record deleted and stamps `deletedAt`. */
  function SoftDelete(t: seq<Product>, id: string, now: int): (r: seq<Product>)
    ensures |r| == |t|
    ensures forall i :: 0 <= i < |t| && t[i].id != id ==> r[i] == t[i]
    ensures forall i :: 0 <= i < |t| && t[i].id == id ==>
      IsMarkedDeleted(r[i]) && r[i].deletedAt == Some(now)
      && r[i] == t[i].(isDeleted := Some(true), deletedAt := Some(now))
  {
    Table.Update(t, Key, id, (p: Product) => p.(isDeleted := Some(true), deletedAt := Some(now)))
  }

  /** `restore`: clears the flag and removes `deletedAt`. */
  function Restore(t: seq<Product>, id: string): (r: seq<Product>)
    ensures |r| == |t|
    ensures forall i :: 0 <= i < |t| && t[i].id != id ==> r[i] == t[i]
    ensures forall i :: 0 <= i < |t| && t[i].id == id ==>
      IsActive(r[i]) && r[i].deletedAt.None?
      && r[i] == t[i].(isDeleted := Some(false), deletedAt := None)
  {
    Table.Update(t, Key, id, (p: Product) => p.(isDeleted := Some(false), deletedAt := None))
  }

  /** `updateQuantity`: only the stock count of the target record changes. */
  function UpdateQuantity(t: seq<Product>, id: string, quantity: int): (r: seq<Product>)
    ensures |r| == |t|
    ensures forall i :: 0 <= i < |t| && t[i].id != id ==> r[i] == t[i]
    ensures forall i :: 0 <= i < |t| && t[i].id == id ==> r[i] == t[i].(quantity := quantity)
  {
    Table.Update(t, Key, id, (p: Product) => p.(quantity := quantity))
  }

  /** The fields the products service writes when a product is edited. */
  datatype ProductUpdate = ProductUpdate(
    name: string, price: int, quantity: int, categoryId: string, urlImage: string, updatedAt: int)

  /** The base repository's `update` with that data: the six attributes are set, the rest kept. */
  function ApplyUpdate(t: seq<Product>, id: string, u: ProductUpdate): (r: seq<Product>)
    ensures |r| == |t|
    ensures forall i :: 0 <= i < |t| && t[i].id != id ==> r[i] == t[i]
    ensures forall i :: 0 <= i < |t| && t[i].id == id ==>
      && r[i].id == id && r[i].name == u.name && r[i].price == u.price && r[i].quantity == u.quantity
      && r[i].categoryId == u.categoryId && r[i].urlImage == u.urlImage && r[i].updatedAt == Some(u.updatedAt)
      && r[i].isDeleted == t[i].isDeleted && r[i].createdAt == t[i].createdAt && r[i].deletedAt == t[i].deletedAt
  {
    Table.Update(t, Key, id, Overwrite(u))
  }

  /** The change an edit makes to the record it targets. */
  function Overwrite(u: ProductUpdate): Product -> Product {
    (p: Product) => p.(name := u.name, price := u.price, quantity := u.quantity,
      categoryId := u.categoryId, urlImage := u.urlImage, updatedAt := Some(u.updatedAt))
  }

  /** Restoring undoes a soft delete: the result is the table restored directly,
      and it is the original table when the record was an active one without a stamp. */
  lemma RestoreUndoesSoftDelete(t: seq<Product>, id: string, now: int)
    ensures Restore(SoftDelete(t, id, now), id) == Restore(t, id)
    ensures (forall i :: 0 <= i < |t| && t[i].id == id ==> t[i].isDeleted == Some(false) && t[i].deletedAt.None?)
            ==> Restore(SoftDelete(t, id, now), id) == t
  {
  }

  /** After a soft delete the active listing is the old one without that record. */
  lemma {:induction false} SoftDeleteHides(t: seq<Product>, id: string, now: int)
    ensures FindAllActive(SoftDelete(t, id, now)) == Filter(FindAllActive(t), OtherThan(id))
  {
    FilterFilter(t, IsActive, OtherThan(id), ActiveOtherThan(id));
    SoftDeleteHidesFilter(t, id, now);
  }

  function ActiveOtherThan(id: string): Product -> bool {
    (p: Product) => IsActive(p) && p.id != id
  }

  lemma {:induction false} SoftDeleteHidesFilter(t: seq<Product>, id: string, now: int)
    ensures Filter(SoftDelete(t, id, now), IsActive) == Filter(t, ActiveOtherThan(id))
  {
    if |t| > 0 {
      assert SoftDelete(t, id, now)[1..] == SoftDelete(t[1..], id, now);
      SoftDeleteHidesFilter(t[1..], id, now);
    }
  }
}

=== FILE: image_store.dfy ===
/** Product images in S3 (Lab03/services/s3.service.js): the object key an
    upload is stored under, the public URL handed back, the key recovered from
    a URL for deletion, and the listing of the image folder. The bucket and
    region are configuration; whether the S3 call itself succeeds is a parameter. */
module ImageStore {
  import opened Outcome
  import opened Seqs
  import opened Text

  datatype S3Config = S3Config(bucket: string, region: string)

  /** The folder every product image lives in. */
  const Folder := "products/images/"

  /** `https://{bucket}.s3.{region}.amazonaws.com/`. */
  function RegionalPrefix(c: S3Config): string {
    "https://" + c.bucket + ".s3." + c.region + ".amazonaws.com/"
  }

  /** `https://{bucket}.s3.amazonaws.com/`, the region-less form. */
  function GlobalPrefix(c: S3Config): string {
    "https://" + c.bucket + ".s3.amazonaws.com/"
  }

  /** The key an uploaded file is stored under: the folder, then the original name. */
  function UploadKey(originalName: string): (key: string)
    ensures StartsWith(key, Folder)
    ensures key[|Folder|..] == originalName
  {
    Folder + originalName
  }

  /** `uploadImage`: the regional URL of the stored object, or "" when the put fails. */
  function UploadImage(c: S3Config, originalName: string, stored: bool): (url: string)
    ensures stored ==> StartsWith(url, RegionalPrefix(c)) && url[|RegionalPrefix(c)|..] == UploadKey(originalName)
    ensures !stored ==> url == ""
  {
    if stored then RegionalPrefix(c) + UploadKey(originalName) else ""
  }

  /** What `deleteImageByUrl` asks S3 to do. */
  datatype DeleteRequest = NoDelete | DeleteKey(key: string)

  /** `deleteImageByUrl`: nothing for an empty URL; otherwise the URL minus the
      regional prefix, else minus the global prefix, else nothing. */
  function DeleteImageByUrl(c: S3Config, url: string): (r: DeleteRequest)
    ensures url == "" ==> r == NoDelete
    ensures url != "" && StartsWith(url, RegionalPrefix(c)) ==> r == DeleteKey(url[|RegionalPrefix(c)|..])
    ensures url != "" && !StartsWith(url, RegionalPrefix(c)) && StartsWith(url, GlobalPrefix(c))
      ==> r == DeleteKey(url[|GlobalPrefix(c)|..])
    ensures !StartsWith(url, RegionalPrefix(c)) && !StartsWith(url, GlobalPrefix(c)) ==> r == NoDelete
  {
    if url == "" then NoDelete
    else if StartsWith(url, RegionalPrefix(c)) then DeleteKey(url[|RegionalPrefix(c)|..])
    else if StartsWith(url, GlobalPrefix(c)) then DeleteKey(url[|GlobalPrefix(c)|..])
    else NoDelete
  }

  /** Deleting by the URL an upload returned deletes exactly the uploaded object;
      the URL of a failed upload deletes nothing. */
  lemma UploadThenDeleteRoundTrip(c: S3Config, originalName: string, stored: bool)
    ensures stored ==> DeleteImageByUrl(c, UploadImage(c, originalName, stored)) == DeleteKey(UploadKey(originalName))
    ensures !stored ==> DeleteImageByUrl(c, UploadImage(c, originalName, stored)) == NoDelete
  {
    if stored {
      var url := UploadImage(c, originalName, stored);
      assert url[..|RegionalPrefix(c)|] == RegionalPrefix(c);
    }
  }

  /** Different uploaded names give different URLs, so no upload's URL deletes another's object. */
  lemma UploadUrlsDistinct(c: S3Config, a: string, b: string)
    requires UploadImage(c, a, true) == UploadImage(c, b, true)
    ensures a == b
  {
    var p := RegionalPrefix(c);
    assert a == UploadImage(c, a, true)[|p|..][|Folder|..];
    assert b == UploadImage(c, b, true)[|p|..][|Folder|..];
  }

  /** An object in a bucket listing. */
  datatype S3Object = S3Object(key: string, size: int, lastModified: int)

  datatype ImageInfo = ImageInfo(key: string, url: string, size: int, lastModified: int)

  function IsImageFile(): S3Object -> bool {
    (o: S3Object) => o.key != Folder && o.size > 0
  }

  function Describe(c: S3Config, o: S3Object): ImageInfo {
    ImageInfo(o.key, RegionalPrefix(c) + o.key, o.size, o.lastModified)
  }

  /** `listImages`: the listed objects other than the folder placeholder and empty
      objects, each with its regional URL; a failed listing gives nothing. */
  function ListImages(c: S3Config, listing: Option<seq<S3Object>>): (r: seq<ImageInfo>)
    ensures listing.None? ==> r == []
    ensures listing.Some? ==> |r| == Count(listing.value, IsImageFile())
    ensures forall k :: 0 <= k < |r| ==>
      r[k].key != Folder && r[k].size > 0 && r[k].url == RegionalPrefix(c) + r[k].key
    ensures listing.Some? ==> forall o :: o in listing.value && o.key != Folder && o.size > 0 ==>
      Describe(c, o) in r
  {
    match listing
    case None => []
    case Some(objects) =>
      var kept := Filter(objects, IsImageFile());
      FilterKeepsMatches(objects, IsImageFile());
      var r := seq(|kept|, i requires 0 <= i < |kept| => Describe(c, kept[i]));
      assert forall o :: o in objects && o.key != Folder && o.size > 0 ==> Describe(c, o) in r by {
        forall o | o in objects && o.key != Folder && o.size > 0 ensures Describe(c, o) in r {
          var i :| 0 <= i < |objects| && objects[i] == o;
          var j :| 0 <= j < |kept| && kept[j] == o;
          assert r[j] == Describe(c, o);
        }
      }
      r
  }

  /** Every listed image can be deleted by its URL, and the request names its key. */
  lemma ListedImagesDeletable(c: S3Config, listing: Option<seq<S3Object>>, k: int)
    requires 0 <= k < |ListImages(c, listing)|
    ensures DeleteImageByUrl(c, ListImages(c, listing)[k].url) == DeleteKey(ListImages(c, listing)[k].key)
  {
    var info := ListImages(c, listing)[k];
    assert info.url[..|RegionalPrefix(c)|] == RegionalPrefix(c);
    assert info.url[|RegionalPrefix(c)|..] == info.key;
  }
}

=== FILE: mock_catalog.dfy ===
/** The in-memory branch of Lab03/services/dynamodb.service.js: when the
    store is unreachable, the product list is an array held in the process,
    and each exported operation works on that array. Operations that look a
    record up act on the FIRST element with the id (`findIndex`); hard delete
    removes every element with the id (`filter`). */
module MockCatalog {
  import opened Outcome
  import opened Seqs
  import opened Catalog

  /** The seed array the process starts with, created at instant `loadedAt`. */
  function InitialProducts(loadedAt: int): seq<Product> {
    [ Product("1", "Sản phẩm mẫu 1", 100000, 10, "cat-001", "", Some(false), Some(loadedAt), None, None),
      Product("2", "Sản phẩm mẫu 2", 200000, 5, "cat-002", "", Some(false), Some(loadedAt), None, None),
      Product("3", "Sản phẩm đã xóa", 150000, 3, "cat-001", "", Some(true), Some(loadedAt), None, None) ]
  }

  /** JavaScript truthiness of `p.isDeleted`. */
  predicate DeletedFlagTruthy(p: Product) {
    p.isDeleted == Some(true)
  }

  /** `!p.isDeleted` picks the same records as the store's active filter. */
  lemma FalsyFlagIsActive(p: Product)
    ensures !DeletedFlagTruthy(p) <==> IsActive(p)
  {
  }

  function NotDeletedTruthy(): Product -> bool {
    (p: Product) => !DeletedFlagTruthy(p)
  }

  function HasId(id: string): Product -> bool {
    (p: Product) => p.id == id
  }

  /** The index `findIndex(p => p.id === id)` returns. */
  function IndexOf(s: seq<Product>, id: string): (k: int)
    ensures -1 <= k < |s|
    ensures k == -1 <==> forall i :: 0 <= i < |s| ==> s[i].id != id
    ensures k >= 0 ==> s[k].id == id && forall j :: 0 <= j < k ==> s[j].id != id
  {
    FindIndex(s, HasId(id))
  }

  /** `getAllProducts`: the records whose flag is falsy, in array order. */
  function GetAllProducts(s: seq<Product>): (r: seq<Product>)
    ensures r == FindAllActive(s)
  {
    FilterExt(s, NotDeletedTruthy(), IsActive);
    Filter(s, NotDeletedTruthy())
  }

  /** `getAllProductsIncludeDeleted`: the array itself. */
  function GetAllProductsIncludeDeleted(s: seq<Product>): (r: seq<Product>)
    ensures |r| == |GetAllProducts(s)| + |FindDeleted(s)|
    ensures multiset(r) == multiset(GetAllProducts(s)) + multiset(FindDeleted(s))
  {
    ActiveDeletedPartition(s);
    s
  }

  /** `getProductById`: the first record with the id, `undefined` when none. */
  function GetProductById(s: seq<Product>, id: string): (r: Option<Product>)
    ensures r.None? <==> IndexOf(s, id) == -1
    ensures r.Some? ==> r.value == s[IndexOf(s, id)]
  {
    var k := IndexOf(s, id);
    if k == -1 then None else Some(s[k])
  }

  /** What the add-product route hands to `createProduct`. */
  datatype ProductInput = ProductInput(
    id: string, name: string, price: int, quantity: int, categoryId: string, urlImage: string)

  /** `createProduct`: pushes the input with `isDeleted: false` and a creation stamp. */
  function CreateProduct(s: seq<Product>, input: ProductInput, now: int): (r: seq<Product>)
    ensures |r| == |s| + 1 && r[..|s|] == s
    ensures var p := r[|s|];
      p.id == input.id && p.name == input.name && p.price == input.price
      && p.quantity == input.quantity && p.categoryId == input.categoryId
      && p.urlImage == input.urlImage && p.isDeleted == Some(false) && p.createdAt == Some(now)
  {
    s + [Product(input.id, input.name, input.price, input.quantity, input.categoryId,
                 input.urlImage, Some(false), Some(now), None, None)]
  }

  /** The fields an edit may carry; an absent field keeps the stored value. */
  datatype ProductPatch = ProductPatch(
    name: Option<string>, price: Option<int>, quantity: Option<int>,
    categoryId: Option<string>, urlImage: Option<string>)

  /** `{ ...old, ...data, id }`. */
  function Overlay(p: Product, patch: ProductPatch): (r: Product)
    ensures r.id == p.id
    ensures r.isDeleted == p.isDeleted && r.createdAt == p.createdAt
    ensures patch.name.Some? ==> r.name == patch.name.value
    ensures patch.name.None? ==> r.name == p.name
    ensures patch.price.Some? ==> r.price == patch.price.value
    ensures patch.price.None? ==> r.price == p.price
    ensures patch.quantity.Some? ==> r.quantity == patch.quantity.value
    ensures patch.quantity.None? ==> r.quantity == p.quantity
    ensures patch.categoryId.Some? ==> r.categoryId == patch.categoryId.value
    ensures patch.categoryId.None? ==> r.categoryId == p.categoryId
    ensures patch.urlImage.Some? ==> r.urlImage == patch.urlImage.value
    ensures patch.urlImage.None? ==> r.urlImage == p.urlImage
  {
    p.(name := patch.name.GetOr(p.name),
       price := patch.price.GetOr(p.price),
       quantity := patch.quantity.GetOr(p.quantity),
       categoryId := patch.categoryId.GetOr(p.categoryId),
       urlImage := patch.urlImage.GetOr(p.urlImage))
  }

  /** `updateProduct`: overlays the fields onto the first record with the id; no match, no change. */
  function UpdateProduct(s: seq<Product>, id: string, patch: ProductPatch): (r: seq<Product>)
    ensures |r| == |s|
    ensures IndexOf(s, id) == -1 ==> r == s
    ensures forall i :: 0 <= i < |s| && i != IndexOf(s, id) ==> r[i] == s[i]
    ensures IndexOf(s, id) >= 0 ==> r[IndexOf(s, id)] == Overlay(s[IndexOf(s, id)], patch)
  {
    var k := IndexOf(s, id);
    if k == -1 then s else s[k := Overlay(s[k], patch)]
  }

  /** `deleteProduct` (soft): sets the flag on the first record with the id and nothing else. */
  function DeleteProduct(s: seq<Product>, id: string): (r: seq<Product>)
    ensures |r| == |s|
    ensures IndexOf(s, id) == -1 ==> r == s
    ensures forall i :: 0 <= i < |s| && i != IndexOf(s, id) ==> r[i] == s[i]
    ensures IndexOf(s, id) >= 0 ==> r[IndexOf(s, id)] == s[IndexOf(s, id)].(isDeleted := Some(true))
  {
    var k := IndexOf(s, id);
    if k == -1 then s else s[k := s[k].(isDeleted := Some(true))]
  }

  /** `restoreProduct`: clears the flag on the first record with the id. */
  function RestoreProduct(s: seq<Product>, id: string): (r: seq<Product>)
    ensures |r| == |s|
    ensures IndexOf(s, id) == -1 ==> r == s
    ensures forall i :: 0 <= i < |s| && i != IndexOf(s, id) ==> r[i] == s[i]
    ensures IndexOf(s, id) >= 0 ==> r[IndexOf(s, id)] == s[IndexOf(s, id)].(isDeleted := Some(false))
  {
    var k := IndexOf(s, id);
    if k == -1 then s else s[k := s[k].(isDeleted := Some(false))]
  }

  /** `hardDeleteProduct`: drops every record with the id and keeps the rest in order. */
  function HardDeleteProduct(s: seq<Product>, id: string): (r: seq<Product>)
    ensures forall i :: 0 <= i < |r| ==> r[i].id != id && r[i] in s
    ensures forall i :: 0 <= i < |s| && s[i].id != id ==> s[i] in r
  {
    FilterKeepsMatches(s, OtherThan(id));
    Filter(s, OtherThan(id))
  }

  /** `getProductsByCategory`. */
  function GetProductsByCategory(s: seq<Product>, categoryId: string): (r: seq<Product>)
    ensures r == FindByCategory(s, categoryId)
  {
    var inCat := (p: Product) => p.categoryId == categoryId && !DeletedFlagTruthy(p);
    FilterExt(s, inCat, InCategory(categoryId));
    Filter(s, inCat)
  }

  /** Soft delete then restore is a round trip: the record is found again and
      listed as active, and the array is unchanged if the record was active
      with an explicit `false` flag. */
  lemma RestoreUndoesDelete(s: seq<Product>, id: string)
    requires IndexOf(s, id) >= 0
    ensures var r := RestoreProduct(DeleteProduct(s, id), id);
      && IndexOf(r, id) == IndexOf(s, id)
      && GetProductById(r, id) == Some(s[IndexOf(s, id)].(isDeleted := Some(false)))
      && GetProductById(r, id).value in GetAllProducts(r)
      && (s[IndexOf(s, id)].isDeleted == Some(false) ==> r == s)
  {
    var k := IndexOf(s, id);
    var d := DeleteProduct(s, id);
    assert IndexOf(d, id) == k;
    var r := RestoreProduct(d, id);
    assert IndexOf(r, id) == k;
    assert r[k] in GetAllProducts(r);
  }

  /** When ids are unique a soft-deleted record disappears from the listing but not from the array. */
  lemma DeleteHidesRecord(s: seq<Product>, id: string)
    requires forall i, j :: 0 <= i < j < |s| ==> s[i].id != s[j].id
    ensures forall p :: p in GetAllProducts(DeleteProduct(s, id)) ==> p.id != id
    ensures |GetAllProductsIncludeDeleted(DeleteProduct(s, id))| == |s|
  {
    var d := DeleteProduct(s, id);
    forall p | p in GetAllProducts(d) ensures p.id != id {
      var i :| 0 <= i < |d| && d[i] == p;
    }
  }

  /** The seed array lists two products; the third is soft-deleted. */
  lemma InitialListing(loadedAt: int)
    ensures |GetAllProducts(InitialProducts(loadedAt))| == 2
    ensures |FindDeleted(InitialProducts(loadedAt))| == 1
  {
    var s := InitialProducts(loadedAt);
    ActiveDeletedPartition(s);
    assert GetAllProducts(s) == s[..2];
  }
}

=== FILE: outcome.dfy ===
/** Optional values and results shared by every part of the model.
    `Option` stands for a JavaScript value that may be `null`/`undefined`;
    `Result` stands for an operation that either returns or throws. */
module Outcome {

  datatype Option<+T> = None | Some(value: T) {

    /** The value, or `default` when absent (JavaScript `x ?? default`). */
    function GetOr(default: T): T {
      match this
      case Some(v) => v
      case None => default
    }
  }

  datatype Result<+T, +E> = Ok(value: T) | Err(error: E)
}

=== FILE: product_routes.dfy ===
/** The product listing pages (Lab03/routes/products.js): which query selects
    the search, the newest-first order, the fixed page size with the page
    number read by `parseInt`, and the deleted-products view. */
module ProductRoutes {
  import opened Outcome
  import opened Seqs
  import opened Text
  import opened Catalog
  import ProductService

  /** The query string of the listing; an absent parameter is `None`. */
  datatype ListQuery = ListQuery(
    search: Option<string>, category: Option<string>,
    minPrice: Option<string>, maxPrice: Option<string>, page: Option<string>)

  /** A query parameter is truthy when present and non-empty. */
  predicate Truthy(v: Option<string>) {
    v.Some? && v.value != ""
  }

  /** `search || category || minPrice || maxPrice`. */
  predicate HasFilters(q: ListQuery) {
    Truthy(q.search) || Truthy(q.category) || Truthy(q.minPrice) || Truthy(q.maxPrice)
  }

  /** The products per page. */
  const PageSize: nat := 6

  /** The criteria handed to `advancedSearch`; `toNumber` is `Number(...)` on a bound. */
  function CriteriaOf(q: ListQuery, toNumber: string -> int): (c: Criteria)
    ensures c.categoryId != "" <==> Truthy(q.category)
    ensures c.searchTerm != "" <==> Truthy(q.search)
    ensures c.minPrice.Some? <==> Truthy(q.minPrice)
    ensures c.maxPrice.Some? <==> Truthy(q.maxPrice)
    ensures c.minPrice.Some? ==> c.minPrice.value == toNumber(q.minPrice.value)
    ensures c.maxPrice.Some? ==> c.maxPrice.value == toNumber(q.maxPrice.value)
  {
    Criteria(
      if Truthy(q.category) then q.category.value else "",
      if Truthy(q.minPrice) then Some(toNumber(q.minPrice.value)) else None,
      if Truthy(q.maxPrice) then Some(toNumber(q.maxPrice.value)) else None,
      if Truthy(q.search) then q.search.value else "")
  }

  /** Filters are in effect exactly when the criteria ask for something. */
  lemma HasFiltersIffCriteria(q: ListQuery, toNumber: string -> int)
    ensures HasFilters(q) <==> CriteriaOf(q, toNumber) != NoCriteria
  {
  }

  /** `parseInt(page) || 1`, with the parameter defaulting to 1: a page that does not
      parse, or parses to zero, is page one; negative pages are kept. */
  function CurrentPage(q: ListQuery): (r: int)
    ensures r != 0
    ensures q.page.None? ==> r == 1
    ensures q.page.Some? && ParseInt(q.page.value).Some? && ParseInt(q.page.value).value != 0
      ==> r == ParseInt(q.page.value).value
    ensures q.page.Some? && (ParseInt(q.page.value).None? || ParseInt(q.page.value) == Some(0)) ==> r == 1
  {
    match q.page
    case None => 1
    case Some(text) =>
      match ParseInt(text)
      case None => 1
      case Some(n) => if n == 0 then 1 else n
  }

  /** A page link `?page=N` for a nonzero `N` opens page `N`. */
  lemma PageLinkOpensPage(q: ListQuery, n: int)
    requires n != 0
    ensures CurrentPage(q.(page := Some(IntToString(n)))) == n
  {
    ParseIntOfIntToString(n);
  }

  /** `parseInt` reads a `0x` prefix as hexadecimal: `?page=0x1f` opens page 31. */
  lemma HexPageLinkOpensPage(q: ListQuery)
    ensures CurrentPage(q.(page := Some("0x1f"))) == 31
  {
    var link := q.(page := Some("0x1f"));
    ParseIntReadsHex();
    assert ParseInt(link.page.value) == Some(31);
  }

  /** The sort key: the creation time, a missing one counting as the epoch. */
  function CreatedKey(p: Product): int {
    p.createdAt.GetOr(0)
  }

  /** The products the page is drawn from: the search results or the active listing. */
  function Selection(products: seq<Product>, q: ListQuery, toNumber: string -> int): (r: seq<Product>)
    ensures !HasFilters(q) ==> r == FindAllActive(products)
    ensures HasFilters(q) ==> r == AdvancedSearch(products, CriteriaOf(q, toNumber))
  {
    if HasFilters(q) then AdvancedSearch(products, CriteriaOf(q, toNumber)) else FindAllActive(products)
  }

  /** The selection, newest first. */
  function SortedSelection(products: seq<Product>, q: ListQuery, toNumber: string -> int): (r: seq<Product>)
    ensures SortedDesc(r, CreatedKey)
    ensures |r| == |Selection(products, q, toNumber)|
    ensures multiset(r) == multiset(Selection(products, q, toNumber))
    ensures forall p :: p in r ==> p in products && IsActive(p)
    ensures HasFilters(q) ==> forall p :: p in r ==> Matches(CriteriaOf(q, toNumber), p)
  {
    var selected := Selection(products, q, toNumber);
    var r := SortDesc(selected, CreatedKey);
    SelectionMatches(products, q, toNumber);
    assert forall p :: p in r ==> p in multiset(selected);
    r
  }

  datatype ListView = ListView(products: seq<Product>, pagination: ProductService.Pagination)

  /** The listing handler: select, sort newest first, then cut the current page. */
  function ListProducts(products: seq<Product>, q: ListQuery, toNumber: string -> int): (r: ListView)
    ensures |r.products| <= PageSize
    ensures SortedDesc(r.products, CreatedKey)
    ensures forall i :: 0 <= i < |r.products| ==> r.products[i] in products && IsActive(r.products[i])
    ensures HasFilters(q) ==> forall i :: 0 <= i < |r.products| ==> Matches(CriteriaOf(q, toNumber), r.products[i])
    ensures r.pagination.currentPage == CurrentPage(q)
    ensures r.pagination.totalItems == |Selection(products, q, toNumber)|
    ensures r.pagination.totalPages == ProductService.PageCount(|Selection(products, q, toNumber)|, PageSize)
    ensures r.pagination.hasNext <==> CurrentPage(q) < r.pagination.totalPages
    ensures r.pagination.hasPrev <==> CurrentPage(q) > 1
  {
    var sorted := SortedSelection(products, q, toNumber);
    var start := ProductService.PageStart(CurrentPage(q), PageSize);
    var page := ProductService.Paginate(sorted, CurrentPage(q), PageSize);
    assert page.items == JsSlice(sorted, start, start + PageSize);
    SliceOfSorted(sorted, start, start + PageSize);
    ListView(page.items, page.pagination)
  }

  /** The selection holds active table records, and with filters only matching ones. */
  lemma SelectionMatches(products: seq<Product>, q: ListQuery, toNumber: string -> int)
    ensures forall p :: p in Selection(products, q, toNumber) ==> p in products && IsActive(p)
    ensures HasFilters(q) ==> forall p :: p in Selection(products, q, toNumber) ==> Matches(CriteriaOf(q, toNumber), p)
  {
    var selected := Selection(products, q, toNumber);
    forall p | p in selected ensures p in products && IsActive(p) && (HasFilters(q) ==> Matches(CriteriaOf(q, toNumber), p)) {
      var i :| 0 <= i < |selected| && selected[i] == p;
      SearchPlanDenotesCriteria(CriteriaOf(q, toNumber), p);
    }
  }

  /** A slice of a sorted sequence is sorted, and holds only its elements. */
  lemma SliceOfSorted(s: seq<Product>, start: int, end: int)
    requires SortedDesc(s, CreatedKey)
    ensures SortedDesc(JsSlice(s, start, end), CreatedKey)
    ensures forall p :: p in JsSlice(s, start, end) ==> p in s
  {
  }

  /** A page past the first is newer throughout than the page after it: reading page
      `n` then page `n + 1` never goes back in time. */
  lemma ConsecutivePagesOrdered(products: seq<Product>, q: ListQuery, toNumber: string -> int, n: int)
    requires n >= 1
    ensures var a := ListProducts(products, q.(page := Some(IntToString(n))), toNumber).products;
            var b := ListProducts(products, q.(page := Some(IntToString(n + 1))), toNumber).products;
            forall i, j :: 0 <= i < |a| && 0 <= j < |b| ==> CreatedKey(a[i]) >= CreatedKey(b[j])
  {
    var sorted := SortedSelection(products, q, toNumber);
    OpenedPage(products, q, toNumber, n);
    OpenedPage(products, q, toNumber, n + 1);
    SortedPagesOrdered(sorted, n);
  }

  /** Following the link to page `n` shows page `n` of the sorted selection. */
  lemma OpenedPage(products: seq<Product>, q: ListQuery, toNumber: string -> int, n: int)
    requires n >= 1
    ensures ListProducts(products, q.(page := Some(IntToString(n))), toNumber).products
         == ProductService.Paginate(SortedSelection(products, q, toNumber), n, PageSize).items
  {
    var q' := q.(page := Some(IntToString(n)));
    PageLinkOpensPage(q, n);
    SameFiltersSameSelection(products, q, q', toNumber);
    ListIsPage(products, q', toNumber);
  }

  /** The page parameter plays no part in the selection. */
  lemma SameFiltersSameSelection(products: seq<Product>, q: ListQuery, q': ListQuery, toNumber: string -> int)
    requires q' == q.(page := q'.page)
    ensures SortedSelection(products, q', toNumber) == SortedSelection(products, q, toNumber)
  {
  }

  /** The listing shows the current page of the sorted selection. */
  lemma ListIsPage(products: seq<Product>, q: ListQuery, toNumber: string -> int)
    ensures ListProducts(products, q, toNumber).products
         == ProductService.Paginate(SortedSelection(products, q, toNumber), CurrentPage(q), PageSize).items
  {
  }

  /** On a sorted list, everything on page `n` is at least as new as everything on page `n + 1`. */
  lemma SortedPagesOrdered(sorted: seq<Product>, n: int)
    requires n >= 1
    requires SortedDesc(sorted, CreatedKey)
    ensures var a := ProductService.Paginate(sorted, n, PageSize).items;
            var b := ProductService.Paginate(sorted, n + 1, PageSize).items;
            forall i, j :: 0 <= i < |a| && 0 <= j < |b| ==> CreatedKey(a[i]) >= CreatedKey(b[j])
  {
    var a := ProductService.Paginate(sorted, n, PageSize).items;
    var b := ProductService.Paginate(sorted, n + 1, PageSize).items;
    var lo := ProductService.Clamp(ProductService.PageStart(n, PageSize), |sorted|);
    var mid := ProductService.Clamp(ProductService.PageStart(n + 1, PageSize), |sorted|);
    forall i, j | 0 <= i < |a| && 0 <= j < |b| ensures CreatedKey(a[i]) >= CreatedKey(b[j]) {
      assert a[i] == sorted[lo + i];
      assert b[j] == sorted[mid + j];
    }
  }

  /** `p.isDeleted === true`. */
  function FlaggedDeleted(): Product -> bool {
    (p: Product) => p.isDeleted == Some(true)
  }

  /** The deleted view: the whole table filtered to the records flagged deleted. It shows
      what `findDeleted` finds, and leaves out exactly the active records. */
  function DeletedView(products: seq<Product>): (r: seq<Product>)
    ensures r == FindDeleted(products)
    ensures forall i :: 0 <= i < |products| ==> (products[i] in r <==> !IsActive(products[i]))
  {
    FilterExt(products, FlaggedDeleted(), IsMarkedDeleted);
    Filter(products, FlaggedDeleted())
  }
}

=== FILE: product_service.dfy ===
/** The products service (Lab03/services/products.service.js): every mutation
    of the catalog writes the products table and appends exactly one audit
    entry; pagination and the inventory statistics are computed on the
    active listing. Identifiers, the acting user and the clock are passed in. */
module ProductService {
  import opened Outcome
  import opened Seqs
  import opened Text
  import opened Catalog
  import opened AuditLog
  import Table

  datatype Store = Store(products: seq<Product>, logs: seq<LogEntry>)

  /** The submitted product fields, already converted with `Number(...)`;
      an absent category or image is `None`. */
  datatype ProductForm = ProductForm(
    name: string, price: int, quantity: int, categoryId: Option<string>, urlImage: Option<string>)

  /** `value || ""` for an optional text field. */
  function OrEmpty(v: Option<string>): string {
    v.GetOr("")
  }

  /** The stamp each mutation is performed with: the new log id, the actor and the time. */
  datatype Stamp = Stamp(logId: string, userId: string, now: int)

  /** The entry `logAction` appends for a mutation of `productId`. */
  function Entry(st: Stamp, productId: string, action: string, details: Details): LogEntry {
    LogEntry(st.logId, productId, action, st.userId, Serialized(details), st.now)
  }

  /** Appending a mutation's entry is `logAction`'s put when the stamp's log id is fresh. */
  lemma EntryIsLogAction(logs: seq<LogEntry>, st: Stamp, productId: string, action: string, details: Details)
    requires forall i :: 0 <= i < |logs| ==> logs[i].id != st.logId
    ensures logs + [Entry(st, productId, action, details)]
         == LogAction(logs, st.logId, productId, action, st.userId, details, st.now).1
  {
  }

  /** `createProduct`: a new active record under a fresh id, logged as CREATE with its
      name, price and quantity. */
  function CreateProduct(s: Store, f: ProductForm, newId: string, st: Stamp): (r: (Product, Store))
    ensures r.0.id == newId && r.0.name == f.name && r.0.price == f.price && r.0.quantity == f.quantity
    ensures r.0.categoryId == OrEmpty(f.categoryId) && r.0.urlImage == OrEmpty(f.urlImage)
    ensures r.0.isDeleted == Some(false) && r.0.createdAt == Some(st.now) && IsActive(r.0)
    ensures Table.FindById(r.1.products, Key, newId) == Some(r.0)
      || exists i :: 0 <= i < |s.products| && s.products[i].id == newId
    ensures r.1.logs == s.logs + [Entry(st, newId, CREATE, CreateDetails(f.name, f.price, f.quantity))]
    ensures (forall i :: 0 <= i < |s.products| ==> s.products[i].id != newId) ==> r.1.products == s.products + [r.0]
    ensures |r.1.products| == |s.products| || |r.1.products| == |s.products| + 1
    ensures forall i :: 0 <= i < |s.products| && s.products[i].id != newId ==> r.1.products[i] == s.products[i]
  {
    var p := Product(newId, f.name, f.price, f.quantity, OrEmpty(f.categoryId), OrEmpty(f.urlImage),
                     Some(false), Some(st.now), None, None);
    var products := Table.Put(s.products, Key, p);
    if forall i :: 0 <= i < |s.products| ==> s.products[i].id != newId then
      assert products == s.products + [p];
      FindIdLast(s.products, p);
      (p, Store(products, s.logs + [Entry(st, newId, CREATE, CreateDetails(f.name, f.price, f.quantity))]))
    else
      (p, Store(products, s.logs + [Entry(st, newId, CREATE, CreateDetails(f.name, f.price, f.quantity))]))
  }

  /** A record appended under a new key is what a lookup of that key finds. */
  lemma FindIdLast(t: seq<Product>, p: Product)
    requires forall i :: 0 <= i < |t| ==> t[i].id != p.id
    ensures Table.FindById(t + [p], Key, p.id) == Some(p)
  {
    var u := t + [p];
    assert u[|t|] == p;
  }

  /** The image an edit keeps: the submitted one, else the current record's, else none. */
  function KeptImage(submitted: Option<string>, current: Option<Product>): (r: string)
    ensures OrEmpty(submitted) != "" ==> r == OrEmpty(submitted)
    ensures OrEmpty(submitted) == "" && current.Some? ==> r == current.value.urlImage
    ensures OrEmpty(submitted) == "" && current.None? ==> r == ""
  {
    if OrEmpty(submitted) != "" then OrEmpty(submitted)
    else if current.Some? then current.value.urlImage
    else ""
  }

  /** The data `updateProduct` builds from the form: the six edited fields. */
  function EditData(s: Store, id: string, f: ProductForm, st: Stamp): ProductUpdate {
    ProductUpdate(f.name, f.price, f.quantity, OrEmpty(f.categoryId),
                  KeptImage(f.urlImage, Table.FindById(s.products, Key, id)), st.now)
  }

  /** The attributes of an edit as the repository receives them, in the order of the
      object literal. */
  function UpdateData(u: ProductUpdate): seq<(string, Table.AttrValue)> {
    [("name", Table.Str(u.name)), ("price", Table.Num(u.price)), ("quantity", Table.Num(u.quantity)),
     ("categoryId", Table.Str(u.categoryId)), ("url_image", Table.Str(u.urlImage)),
     ("updatedAt", Table.Time(u.updatedAt))]
  }

  /** The change an edit makes to a record is exactly the data its request writes:
      the six fields get their bound values and id, flag, createdAt and deletedAt stay. */
  lemma OverwriteWritesData(u: ProductUpdate, p: Product)
    ensures Table.WritesData(p, Overwrite(u)(p), UpdateData(u), Attr)
  {
    var data := UpdateData(u);
    forall a | Table.Unwritten(data, a) ensures Attr(Overwrite(u)(p), a) == Attr(p, a) {
      assert data[0].0 != a && data[1].0 != a && data[2].0 != a;
      assert data[3].0 != a && data[4].0 != a && data[5].0 != a;
    }
  }

  /** The names map that aliases `name`, as the categories repository passes it. */
  const NameAlias: map<string, string> := map["#name" := "name"]

  /** `updateProduct` as written: the repository is called without a names map, so the
      request assigns the reserved word `name` directly. The store refuses it, the
      call throws, and `logAction` is never reached. */
  function UpdateProductAsWritten(s: Store, id: string, f: ProductForm, st: Stamp): (r: Result<Store, Table.StoreError>)
    ensures r == Err(Table.ReservedKeyword("name"))
  {
    var data := EditData(s, id, f, st);
    Table.BareReservedKeyRefused(s.products, Key, id, Overwrite(data), UpdateData(data), map[], 0);
    match Table.SendUpdate(s.products, Key, id, Overwrite(data), UpdateData(data), map[])
    case Err(e) => Err(e)
    case Ok(products) =>
      Ok(Store(products, s.logs + [Entry(st, id, UPDATE, UpdateDetails(Table.FindById(s.products, Key, id), data))]))
  }

  /** Every edit as written sends `name = :val0` and is refused, whatever the form. */
  lemma UpdateAsWrittenSendsBareName(s: Store, id: string, f: ProductForm, st: Stamp)
    ensures Contains(Table.BuildUpdate(UpdateData(EditData(s, id, f, st)), map[]).expression, "name = :val0")
    ensures UpdateProductAsWritten(s, id, f, st).Err?
  {
    var data := EditData(s, id, f, st);
    Table.BareReservedKeyRefused(s.products, Key, id, Overwrite(data), UpdateData(data), map[], 0);
    FirstClauseIsName(data);
  }

  /** The first clause of an edit assigns `name` at `:val0`. */
  lemma FirstClauseIsName(u: ProductUpdate)
    ensures UpdateData(u)[0].0 + " = " + Table.Placeholder(0) == "name = :val0"
  {
    assert NatToString(0) == "0";
  }

  /** Of the six attributes an edit writes, only the first, `name`, is a reserved word,
      and the alias map covers it. */
  lemma OnlyNameReserved(u: ProductUpdate)
    ensures forall i :: 0 <= i < |UpdateData(u)| && Table.IsReservedWord(UpdateData(u)[i].0) ==>
              Table.Aliased(UpdateData(u)[i].0, NameAlias)
  {
    assert "#" + "name" == "#name";
  }

  /** `updateProduct`, corrected to alias `name`: the store accepts the request, the six
      edited fields are overwritten, and the record as it was before is logged next to
      the data written. */
  function UpdateProduct(s: Store, id: string, f: ProductForm, st: Stamp): (r: (ProductUpdate, Store))
    ensures r.0 == ProductUpdate(f.name, f.price, f.quantity, OrEmpty(f.categoryId),
                                 KeptImage(f.urlImage, Table.FindById(s.products, Key, id)), st.now)
    ensures Table.SendUpdate(s.products, Key, id, Overwrite(r.0), UpdateData(r.0), NameAlias) == Ok(r.1.products)
    ensures r.1.products == ApplyUpdate(s.products, id, r.0)
    ensures forall i :: 0 <= i < |s.products| && s.products[i].id == id ==>
              Table.WritesData(s.products[i], r.1.products[i], UpdateData(r.0), Attr)
    ensures r.1.logs == s.logs + [Entry(st, id, UPDATE, UpdateDetails(Table.FindById(s.products, Key, id), r.0))]
  {
    var before := Table.FindById(s.products, Key, id);
    var data := EditData(s, id, f, st);
    forall i | 0 <= i < |s.products| && s.products[i].id == id
      ensures Table.WritesData(s.products[i], ApplyUpdate(s.products, id, data)[i], UpdateData(data), Attr)
    {
      OverwriteWritesData(data, s.products[i]);
    }
    OnlyNameReserved(data);
    Table.AliasedKeysAccepted(s.products, Key, id, Overwrite(data), UpdateData(data), NameAlias);
    (data, Store(ApplyUpdate(s.products, id, data), s.logs + [Entry(st, id, UPDATE, UpdateDetails(before, data))]))
  }

  /** The `name` the delete entries carry: `product?.name`. */
  function NameOf(p: Option<Product>): Option<string> {
    if p.Some? then Some(p.value.name) else None
  }

  /** `deleteProduct`: a soft delete, logged as DELETE with the name it had. */
  function DeleteProduct(s: Store, id: string, st: Stamp): (r: Store)
    ensures r.products == SoftDelete(s.products, id, st.now)
    ensures forall p :: p in FindAllActive(r.products) ==> p.id != id
    ensures r.logs == s.logs + [Entry(st, id, DELETE, NameDetails(NameOf(Table.FindById(s.products, Key, id))))]
  {
    SoftDeleteHides(s.products, id, st.now);
    Store(SoftDelete(s.products, id, st.now),
          s.logs + [Entry(st, id, DELETE, NameDetails(NameOf(Table.FindById(s.products, Key, id))))])
  }

  /** `hardDeleteProduct`: the record is removed, logged as HARD_DELETE with the name it had. */
  function HardDeleteProduct(s: Store, id: string, st: Stamp): (r: Store)
    ensures Table.FindById(r.products, Key, id) == None
    ensures forall i :: 0 <= i < |r.products| ==> r.products[i] in s.products && r.products[i].id != id
    ensures forall i :: 0 <= i < |s.products| && s.products[i].id != id ==> s.products[i] in r.products
    ensures r.logs == s.logs + [Entry(st, id, HARD_DELETE, NameDetails(NameOf(Table.FindById(s.products, Key, id))))]
  {
    var products := Table.Delete(s.products, Key, id);
    assert forall i :: 0 <= i < |s.products| && s.products[i].id != id ==> s.products[i] in products by {
      forall i | 0 <= i < |s.products| && s.products[i].id != id ensures s.products[i] in products {
        FilterKeeps(s.products, id, i);
      }
    }
    Store(products, s.logs + [Entry(st, id, HARD_DELETE, NameDetails(NameOf(Table.FindById(s.products, Key, id))))])
  }

  /** A record under another key survives the removal of `id`. */
  lemma {:induction false} FilterKeeps(t: seq<Product>, id: string, i: int)
    requires 0 <= i < |t| && t[i].id != id
    ensures t[i] in Table.Delete(t, Key, id)
  {
    var r := Table.Delete(t, Key, id);
    if i == |t| - 1 {
      assert t == t[..i] + [t[i]];
      FilterConcat(t[..i], [t[i]], (p: Product) => Key(p) != id);
    } else {
      assert t == t[..|t| - 1] + [t[|t| - 1]];
      FilterKeeps(t[..|t| - 1], id, i);
      FilterConcat(t[..|t| - 1], [t[|t| - 1]], (p: Product) => Key(p) != id);
    }
  }

  /** `restoreProduct`: the flag is cleared, logged as RESTORE with no details. */
  function RestoreProduct(s: Store, id: string, st: Stamp): (r: Store)
    ensures r.products == Restore(s.products, id)
    ensures forall i :: 0 <= i < |s.products| && s.products[i].id == id ==> IsActive(r.products[i])
    ensures r.logs == s.logs + [Entry(st, id, RESTORE, NoDetails)]
  {
    Store(Restore(s.products, id), s.logs + [Entry(st, id, RESTORE, NoDetails)])
  }

  // ---------------------------------------------------------------------------
  // The audit trail

  datatype Op =
    | CreateOp(form: ProductForm, newId: string)
    | UpdateOp(id: string, form: ProductForm)
    | DeleteOp(id: string)
    | HardDeleteOp(id: string)
    | RestoreOp(id: string)
  {
    /** The product the operation is about. */
    function Target(): string {
      match this
      case CreateOp(_, newId) => newId
      case UpdateOp(id, _) => id
      case DeleteOp(id) => id
      case HardDeleteOp(id) => id
      case RestoreOp(id) => id
    }

    /** The tag its log entry carries. */
    function Tag(): string {
      match this
      case CreateOp(_, _) => CREATE
      case UpdateOp(_, _) => UPDATE
      case DeleteOp(_) => DELETE
      case HardDeleteOp(_) => HARD_DELETE
      case RestoreOp(_) => RESTORE
    }
  }

  /** One service call. */
  function Apply(s: Store, op: Op, st: Stamp): (r: Store)
    ensures |r.logs| == |s.logs| + 1 && r.logs[..|s.logs|] == s.logs
    ensures var e := r.logs[|s.logs|];
      e.id == st.logId && e.productId == op.Target() && e.action == op.Tag()
      && e.userId == st.userId && e.time == st.now
  {
    match op
    case CreateOp(f, newId) => CreateProduct(s, f, newId, st).1
    case UpdateOp(id, f) => UpdateProduct(s, id, f, st).1
    case DeleteOp(id) => DeleteProduct(s, id, st)
    case HardDeleteOp(id) => HardDeleteProduct(s, id, st)
    case RestoreOp(id) => RestoreProduct(s, id, st)
  }

  /** A sequence of service calls, first to last. */
  function Run(s: Store, ops: seq<(Op, Stamp)>): Store
    decreases |ops|
  {
    if |ops| == 0 then s else Run(Apply(s, ops[0].0, ops[0].1), ops[1..])
  }

  /** The audit trail is append-only and complete: after any sequence of calls the old
      entries are intact and there is exactly one new entry per call, in call order,
      naming the product, the tag, the actor and the time of that call. */
  lemma {:induction false} RunLogsEveryCall(s: Store, ops: seq<(Op, Stamp)>)
    ensures |Run(s, ops).logs| == |s.logs| + |ops|
    ensures Run(s, ops).logs[..|s.logs|] == s.logs
    ensures forall k :: 0 <= k < |ops| ==>
      var e := Run(s, ops).logs[|s.logs| + k];
      e.id == ops[k].1.logId && e.productId == ops[k].0.Target() && e.action == ops[k].0.Tag()
      && e.userId == ops[k].1.userId && e.time == ops[k].1.now
    decreases |ops|
  {
    if |ops| > 0 {
      var s1 := Apply(s, ops[0].0, ops[0].1);
      RunLogsEveryCall(s1, ops[1..]);
      var logs := Run(s, ops).logs;
      assert logs == Run(s1, ops[1..]).logs;
      assert logs[..|s1.logs|] == s1.logs;
      assert logs[..|s.logs|] == s1.logs[..|s.logs|];
      forall k | 0 <= k < |ops|
        ensures var e := logs[|s.logs| + k];
          e.id == ops[k].1.logId && e.productId == ops[k].0.Target() && e.action == ops[k].0.Tag()
          && e.userId == ops[k].1.userId && e.time == ops[k].1.now
      {
        if k == 0 {
          assert logs[|s.logs|] == s1.logs[|s.logs|];
        } else {
          assert ops[1..][k - 1] == ops[k];
          assert |s.logs| + k == |s1.logs| + (k - 1);
        }
      }
    }
  }

  // ---------------------------------------------------------------------------
  // Pagination

  datatype Pagination = Pagination(currentPage: int, totalPages: nat, totalItems: nat, hasNext: bool, hasPrev: bool)

  datatype Page<T> = Page(items: seq<T>, pagination: Pagination)

  /** `Math.ceil(n / limit)`. */
  function PageCount(n: nat, limit: nat): (r: nat)
    requires limit >= 1
    ensures r * limit >= n
    ensures r > 0 ==> (r - 1) * limit < n
  {
    (n + limit - 1) / limit
  }

  /** The client-side pagination of `getProductsPaginated` (and of the listing page):
      the `limit` items starting at `(page - 1) * limit`, read with `slice`. */
  function Paginate<T>(items: seq<T>, page: int, limit: nat): (r: Page<T>)
    requires limit >= 1
    ensures |r.items| <= limit
    ensures r.pagination.totalItems == |items|
    ensures r.pagination.totalPages == PageCount(|items|, limit)
    ensures r.pagination.hasNext <==> page < PageCount(|items|, limit)
    ensures r.pagination.hasPrev <==> page > 1
    ensures r.pagination.currentPage == page
    ensures 1 <= page ==> r.items == items[Clamp(PageStart(page, limit), |items|)..Clamp(PageStart(page, limit) + limit, |items|)]
  {
    var start := PageStart(page, limit);
    var pages := PageCount(|items|, limit);
    var slice := JsSlice(items, start, start + limit);
    Page(slice, Pagination(page, pages, |items|, page < pages, page > 1))
  }

  /** `(page - 1) * limit`, the index a page starts at, counted in steps of `limit`
      from page one (see `PageStartIsProduct`). */
  function PageStart(page: int, limit: nat): (r: int)
    ensures page >= 1 ==> r >= 0
    decreases if page < 1 then 1 - page else page - 1
  {
    if page == 1 then 0
    else if page > 1 then PageStart(page - 1, limit) + limit
    else PageStart(page + 1, limit) - limit
  }

  /** The stepwise start is the product the source computes. */
  lemma {:induction false} PageStartIsProduct(page: int, limit: nat)
    ensures PageStart(page, limit) == (page - 1) * limit
    decreases if page < 1 then 1 - page else page - 1
  {
    if page > 1 {
      PageStartIsProduct(page - 1, limit);
    } else if page < 1 {
      PageStartIsProduct(page + 1, limit);
    }
  }

  function Clamp(i: nat, n: nat): nat {
    if i < n then i else n
  }

  /** Pages `1..k`, concatenated. */
  function PagesUpTo<T>(items: seq<T>, limit: nat, k: nat): seq<T>
    requires limit >= 1
  {
    if k == 0 then [] else PagesUpTo(items, limit, k - 1) + Paginate(items, k, limit).items
  }

  /** Reading pages one to `k` in turn yields the first `k * limit` items. */
  lemma {:induction false} PagesUpToPrefix<T>(items: seq<T>, limit: nat, k: nat)
    requires limit >= 1
    ensures PagesUpTo(items, limit, k) == items[..Clamp(PageStart(k + 1, limit), |items|)]
  {
    if k > 0 {
      PagesUpToPrefix(items, limit, k - 1);
      PageExtendsPrefix(items, limit, k);
    }
  }

  /** Page `k` continues the prefix that pages one to `k - 1` cover. */
  lemma PageExtendsPrefix<T>(items: seq<T>, limit: nat, k: nat)
    requires limit >= 1 && k >= 1
    ensures items[..Clamp(PageStart(k, limit), |items|)] + Paginate(items, k, limit).items
         == items[..Clamp(PageStart(k + 1, limit), |items|)]
  {
    assert PageStart(k + 1, limit) == PageStart(k, limit) + limit;
    var a, b := Clamp(PageStart(k, limit), |items|), Clamp(PageStart(k + 1, limit), |items|);
    assert Paginate(items, k, limit).items == items[a..b];
    assert items[..a] + items[a..b] == items[..b];
  }

  /** Later pages start later. */
  lemma {:induction false} PageStartMonotone(a: int, b: int, limit: nat)
    requires 1 <= a <= b
    ensures PageStart(a, limit) <= PageStart(b, limit)
    decreases b - a
  {
    if a < b {
      PageStartMonotone(a + 1, b, limit);
    }
  }

  /** The pages partition the listing: pages `1..totalPages` in turn show every item
      exactly once and in order, and every later page is empty. */
  lemma PagesCoverListing<T>(items: seq<T>, limit: nat)
    requires limit >= 1
    ensures PagesUpTo(items, limit, PageCount(|items|, limit)) == items
    ensures forall p :: p > PageCount(|items|, limit) ==> Paginate(items, p, limit).items == []
  {
    var n := PageCount(|items|, limit);
    PagesUpToPrefix(items, limit, n);
    PageStartIsProduct(n + 1, limit);
    assert items[..|items|] == items;
    forall p | p > n ensures Paginate(items, p, limit).items == [] {
      PageStartMonotone(n + 1, p, limit);
    }
  }

  /** The listing `getProductsPaginated` pages through: the search results when filters
      are given, otherwise every active product. */
  function Listing(products: seq<Product>, filters: Option<Criteria>): (r: seq<Product>)
    ensures forall i :: 0 <= i < |r| ==> IsActive(r[i])
    ensures filters.Some? ==> forall i :: 0 <= i < |r| ==> Matches(filters.value, r[i])
    ensures filters.None? ==> r == FindAllActive(products)
    ensures filters.Some? ==> r == AdvancedSearch(products, filters.value)
  {
    if filters.Some? then AdvancedSearch(products, filters.value) else FindAllActive(products)
  }

  /** `getProductsPaginated`: the active listing, or the search results when filters
      are given, paginated. */
  function GetProductsPaginated(products: seq<Product>, page: int, limit: nat, filters: Option<Criteria>)
    : (r: Page<Product>)
    requires limit >= 1
    ensures forall i :: 0 <= i < |r.items| ==> IsActive(r.items[i])
    ensures filters.Some? ==> forall i :: 0 <= i < |r.items| ==> Matches(filters.value, r.items[i])
    ensures r.pagination.totalItems == |Listing(products, filters)|
    ensures r.pagination.totalPages == PageCount(|Listing(products, filters)|, limit)
    ensures r.pagination.currentPage == page
    ensures r.pagination.hasNext <==> page < PageCount(|Listing(products, filters)|, limit)
    ensures r.pagination.hasPrev <==> page > 1
    ensures var listing := Listing(products, filters); 1 <= page ==>
      r.items == listing[Clamp(PageStart(page, limit), |listing|)..Clamp(PageStart(page, limit) + limit, |listing|)]
  {
    var listing := Listing(products, filters);
    PaginateElements(listing, page, limit);
    Paginate(listing, page, limit)
  }

  /** Every item on a page is an item of the listing. */
  lemma PaginateElements<T>(items: seq<T>, page: int, limit: nat)
    requires limit >= 1
    ensures forall i :: 0 <= i < |Paginate(items, page, limit).items| ==> Paginate(items, page, limit).items[i] in items
  {
    var start := PageStart(page, limit);
    assert Paginate(items, page, limit).items == JsSlice(items, start, start + limit);
    JsSliceElements(items, start, start + limit);
  }

  /** Every element of a slice is an element of the sequence. */
  lemma JsSliceElements<T>(s: seq<T>, start: int, end: int)
    ensures forall i :: 0 <= i < |JsSlice(s, start, end)| ==> JsSlice(s, start, end)[i] in s
  {
  }

  // ---------------------------------------------------------------------------
  // Inventory

  /** `getInventoryStatus`: the stock badge, with the count shown when stock is low. */
  function InventoryStatus(quantity: int): (r: Badge)
    ensures r.cssClass == TierOf(quantity).CssClass()
    ensures TierOf(quantity) == OutOfStock ==> r == Badge("Hết hàng", "danger", "❌")
    ensures TierOf(quantity) == LowStock ==> r == Badge("Sắp hết (" + IntToString(quantity) + ")", "warning", "⚠️")
    ensures TierOf(quantity) == InStock ==> r == Badge("Còn hàng", "success", "✅")
  {
    match TierOf(quantity)
    case OutOfStock => Badge("Hết hàng", "danger", "❌")
    case LowStock => Badge("Sắp hết (" + IntToString(quantity) + ")", "warning", "⚠️")
    case InStock => Badge("Còn hàng", "success", "✅")
  }

  datatype InventoryStats = InventoryStats(total: nat, inStock: nat, lowStock: nat, outOfStock: nat, totalValue: int)

  function InTier(tier: StockTier): Product -> bool {
    (p: Product) => TierOf(p.quantity) == tier
  }

  function StockValue(p: Product): int {
    p.price * p.quantity
  }

  /** The statistics with one more product counted: its tier goes up by one and its
      stock value is added. */
  function Bump(stats: InventoryStats, p: Product): (r: InventoryStats)
    ensures r.total == stats.total + 1
    ensures r.totalValue == stats.totalValue + StockValue(p)
    ensures r.inStock == stats.inStock + (if TierOf(p.quantity) == InStock then 1 else 0)
    ensures r.lowStock == stats.lowStock + (if TierOf(p.quantity) == LowStock then 1 else 0)
    ensures r.outOfStock == stats.outOfStock + (if TierOf(p.quantity) == OutOfStock then 1 else 0)
  {
    var stats := stats.(total := stats.total + 1, totalValue := stats.totalValue + StockValue(p));
    if p.quantity == 0 then stats.(outOfStock := stats.outOfStock + 1)
    else if p.quantity < 5 then stats.(lowStock := stats.lowStock + 1)
    else stats.(inStock := stats.inStock + 1)
  }

  /** The statistics of a listing, counted front to back. */
  function Tally(s: seq<Product>): InventoryStats {
    if |s| == 0 then InventoryStats(0, 0, 0, 0, 0) else Bump(Tally(s[..|s| - 1]), s[|s| - 1])
  }

  /** Counting front to back yields the size, the per-tier counts and the total stock value. */
  lemma {:induction false} TallyCounts(s: seq<Product>)
    ensures Tally(s).total == |s|
    ensures Tally(s).inStock == Count(s, InTier(InStock))
    ensures Tally(s).lowStock == Count(s, InTier(LowStock))
    ensures Tally(s).outOfStock == Count(s, InTier(OutOfStock))
    ensures Tally(s).totalValue == SumOf(s, StockValue)
  {
    if |s| > 0 {
      var init, p := s[..|s| - 1], s[|s| - 1];
      assert s == init + [p];
      TallyCounts(init);
      FilterSnoc(init, p, InTier(InStock));
      FilterSnoc(init, p, InTier(LowStock));
      FilterSnoc(init, p, InTier(OutOfStock));
      SumOfSnoc(init, p, StockValue);
    }
  }

  /** `getInventoryStats`: one pass over the active listing counting each tier and
      summing price times quantity. */
  method GetInventoryStats(products: seq<Product>) returns (stats: InventoryStats)
    ensures stats.total == |FindAllActive(products)|
    ensures stats.inStock == Count(FindAllActive(products), InTier(InStock))
    ensures stats.lowStock == Count(FindAllActive(products), InTier(LowStock))
    ensures stats.outOfStock == Count(FindAllActive(products), InTier(OutOfStock))
    ensures stats.totalValue == SumOf(FindAllActive(products), StockValue)
  {
    var active := FindAllActive(products);
    stats := InventoryStats(0, 0, 0, 0, 0);
    var i := 0;
    while i < |active|
      invariant 0 <= i <= |active|
      invariant stats == Tally(active[..i])
    {
      assert active[..i + 1][..i] == active[..i];
      stats := Bump(stats, active[i]);
      i := i + 1;
    }
    assert active[..|active|] == active;
    TallyCounts(active);
  }

  /** Every product falls in exactly one tier, so the three counts add up to the total. */
  lemma {:induction false} TiersSumToTotal(s: seq<Product>)
    ensures Count(s, InTier(InStock)) + Count(s, InTier(LowStock)) + Count(s, InTier(OutOfStock)) == |s|
  {
    if |s| > 0 {
      TiersSumToTotal(s[1..]);
    }
  }
}

=== FILE: registration.dfy ===
/** Registration and login of the SQL-backed variant
    (lab1/controllers/auth.controller.js with lab1/models/user.model.js for
    the lookups): an ordered chain of form checks, then username and email
    uniqueness, then one insert with the hashed password; login by username
    or email. Hashing and the hash comparison are parameters. */
module Registration {
  import opened Outcome
  import opened Seqs
  import opened Text

  /** A row of the `users` table. */
  datatype Account = Account(id: int, username: string, email: string, password: string)

  /** The submitted registration form; a missing field is "". */
  datatype RegisterForm = RegisterForm(username: string, email: string, password: string, confirmPassword: string)

  /** The messages the form can be re-rendered with, in the order they are checked. */
  datatype RegisterError =
    | MissingFields
    | UsernameTooShort
    | UsernameCharset
    | InvalidEmail
    | PasswordTooShort
    | PasswordMismatch
    | UsernameTaken
    | EmailTaken

  // ---------------------------------------------------------------------------
  // Format checks

  /** `[a-zA-Z0-9_]`. */
  predicate IsWordChar(c: char) {
    ('a' <= c <= 'z') || ('A' <= c <= 'Z') || ('0' <= c <= '9') || c == '_'
  }

  /** `/^[a-zA-Z0-9_]+$/`. */
  predicate UsernameCharsetOk(u: string) {
    |u| > 0 && forall k :: 0 <= k < |u| ==> IsWordChar(u[k])
  }

  /** `[^\s@]`. */
  predicate IsPlain(c: char) {
    c != '@' && !IsJsSpace(c)
  }

  /** What `/^[^\s@]+@[^\s@]+\.[^\s@]+$/` accepts: an `@` with something before it,
      a dot at least one character after it with something after the dot, and no
      white space or other `@` anywhere. */
  predicate EmailShape(s: string) {
    exists a, d | 0 < a && a + 1 < d && d + 1 < |s| ::
      s[a] == '@' && s[d] == '.' && forall k :: 0 <= k < |s| && k != a ==> IsPlain(s[k])
  }

  function IsAt(): char -> bool {
    (c: char) => c == '@'
  }

  function NotPlain(): char -> bool {
    (c: char) => !IsPlain(c)
  }

  function IsDot(): char -> bool {
    (c: char) => c == '.'
  }

  /** A scan for the email pattern: split at the first `@`, the part before it must be
      plain and non-empty, the part after it plain with a dot neither first nor last. */
  function CheckEmail(s: string): (ok: bool) {
    var a := FindIndex(s, IsAt());
    a >= 1 && PartsOk(s, a)
  }

  /** The conditions on the two sides of the `@` at position `a`. */
  predicate PartsOk(s: string, a: nat)
    requires a < |s|
  {
    var rest := s[a + 1..];
    && FindIndex(s[..a], NotPlain()) == -1
    && FindIndex(rest, NotPlain()) == -1
    && |rest| >= 3
    && FindIndex(rest[1..|rest| - 1], IsDot()) != -1
  }

  /** The scan for a non-plain character finds none exactly when every character is plain. */
  lemma PlainScan(t: string)
    ensures FindIndex(t, NotPlain()) == -1 <==> forall k :: 0 <= k < |t| ==> IsPlain(t[k])
  {
    if FindIndex(t, NotPlain()) == -1 {
      forall k | 0 <= k < |t| ensures IsPlain(t[k]) {
        assert !NotPlain()(t[k]);
      }
    }
  }

  /** An `@` preceded only by plain characters is the first one. */
  lemma FirstAt(s: string, a: int)
    requires 0 <= a < |s| && s[a] == '@'
    requires forall k :: 0 <= k < a ==> IsPlain(s[k])
    ensures FindIndex(s, IsAt()) == a
  {
    var f := FindIndex(s, IsAt());
    assert f != -1 by {
      assert IsAt()(s[a]);
    }
  }

  /** The scan accepts exactly the strings of the email pattern. */
  lemma CheckEmailIffShape(s: string)
    ensures CheckEmail(s) <==> EmailShape(s)
  {
    if CheckEmail(s) {
      CheckEmailSound(s);
    }
    if EmailShape(s) {
      CheckEmailComplete(s);
    }
  }

  /** Whatever the scan accepts has the shape of the pattern. */
  lemma CheckEmailSound(s: string)
    requires CheckEmail(s)
    ensures EmailShape(s)
  {
    var a := FindIndex(s, IsAt());
    assert s[a] == '@' by {
      assert IsAt()(s[a]);
    }
    var d := DotAfter(s, a);
    PlainSides(s, a);
    assert 0 < a && a + 1 < d && d + 1 < |s| && s[a] == '@' && s[d] == '.';
  }

  /** The dot the scan found, as a position in the whole string. */
  lemma DotAfter(s: string, a: nat) returns (d: nat)
    requires a < |s| && PartsOk(s, a)
    ensures a + 1 < d && d + 1 < |s| && s[d] == '.'
  {
    var rest := s[a + 1..];
    var m := rest[1..|rest| - 1];
    var j := FindIndex(m, IsDot());
    assert IsDot()(m[j]);
    d := a + 2 + j;
    assert s[d] == m[j];
  }

  /** Both sides of the `@` the scan accepted are plain. */
  lemma PlainSides(s: string, a: nat)
    requires a < |s| && PartsOk(s, a)
    ensures forall k :: 0 <= k < |s| && k != a ==> IsPlain(s[k])
  {
    var rest := s[a + 1..];
    PlainScan(s[..a]);
    PlainScan(rest);
    forall k | 0 <= k < |s| && k != a ensures IsPlain(s[k]) {
      if k < a {
        assert s[..a][k] == s[k];
      } else {
        assert rest[k - a - 1] == s[k];
      }
    }
  }

  /** Every string of the pattern's shape passes the scan. */
  lemma CheckEmailComplete(s: string)
    requires EmailShape(s)
    ensures CheckEmail(s)
  {
    var a, d :| 0 < a && a + 1 < d && d + 1 < |s| &&
      s[a] == '@' && s[d] == '.' && forall k :: 0 <= k < |s| && k != a ==> IsPlain(s[k]);
    FirstAt(s, a);
    ShapePartsOk(s, a, d);
  }

  /** An `@` at `a` with plain characters around it and a dot at `d` passes the side conditions. */
  lemma ShapePartsOk(s: string, a: nat, d: nat)
    requires a + 1 < d && d + 1 < |s| && s[d] == '.'
    requires forall k :: 0 <= k < |s| && k != a ==> IsPlain(s[k])
    ensures PartsOk(s, a)
  {
    var rest := s[a + 1..];
    var m := rest[1..|rest| - 1];
    assert IsDot()(m[d - a - 2]);
    assert forall k :: 0 <= k < a ==> IsPlain(s[..a][k]);
    assert forall k :: 0 <= k < |rest| ==> IsPlain(rest[k]) by {
      forall k | 0 <= k < |rest| ensures IsPlain(rest[k]) {
        assert rest[k] == s[a + 1 + k];
      }
    }
    PlainScan(s[..a]);
    PlainScan(rest);
  }

  /** Whether the form fails check `e`; the last two consult the accounts. */
  predicate Fails(accounts: seq<Account>, f: RegisterForm, e: RegisterError) {
    match e
    case MissingFields => f.username == "" || f.email == "" || f.password == "" || f.confirmPassword == ""
    case UsernameTooShort => |f.username| < 3
    case UsernameCharset => !UsernameCharsetOk(f.username)
    case InvalidEmail => !EmailShape(f.email)
    case PasswordTooShort => |f.password| < 6
    case PasswordMismatch => f.password != f.confirmPassword
    case UsernameTaken => FindByUsername(accounts, f.username).Some?
    case EmailTaken => FindByEmail(accounts, f.email).Some?
  }

  /** The position of a check in the chain. */
  function Rank(e: RegisterError): nat {
    match e
    case MissingFields => 0
    case UsernameTooShort => 1
    case UsernameCharset => 2
    case InvalidEmail => 3
    case PasswordTooShort => 4
    case PasswordMismatch => 5
    case UsernameTaken => 6
    case EmailTaken => 7
  }

  // ---------------------------------------------------------------------------
  // Lookups (`SELECT * ... WHERE col = ?`, first row)

  function FindByUsername(accounts: seq<Account>, username: string): (r: Option<Account>)
    ensures r.None? <==> forall i :: 0 <= i < |accounts| ==> accounts[i].username != username
    ensures r.Some? ==> r.value in accounts && r.value.username == username
  {
    Find(accounts, (a: Account) => a.username == username)
  }

  function FindByEmail(accounts: seq<Account>, email: string): (r: Option<Account>)
    ensures r.None? <==> forall i :: 0 <= i < |accounts| ==> accounts[i].email != email
    ensures r.Some? ==> r.value in accounts && r.value.email == email
  {
    Find(accounts, (a: Account) => a.email == email)
  }

  // ---------------------------------------------------------------------------
  // register

  /** `register`: the first failing check is reported; when all pass, one row is inserted
      under the next id, with the hash of the password in place of the password. */
  function Register(accounts: seq<Account>, f: RegisterForm, hash: string -> string, newId: int)
    : (r: Result<seq<Account>, RegisterError>)
    ensures r.Err? ==> Fails(accounts, f, r.error)
    ensures r.Err? ==> forall e :: Rank(e) < Rank(r.error) ==> !Fails(accounts, f, e)
    ensures r.Ok? ==> forall e :: !Fails(accounts, f, e)
    ensures r.Ok? ==> r.value == accounts + [Account(newId, f.username, f.email, hash(f.password))]
  {
    CheckEmailIffShape(f.email);
    if f.username == "" || f.email == "" || f.password == "" || f.confirmPassword == "" then Err(MissingFields)
    else if |f.username| < 3 then Err(UsernameTooShort)
    else if FindIndex(f.username, (c: char) => !IsWordChar(c)) != -1 then Err(UsernameCharset)
    else if !CheckEmail(f.email) then Err(InvalidEmail)
    else if |f.password| < 6 then Err(PasswordTooShort)
    else if f.password != f.confirmPassword then Err(PasswordMismatch)
    else if FindByUsername(accounts, f.username).Some? then Err(UsernameTaken)
    else if FindByEmail(accounts, f.email).Some? then Err(EmailTaken)
    else Ok(accounts + [Account(newId, f.username, f.email, hash(f.password))])
  }

  /** A row is inserted exactly when the form passes every check. */
  lemma RegisterOkIffAllChecksPass(accounts: seq<Account>, f: RegisterForm, hash: string -> string, newId: int)
    ensures Register(accounts, f, hash, newId).Ok? <==> forall e :: !Fails(accounts, f, e)
  {
    var r := Register(accounts, f, hash, newId);
    if r.Err? {
      assert Fails(accounts, f, r.error);
    }
  }

  /** When both the username and the email are taken, the username is reported. */
  lemma UsernameCheckedBeforeEmail(accounts: seq<Account>, f: RegisterForm, hash: string -> string, newId: int)
    requires Register(accounts, f, hash, newId).Err?
    requires FindByUsername(accounts, f.username).Some? && FindByEmail(accounts, f.email).Some?
    ensures Register(accounts, f, hash, newId).error != EmailTaken
  {
    assert Fails(accounts, f, UsernameTaken);
  }

  /** Accounts as registration leaves them: well-formed usernames containing no `@`. */
  predicate WellFormed(accounts: seq<Account>) {
    forall i :: 0 <= i < |accounts| ==> UsernameCharsetOk(accounts[i].username) && EmailShape(accounts[i].email)
  }

  /** Registration keeps the accounts well-formed and usernames and emails unique. */
  lemma RegisterKeepsAccountsWellFormed(accounts: seq<Account>, f: RegisterForm, hash: string -> string, newId: int)
    requires WellFormed(accounts)
    requires Register(accounts, f, hash, newId).Ok?
    ensures WellFormed(Register(accounts, f, hash, newId).value)
    ensures forall i :: 0 <= i < |accounts| ==> accounts[i].username != f.username && accounts[i].email != f.email
  {
    assert !Fails(accounts, f, UsernameCharset) && !Fails(accounts, f, InvalidEmail);
    assert !Fails(accounts, f, UsernameTaken) && !Fails(accounts, f, EmailTaken);
  }

  // ---------------------------------------------------------------------------
  // login

  /** What the session keeps: no password. */
  datatype LoginSession = LoginSession(id: int, username: string, email: string)

  datatype LoginError = LoginMissingFields | BadCredentials

  /** The account a login name refers to: by username first, then by email. */
  function LookupLogin(accounts: seq<Account>, name: string): (r: Option<Account>)
    ensures FindByUsername(accounts, name).Some? ==> r == FindByUsername(accounts, name)
    ensures FindByUsername(accounts, name).None? ==> r == FindByEmail(accounts, name)
  {
    var byName := FindByUsername(accounts, name);
    if byName.Some? then byName else FindByEmail(accounts, name)
  }

  /** `login`: an unknown name and a wrong password are the same failure; on success
      the session holds the account's id, username and email. */
  function Login(accounts: seq<Account>, name: string, password: string, verify: (string, string) -> bool)
    : (r: Result<LoginSession, LoginError>)
    ensures name == "" || password == "" ==> r == Err(LoginMissingFields)
    ensures name != "" && password != "" && LookupLogin(accounts, name).None? ==> r == Err(BadCredentials)
    ensures (name != "" && password != "" && LookupLogin(accounts, name).Some?
             && !verify(password, LookupLogin(accounts, name).value.password)) ==> r == Err(BadCredentials)
    ensures r.Ok? ==> (exists i :: 0 <= i < |accounts| && verify(password, accounts[i].password)
                        && (accounts[i].username == name || accounts[i].email == name)
                        && r.value == LoginSession(accounts[i].id, accounts[i].username, accounts[i].email))
    ensures name != "" && password != "" && LookupLogin(accounts, name).Some? ==>
      var a := LookupLogin(accounts, name).value;
      && (r.Ok? <==> verify(password, a.password))
      && (r.Ok? ==> r.value == LoginSession(a.id, a.username, a.email))
  {
    if name == "" || password == "" then Err(LoginMissingFields)
    else
      match LookupLogin(accounts, name)
      case None => Err(BadCredentials)
      case Some(a) =>
        if !verify(password, a.password) then Err(BadCredentials)
        else Ok(LoginSession(a.id, a.username, a.email))
  }

  /** A freshly registered user can log in with the username and with the email, given
      a comparison that accepts a password against its own hash. */
  lemma RegisteredUserCanLogIn(accounts: seq<Account>, f: RegisterForm, hash: string -> string,
                               verify: (string, string) -> bool, newId: int)
    requires WellFormed(accounts)
    requires forall p :: verify(p, hash(p))
    requires Register(accounts, f, hash, newId).Ok?
    ensures Login(Register(accounts, f, hash, newId).value, f.username, f.password, verify)
         == Ok(LoginSession(newId, f.username, f.email))
    ensures Login(Register(accounts, f, hash, newId).value, f.email, f.password, verify)
         == Ok(LoginSession(newId, f.username, f.email))
  {
    var after := Register(accounts, f, hash, newId).value;
    RegisterKeepsAccountsWellFormed(accounts, f, hash, newId);
    assert after[|accounts|] == Account(newId, f.username, f.email, hash(f.password));
    assert !Fails(accounts, f, MissingFields);
    assert LookupLogin(after, f.username) == Some(after[|accounts|]) by {
      assert FindIndex(after, (a: Account) => a.username == f.username) == |accounts|;
    }
    assert LookupLogin(after, f.email) == Some(after[|accounts|]) by {
      assert f.email[..] == f.email;
      EmailNotUsername(after, f.email);
      assert FindIndex(after, (a: Account) => a.email == f.email) == |accounts|;
    }
  }

  /** An email is never a well-formed username (it contains `@`), so a login with an
      email always falls through to the email lookup. */
  lemma EmailNotUsername(accounts: seq<Account>, email: string)
    requires WellFormed(accounts)
    requires EmailShape(email)
    ensures FindByUsername(accounts, email).None?
  {
    var a, d :| 0 < a && a + 1 < d && d + 1 < |email| &&
      email[a] == '@' && email[d] == '.' && forall k :: 0 <= k < |email| && k != a ==> IsPlain(email[k]);
    assert !IsWordChar(email[a]);
  }
}

=== FILE: seqs.dfy ===
/** The JavaScript array methods the application leans on — `filter`,
    `findIndex`/`find`, `reduce` into a sum, a stable `sort` with a numeric
    comparator, and `slice` — stated over Dafny sequences. */
module Seqs {
  import opened Outcome

  /** `s.filter(p)`: the elements satisfying `p`, in their original order. */
  function Filter<T>(s: seq<T>, p: T -> bool): (r: seq<T>)
    ensures |r| <= |s|
    ensures forall i :: 0 <= i < |r| ==> r[i] in s && p(r[i])
  {
    if |s| == 0 then []
    else if p(s[0]) then [s[0]] + Filter(s[1..], p)
    else Filter(s[1..], p)
  }

  /** Nothing satisfying `p` is dropped. */
  lemma {:induction false} FilterKeepsMatches<T>(s: seq<T>, p: T -> bool)
    ensures forall i :: 0 <= i < |s| && p(s[i]) ==> s[i] in Filter(s, p)
  {
    if |s| > 0 {
      FilterKeepsMatches(s[1..], p);
      forall i | 0 <= i < |s| && p(s[i]) ensures s[i] in Filter(s, p) {
        if i > 0 {
          assert s[i] == s[1..][i - 1];
        }
      }
    }
  }

  /** Filtering distributes over concatenation: the relative order of kept elements is unchanged. */
  lemma {:induction false} FilterConcat<T>(a: seq<T>, b: seq<T>, p: T -> bool)
    ensures Filter(a + b, p) == Filter(a, p) + Filter(b, p)
  {
    if |a| > 0 {
      assert (a + b)[1..] == a[1..] + b;
      FilterConcat(a[1..], b, p);
    } else {
      assert a + b == b;
    }
  }

  /** An element satisfying `p` everywhere is kept everywhere. */
  lemma {:induction false} FilterAll<T>(s: seq<T>, p: T -> bool)
    requires forall i :: 0 <= i < |s| ==> p(s[i])
    ensures Filter(s, p) == s
  {
    if |s| > 0 {
      FilterAll(s[1..], p);
    }
  }

  /** Filtering twice is filtering by the conjunction. */
  lemma {:induction false} FilterFilter<T>(s: seq<T>, p: T -> bool, q: T -> bool, both: T -> bool)
    requires forall i :: 0 <= i < |s| ==> both(s[i]) == (p(s[i]) && q(s[i]))
    ensures Filter(Filter(s, p), q) == Filter(s, both)
  {
    if |s| > 0 {
      FilterFilter(s[1..], p, q, both);
      if p(s[0]) {
        assert Filter(s, p) == [s[0]] + Filter(s[1..], p);
        assert ([s[0]] + Filter(s[1..], p))[1..] == Filter(s[1..], p);
      }
    }
  }

  /** Two predicates that agree on every element select the same elements. */
  lemma {:induction false} FilterExt<T>(s: seq<T>, p: T -> bool, q: T -> bool)
    requires forall i :: 0 <= i < |s| ==> p(s[i]) == q(s[i])
    ensures Filter(s, p) == Filter(s, q)
  {
    if |s| > 0 {
      FilterExt(s[1..], p, q);
    }
  }

  /** A predicate and its negation split a sequence: every element lands in exactly one half. */
  lemma {:induction false} FilterPartition<T>(s: seq<T>, p: T -> bool, notP: T -> bool)
    requires forall i :: 0 <= i < |s| ==> notP(s[i]) == !p(s[i])
    ensures |Filter(s, p)| + |Filter(s, notP)| == |s|
    ensures multiset(Filter(s, p)) + multiset(Filter(s, notP)) == multiset(s)
  {
    if |s| > 0 {
      var x, rest := s[0], s[1..];
      FilterPartition(rest, p, notP);
      assert s == [x] + rest;
      if p(x) {
        assert Filter(s, p) == [x] + Filter(rest, p);
        assert Filter(s, notP) == Filter(rest, notP);
      } else {
        assert Filter(s, p) == Filter(rest, p);
        assert Filter(s, notP) == [x] + Filter(rest, notP);
      }
    }
  }

  /** When `p` fails only at position `k`, filtering removes exactly that position. */
  lemma {:induction false} FilterDropsOne<T>(s: seq<T>, p: T -> bool, k: nat)
    requires k < |s| && !p(s[k])
    requires forall j :: 0 <= j < |s| && j != k ==> p(s[j])
    ensures Filter(s, p) == s[..k] + s[k + 1..]
  {
    var rest := s[1..];
    if k == 0 {
      FilterAll(rest, p);
      assert s[..0] + s[1..] == rest;
    } else {
      FilterDropsOne(rest, p, k - 1);
      assert s[..k] + s[k + 1..] == [s[0]] + (rest[..k - 1] + rest[k..]);
    }
  }

  /** The number of elements satisfying `p`. */
  function Count<T>(s: seq<T>, p: T -> bool): nat {
    |Filter(s, p)|
  }

  /** Every element satisfies `p` exactly when all of them are counted. */
  lemma {:induction false} CountAllIff<T>(s: seq<T>, p: T -> bool)
    ensures Count(s, p) == |s| <==> forall i :: 0 <= i < |s| ==> p(s[i])
  {
    if |s| > 0 {
      CountAllIff(s[1..], p);
      if Count(s, p) == |s| {
        assert p(s[0]);
      }
    }
  }

  /** `s.findIndex(p)`: the first index satisfying `p`, or -1. */
  function FindIndex<T>(s: seq<T>, p: T -> bool): (r: int)
    ensures -1 <= r < |s|
    ensures r == -1 <==> forall i :: 0 <= i < |s| ==> !p(s[i])
    ensures r >= 0 ==> p(s[r]) && forall j :: 0 <= j < r ==> !p(s[j])
  {
    if |s| == 0 then -1
    else if p(s[0]) then 0
    else
      var k := FindIndex(s[1..], p);
      if k == -1 then -1 else k + 1
  }

  /** `s.find(p)`: the first element satisfying `p`, if any. */
  function Find<T>(s: seq<T>, p: T -> bool): (r: Option<T>)
    ensures r.None? <==> forall i :: 0 <= i < |s| ==> !p(s[i])
    ensures r.Some? ==> r.value in s && p(r.value)
    ensures r.Some? ==> r.value == s[FindIndex(s, p)]
  {
    var k := FindIndex(s, p);
    if k == -1 then None else Some(s[k])
  }

  /** `s.reduce((sum, x) => sum + f(x), 0)`. */
  function SumOf<T>(s: seq<T>, f: T -> int): int {
    if |s| == 0 then 0 else f(s[0]) + SumOf(s[1..], f)
  }

  lemma {:induction false} SumOfConcat<T>(a: seq<T>, b: seq<T>, f: T -> int)
    ensures SumOf(a + b, f) == SumOf(a, f) + SumOf(b, f)
  {
    if |a| > 0 {
      assert (a + b)[1..] == a[1..] + b;
      SumOfConcat(a[1..], b, f);
    } else {
      assert a + b == b;
    }
  }

  lemma SumOfSnoc<T>(s: seq<T>, x: T, f: T -> int)
    ensures SumOf(s + [x], f) == SumOf(s, f) + f(x)
  {
    SumOfConcat(s, [x], f);
  }

  lemma {:induction false} FilterSnoc<T>(s: seq<T>, x: T, p: T -> bool)
    ensures Filter(s + [x], p) == Filter(s, p) + (if p(x) then [x] else [])
  {
    FilterConcat(s, [x], p);
  }

  /** Elements ordered by a numeric key, largest first. */
  predicate SortedDesc<T>(s: seq<T>, key: T -> int) {
    forall i, j :: 0 <= i < j < |s| ==> key(s[i]) >= key(s[j])
  }

  /** Places `x` before the first element whose key is not larger, keeping `s` sorted. */
  function InsertDesc<T>(x: T, s: seq<T>, key: T -> int): (r: seq<T>)
    requires SortedDesc(s, key)
    ensures SortedDesc(r, key)
    ensures multiset(r) == multiset(s) + multiset{x}
    ensures |r| == |s| + 1
    ensures r[0] == x || (|s| > 0 && r[0] == s[0])
  {
    if |s| == 0 then [x]
    else if key(s[0]) <= key(x) then [x] + s
    else
      var rest := InsertDesc(x, s[1..], key);
      assert key(s[0]) >= key(rest[0]);
      HeadBoundsSorted(s[0], rest, key);
      assert multiset([s[0]] + rest) == multiset(s) + multiset{x} by {
        assert s == [s[0]] + s[1..];
      }
      [s[0]] + rest
  }

  /** A head no smaller than the first element of a sorted tail keeps the sequence sorted. */
  lemma HeadBoundsSorted<T>(h: T, s: seq<T>, key: T -> int)
    requires SortedDesc(s, key)
    requires |s| > 0 ==> key(h) >= key(s[0])
    ensures SortedDesc([h] + s, key)
  {
    var r := [h] + s;
    forall i, j | 0 <= i < j < |r| ensures key(r[i]) >= key(r[j]) {
      if i == 0 && j > 1 {
        assert key(s[0]) >= key(s[j - 1]);
      }
    }
  }

  /** The elements whose key is `k`. */
  function KeyIs<T>(key: T -> int, k: int): T -> bool {
    y => key(y) == k
  }

  /** Inserting `x` puts it after every element with a larger key and before every
      element with its own key: among equal keys it comes first. */
  lemma {:induction false} InsertDescKeepsTies<T>(x: T, s: seq<T>, key: T -> int, k: int)
    requires SortedDesc(s, key)
    ensures Filter(InsertDesc(x, s, key), KeyIs(key, k)) == Filter([x] + s, KeyIs(key, k))
  {
    if |s| > 0 && key(s[0]) > key(x) {
      var p := KeyIs(key, k);
      var rest := InsertDesc(x, s[1..], key);
      InsertDescKeepsTies(x, s[1..], key, k);
      assert InsertDesc(x, s, key) == [s[0]] + rest;
      assert ([s[0]] + rest)[1..] == rest;
      assert ([x] + s)[1..] == s;
      assert ([x] + s[1..])[1..] == s[1..];
      assert !(p(x) && p(s[0]));
    }
  }

  /** `s.sort((a, b) => key(b) - key(a))`: a stable sort, newest (largest key) first.
      Elements with equal keys keep their original relative order. */
  function SortDesc<T>(s: seq<T>, key: T -> int): (r: seq<T>)
    ensures SortedDesc(r, key)
    ensures multiset(r) == multiset(s)
    ensures |r| == |s|
    ensures forall k :: Filter(r, KeyIs(key, k)) == Filter(s, KeyIs(key, k))
  {
    if |s| == 0 then []
    else
      assert s == [s[0]] + s[1..];
      var rest := SortDesc(s[1..], key);
      assert forall k :: Filter(InsertDesc(s[0], rest, key), KeyIs(key, k)) == Filter(s, KeyIs(key, k)) by {
        forall k ensures Filter(InsertDesc(s[0], rest, key), KeyIs(key, k)) == Filter(s, KeyIs(key, k)) {
          InsertDescKeepsTies(s[0], rest, key, k);
          assert ([s[0]] + rest)[1..] == rest;
        }
      }
      InsertDesc(s[0], rest, key)
  }

  /** The index `Array.prototype.slice` resolves a bound to: negative values count from the end. */
  function SliceBound(len: nat, i: int): (r: nat)
    ensures r <= len
  {
    if i < 0 then (if len + i < 0 then 0 else len + i)
    else if i > len then len else i
  }

  /** `s.slice(start, end)` with JavaScript's treatment of negative and out-of-range bounds. */
  function JsSlice<T>(s: seq<T>, start: int, end: int): (r: seq<T>)
    ensures |r| <= |s|
    ensures 0 <= start <= end ==> r == s[SliceBound(|s|, start)..SliceBound(|s|, end)]
    ensures r == [] || (SliceBound(|s|, start) < SliceBound(|s|, end)
                        && r == s[SliceBound(|s|, start)..SliceBound(|s|, end)])
  {
    var from, to := SliceBound(|s|, start), SliceBound(|s|, end);
    if from < to then s[from..to] else []
  }

  /** `s.slice(0, k)` is the first `k` elements, or all of them when there are fewer. */
  lemma JsSliceTakesPrefix<T>(s: seq<T>, k: nat)
    ensures |JsSlice(s, 0, k)| == if k < |s| then k else |s|
    ensures JsSlice(s, 0, k) == s[..|JsSlice(s, 0, k)|]
  {
  }
}

=== FILE: table.dfy ===
/** The generic repository every table shares (Lab03/repositories/base.repository.js):
    key lookup, field scan, put, delete, keyed update, and the `SET`
    expression the update sends. A table is the sequence of its items in
    scan order; `key` projects an item's primary key. */
module Table {
  import opened Outcome
  import opened Seqs
  import opened Text

  /** No two items share a primary key — what the store guarantees for a keyed table. */
  predicate KeysUnique<T>(t: seq<T>, key: T -> string) {
    forall i, j :: 0 <= i < j < |t| ==> key(t[i]) != key(t[j])
  }

  /** `findById`: the item with that key, or `null`. */
  function FindById<T>(t: seq<T>, key: T -> string, id: string): (r: Option<T>)
    ensures r.None? <==> forall i :: 0 <= i < |t| ==> key(t[i]) != id
    ensures r.Some? ==> r.value in t && key(r.value) == id
  {
    Find(t, x => key(x) == id)
  }

  /** With unique keys the item found is the one stored under that key. */
  lemma FindByIdUnique<T>(t: seq<T>, key: T -> string, i: int)
    requires KeysUnique(t, key)
    requires 0 <= i < |t|
    ensures FindById(t, key, key(t[i])) == Some(t[i])
  {
    var k := FindIndex(t, x => key(x) == key(t[i]));
    assert k == i;
  }

  /** `findByField`: exactly the items whose field equals `v`, in scan order. */
  function FindByField<T, V(==)>(t: seq<T>, field: T -> V, v: V): (r: seq<T>)
    ensures forall i :: 0 <= i < |r| ==> r[i] in t && field(r[i]) == v
    ensures forall i :: 0 <= i < |t| && field(t[i]) == v ==> t[i] in r
  {
    FilterKeepsMatches(t, FieldIs(field, v));
    Filter(t, FieldIs(field, v))
  }

  function FieldIs<T, V(==)>(field: T -> V, v: V): T -> bool {
    x => field(x) == v
  }

  /** Items stored under another key than `id`. */
  function KeyIsNot<T>(key: T -> string, id: string): T -> bool {
    x => key(x) != id
  }

  /** `delete`: removes the item under `id` and nothing else. */
  function Delete<T>(t: seq<T>, key: T -> string, id: string): (r: seq<T>)
    ensures forall i :: 0 <= i < |r| ==> r[i] in t && key(r[i]) != id
    ensures forall i :: 0 <= i < |t| && key(t[i]) != id ==> t[i] in r
  {
    FilterKeepsMatches(t, KeyIsNot(key, id));
    Filter(t, KeyIsNot(key, id))
  }

  /** `create` (a put): replaces the item stored under the same key, or appends a new one. */
  function Put<T>(t: seq<T>, key: T -> string, item: T): (r: seq<T>)
    ensures |r| == |t| || |r| == |t| + 1
    ensures item in r
    ensures (forall i :: 0 <= i < |t| ==> key(t[i]) != key(item)) ==> r == t + [item]
    ensures (exists i :: 0 <= i < |t| && key(t[i]) == key(item)) ==> |r| == |t|
    ensures forall i :: 0 <= i < |t| && key(t[i]) != key(item) ==> r[i] == t[i]
  {
    var k := FindIndex(t, x => key(x) == key(item));
    if k == -1 then t + [item]
    else
      assert t[k := item][k] == item;
      t[k := item]
  }

  /** Put keeps keys unique and leaves every item under another key where it was. */
  lemma PutKeepsKeysUnique<T>(t: seq<T>, key: T -> string, item: T)
    requires KeysUnique(t, key)
    ensures KeysUnique(Put(t, key, item), key)
    ensures forall i :: 0 <= i < |t| && key(t[i]) != key(item) ==> Put(t, key, item)[i] == t[i]
  {
  }

  /** A keyed update: `f` is applied to the item under `id`; every other item is untouched.
      An absent key leaves the table as it is. */
  function Update<T>(t: seq<T>, key: T -> string, id: string, f: T -> T): (r: seq<T>)
    ensures |r| == |t|
    ensures forall i :: 0 <= i < |t| && key(t[i]) != id ==> r[i] == t[i]
    ensures forall i :: 0 <= i < |t| && key(t[i]) == id ==> r[i] == f(t[i])
  {
    seq(|t|, i requires 0 <= i < |t| => if key(t[i]) == id then f(t[i]) else t[i])
  }

  /** An update whose change keeps the key keeps keys unique. */
  lemma UpdateKeepsKeysUnique<T>(t: seq<T>, key: T -> string, id: string, f: T -> T)
    requires KeysUnique(t, key)
    requires forall x :: key(f(x)) == key(x)
    ensures KeysUnique(Update(t, key, id, f), key)
  {
  }

  // ---------------------------------------------------------------------------
  // The update request (`update(id, data, expressionAttributeNames)`)

  /** A DynamoDB attribute value as the application writes it. `Time` is an ISO
      timestamp, kept abstract as the instant it denotes. */
  datatype AttrValue = Str(s: string) | Num(n: int) | Bool(b: bool) | Time(t: int)

  datatype UpdateRequest = UpdateRequest(
    expression: string,
    values: map<string, AttrValue>,
    names: Option<map<string, string>>)

  /** An attribute no entry of the request's data names. */
  predicate Unwritten(data: seq<(string, AttrValue)>, a: string) {
    forall i :: 0 <= i < |data| ==> data[i].0 != a
  }

  /** `after` is `before` with the request's data written: every written attribute
      holds the value bound to it, and every other attribute is as it was. `attr`
      reads an item's attribute by its stored name. */
  ghost predicate WritesData<T>(before: T, after: T, data: seq<(string, AttrValue)>, attr: (T, string) -> Option<AttrValue>) {
    && (forall i :: 0 <= i < |data| ==> attr(after, data[i].0) == Some(data[i].1))
    && (forall a :: Unwritten(data, a) ==> attr(after, a) == attr(before, a))
  }

  /** The placeholder bound to the `i`-th written attribute: `:val{i}`. */
  function Placeholder(i: nat): string {
    ":val" + NatToString(i)
  }

  lemma PlaceholderInjective(i: nat, j: nat)
    requires Placeholder(i) == Placeholder(j)
    ensures i == j
  {
    assert NatToString(i) == Placeholder(i)[4..];
    assert NatToString(j) == Placeholder(j)[4..];
    NatToStringInjective(i, j);
  }

  /** How an attribute is referred to: `#key` when the names map has a truthy entry for it. */
  function AttrRef(k: string, names: map<string, string>): string {
    if "#" + k in names && names["#" + k] != "" then "#" + k else k
  }

  /** The `key = :valN` clauses for `data[from..]`, numbered from `from`. */
  function SetClauses(data: seq<(string, AttrValue)>, names: map<string, string>, from: nat): (r: seq<string>)
    requires from <= |data|
    ensures |r| == |data| - from
    ensures forall i :: 0 <= i < |r| ==> r[i] == AttrRef(data[from + i].0, names) + " = " + Placeholder(from + i)
  {
    seq(|data| - from, i requires 0 <= i < |data| - from => AttrRef(data[from + i].0, names) + " = " + Placeholder(from + i))
  }

  /** The values map built by the first `n` iterations of the key loop. */
  function BoundValues(data: seq<(string, AttrValue)>, n: nat): (m: map<string, AttrValue>)
    requires n <= |data|
    ensures m.Keys == set i | 0 <= i < n :: Placeholder(i)
  {
    if n == 0 then map[] else BoundValues(data, n - 1)[Placeholder(n - 1) := data[n - 1].1]
  }

  /** Each placeholder maps to the value of the key it was generated for. */
  lemma {:induction false} BoundValuesLookup(data: seq<(string, AttrValue)>, n: nat, i: nat)
    requires i < n <= |data|
    ensures Placeholder(i) in BoundValues(data, n)
    ensures BoundValues(data, n)[Placeholder(i)] == data[i].1
  {
    if i < n - 1 {
      BoundValuesLookup(data, n - 1, i);
      if Placeholder(n - 1) == Placeholder(i) {
        PlaceholderInjective(n - 1, i);
      }
    }
  }

  /** The update expression: `SET` and the clauses joined by ", ". */
  function UpdateExpression(data: seq<(string, AttrValue)>, names: map<string, string>): string {
    "SET " + Join(SetClauses(data, names, 0), ", ")
  }

  /** `update`'s request: `SET` followed by one clause per data key in key order,
      joined by ", ", with the names map attached only when non-empty. */
  function BuildUpdate(data: seq<(string, AttrValue)>, names: map<string, string>): (r: UpdateRequest)
    ensures r.names.Some? <==> |names| > 0
    ensures r.names.Some? ==> r.names.value == names
    ensures r.values.Keys == set i | 0 <= i < |data| :: Placeholder(i)
    ensures StartsWith(r.expression, "SET ")
    ensures r.expression == "SET " + Join(SetClauses(data, names, 0), ", ")
  {
    UpdateRequest(
      UpdateExpression(data, names),
      BoundValues(data, |data|),
      if |names| > 0 then Some(names) else None)
  }

  /** The request binds every data key's value to its own placeholder, and the
      key's clause assigns exactly that placeholder. */
  lemma BuildUpdateBindsEveryKey(data: seq<(string, AttrValue)>, names: map<string, string>, i: nat)
    requires i < |data|
    ensures Placeholder(i) in BuildUpdate(data, names).values
    ensures BuildUpdate(data, names).values[Placeholder(i)] == data[i].1
    ensures SetClauses(data, names, 0)[i] == AttrRef(data[i].0, names) + " = " + Placeholder(i)
  {
    BoundValuesLookup(data, |data|, i);
  }

  /** The expression holds every data key's clause. */
  lemma BuildUpdateHasEveryClause(data: seq<(string, AttrValue)>, names: map<string, string>, i: nat)
    requires i < |data|
    ensures Contains(BuildUpdate(data, names).expression, AttrRef(data[i].0, names) + " = " + Placeholder(i))
  {
    var clauses := SetClauses(data, names, 0);
    JoinHasPart(clauses, ", ", i);
    var joined := Join(clauses, ", ");
    var j :| 0 <= j <= |joined| && OccursAt(joined, clauses[i], j);
    ContainsAfterPrefix("SET ", joined, clauses[i], j);
  }

  /** One more data key adds its clause at the end of the expression, after ", ":
      the clauses come in key order. */
  lemma BuildUpdateAppendsClause(data: seq<(string, AttrValue)>, x: (string, AttrValue), names: map<string, string>)
    requires |data| >= 1
    ensures BuildUpdate(data + [x], names).expression
         == BuildUpdate(data, names).expression + ", " + AttrRef(x.0, names) + " = " + Placeholder(|data|)
  {
    UpdateExpressionAppends(data, x, names);
  }

  lemma UpdateExpressionAppends(data: seq<(string, AttrValue)>, x: (string, AttrValue), names: map<string, string>)
    requires |data| >= 1
    ensures UpdateExpression(data + [x], names)
         == UpdateExpression(data, names) + ", " + AttrRef(x.0, names) + " = " + Placeholder(|data|)
  {
    var clause := AttrRef(x.0, names) + " = " + Placeholder(|data|);
    var front := SetClauses(data, names, 0);
    SetClausesSnoc(data, x, names);
    JoinSnoc(front, clause, ", ");
  }

  /** The clauses of `data + [x]` are those of `data` followed by `x`'s clause. */
  lemma SetClausesSnoc(data: seq<(string, AttrValue)>, x: (string, AttrValue), names: map<string, string>)
    ensures SetClauses(data + [x], names, 0)
         == SetClauses(data, names, 0) + [AttrRef(x.0, names) + " = " + Placeholder(|data|)]
  {
    var longer := data + [x];
    assert forall i :: 0 <= i < |data| ==> longer[i] == data[i];
  }

  // ---------------------------------------------------------------------------
  // The store's answer to an update request

  /** Why the store refuses a request. */
  datatype StoreError = ReservedKeyword(word: string)

  /** DynamoDB's reserved words, restricted to the attribute names the application
      writes through `update`: of name, price, quantity, categoryId, url_image,
      updatedAt and description, only `name` is on the list. */
  predicate IsReservedWord(w: string) {
    w == "name"
  }

  /** A clause may assign a reserved word only through its `#` alias. */
  predicate UpdateAccepted(data: seq<(string, AttrValue)>, names: map<string, string>) {
    forall i :: 0 <= i < |data| ==> !IsReservedWord(AttrRef(data[i].0, names))
  }

  /** The store's answer to `update`: a request whose expression names a reserved
      word directly fails validation and changes nothing; any other request applies
      `f` to the item under `id`. */
  function SendUpdate<T>(t: seq<T>, key: T -> string, id: string, f: T -> T,
                         data: seq<(string, AttrValue)>, names: map<string, string>): (r: Result<seq<T>, StoreError>)
    ensures r.Ok? <==> UpdateAccepted(data, names)
    ensures r.Ok? ==> r.value == Update(t, key, id, f)
    ensures r.Err? ==> IsReservedWord(r.error.word)
    ensures r.Err? ==> exists i :: 0 <= i < |data| && data[i].0 == r.error.word && AttrRef(data[i].0, names) == data[i].0
  {
    var k := FindIndex(data, (d: (string, AttrValue)) => IsReservedWord(AttrRef(d.0, names)));
    if k == -1 then Ok(Update(t, key, id, f))
    else Err(ReservedKeyword(data[k].0))
  }

  /** The key is aliased: the names map has a truthy `#key` entry. */
  predicate Aliased(k: string, names: map<string, string>) {
    "#" + k in names && names["#" + k] != ""
  }

  /** A request that aliases every reserved key it writes is accepted and applied. */
  lemma AliasedKeysAccepted<T>(t: seq<T>, key: T -> string, id: string, f: T -> T,
                               data: seq<(string, AttrValue)>, names: map<string, string>)
    requires forall i :: 0 <= i < |data| && IsReservedWord(data[i].0) ==> Aliased(data[i].0, names)
    ensures SendUpdate(t, key, id, f, data, names) == Ok(Update(t, key, id, f))
  {
    forall i | 0 <= i < |data| ensures !IsReservedWord(AttrRef(data[i].0, names)) {
      var ref := AttrRef(data[i].0, names);
      if ref != data[i].0 {
        assert ref[0] == '#';
      }
    }
  }

  /** A reserved key written without an alias puts the bare `key = :valN` clause in
      the expression, and the store refuses the request with that word. */
  lemma BareReservedKeyRefused<T>(t: seq<T>, key: T -> string, id: string, f: T -> T,
                                  data: seq<(string, AttrValue)>, names: map<string, string>, i: nat)
    requires i < |data| && IsReservedWord(data[i].0) && !Aliased(data[i].0, names)
    ensures Contains(BuildUpdate(data, names).expression, data[i].0 + " = " + Placeholder(i))
    ensures SendUpdate(t, key, id, f, data, names).Err?
    ensures SendUpdate(t, key, id, f, data, names).error == ReservedKeyword("name")
  {
    BuildUpdateHasEveryClause(data, names, i);
  }
}

=== FILE: text.dfy ===
/** String helpers with JavaScript meaning: `startsWith`, `join`,
    `includes`, `trim`, and the decimal rendering of a counter. */
module Text {
  import opened Outcome

  /** `s.startsWith(p)`. */
  predicate StartsWith(s: string, p: string) {
    |p| <= |s| && s[..|p|] == p
  }

  /** `t` occurs in `s` starting at index `i`. */
  predicate OccursAt(s: string, t: string, i: int) {
    0 <= i && i + |t| <= |s| && s[i..i + |t|] == t
  }

  /** `s.includes(t)`, the substring test DynamoDB's `contains` performs on strings. */
  predicate Contains(s: string, t: string) {
    exists i | 0 <= i <= |s| :: OccursAt(s, t, i)
  }

  lemma ContainsEmpty(s: string)
    ensures Contains(s, "")
  {
    assert OccursAt(s, "", 0);
  }

  /** `parts.join(sep)`. */
  function Join(parts: seq<string>, sep: string): (r: string)
    ensures |parts| == 1 ==> r == parts[0]
  {
    if |parts| == 0 then ""
    else if |parts| == 1 then parts[0]
    else parts[0] + sep + Join(parts[1..], sep)
  }

  /** One more part is joined on after one more separator. */
  lemma JoinSnoc(parts: seq<string>, p: string, sep: string)
    requires |parts| >= 1
    ensures Join(parts + [p], sep) == Join(parts, sep) + sep + p
  {
    JoinAppend(parts, [p], sep);
  }

  /** Joining two non-empty runs of parts puts exactly one separator between them. */
  lemma {:induction false} JoinAppend(a: seq<string>, b: seq<string>, sep: string)
    requires |a| >= 1 && |b| >= 1
    ensures Join(a + b, sep) == Join(a, sep) + sep + Join(b, sep)
  {
    if |a| == 1 {
      assert (a + b)[1..] == b;
    } else {
      assert (a + b)[1..] == a[1..] + b;
      JoinAppend(a[1..], b, sep);
    }
  }

  /** Every part appears in the joined text. */
  lemma {:induction false} JoinHasPart(parts: seq<string>, sep: string, i: nat)
    requires i < |parts|
    ensures Contains(Join(parts, sep), parts[i])
  {
    var r := Join(parts, sep);
    if i == 0 {
      assert OccursAt(r, parts[0], 0);
    } else {
      JoinHasPart(parts[1..], sep, i - 1);
      var rest := Join(parts[1..], sep);
      var j :| 0 <= j <= |rest| && OccursAt(rest, parts[i], j);
      ContainsAfterPrefix(parts[0] + sep, rest, parts[i], j);
    }
  }

  /** Text found in `s` is still found once something is put in front of `s`. */
  lemma ContainsAfterPrefix(p: string, s: string, t: string, j: int)
    requires OccursAt(s, t, j)
    ensures OccursAt(p + s, t, |p| + j)
    ensures Contains(p + s, t)
  {
    assert (p + s)[|p| + j..|p| + j + |t|] == s[j..j + |t|];
    assert OccursAt(p + s, t, |p| + j);
  }

  /** The characters JavaScript's `\s` class and `String.prototype.trim` treat as white space. */
  predicate IsJsSpace(c: char) {
    c == ' ' || c == '\t' || c == '\n' || c == '\r' || c == '\U{0B}' || c == '\U{0C}'
    || c == '\U{A0}' || c == '\U{1680}' || ('\U{2000}' <= c <= '\U{200A}')
    || c == '\U{2028}' || c == '\U{2029}' || c == '\U{202F}' || c == '\U{205F}'
    || c == '\U{3000}' || c == '\U{FEFF}'
  }

  /** `s` with leading white space removed. */
  function TrimStart(s: string): (r: string)
    ensures |r| <= |s|
    ensures r == s[|s| - |r|..]
    ensures |r| > 0 ==> !IsJsSpace(r[0])
    ensures forall k :: 0 <= k < |s| - |r| ==> IsJsSpace(s[k])
  {
    if |s| > 0 && IsJsSpace(s[0]) then TrimStart(s[1..]) else s
  }

  /** `s` with trailing white space removed. */
  function TrimEnd(s: string): (r: string)
    ensures |r| <= |s|
    ensures r == s[..|r|]
    ensures |r| > 0 ==> !IsJsSpace(r[|r| - 1])
    ensures forall k :: |r| <= k < |s| ==> IsJsSpace(s[k])
  {
    if |s| > 0 && IsJsSpace(s[|s| - 1]) then TrimEnd(s[..|s| - 1]) else s
  }

  /** `s.trim()`. */
  function Trim(s: string): string {
    TrimEnd(TrimStart(s))
  }

  /** `s.trim()` is the stretch of `s` left after the white space at both ends is cut
      off: it follows the leading run of white space, only white space follows it, and
      it neither starts nor ends with white space. */
  lemma TrimShape(s: string)
    ensures var r := Trim(s); var a := |s| - |TrimStart(s)|;
      && a + |r| <= |s| && r == s[a..a + |r|]
      && (forall k :: 0 <= k < a ==> IsJsSpace(s[k]))
      && (forall k :: a + |r| <= k < |s| ==> IsJsSpace(s[k]))
    ensures var r := Trim(s); |r| > 0 ==> !IsJsSpace(r[0]) && !IsJsSpace(r[|r| - 1])
  {
    TrimSlice(s);
    TrimTrailing(s);
    TrimKeepsFirst(TrimStart(s));
  }

  lemma TrimSlice(s: string)
    ensures var r := Trim(s); var a := |s| - |TrimStart(s)|; a + |r| <= |s| && r == s[a..a + |r|]
  {
    var t := TrimStart(s);
    PrefixOfSuffix(s, |s| - |t|, |TrimEnd(t)|);
  }

  lemma TrimTrailing(s: string)
    ensures var r := Trim(s); var a := |s| - |TrimStart(s)|; forall k :: a + |r| <= k < |s| ==> IsJsSpace(s[k])
  {
    var t := TrimStart(s);
    var r := TrimEnd(t);
    var a := |s| - |t|;
    assert t == s[a..];
    forall k | a + |r| <= k < |s| ensures IsJsSpace(s[k]) {
      var j := k - a;
      assert |r| <= j < |t|;
      assert IsJsSpace(t[j]);
      assert t[j] == s[k];
    }
  }

  /** Trimming the end of a string that does not start with white space leaves a
      result that does not start with it either. */
  lemma TrimKeepsFirst(t: string)
    requires |t| > 0 ==> !IsJsSpace(t[0])
    ensures var r := TrimEnd(t); |r| > 0 ==> r[0] == t[0] && !IsJsSpace(r[0])
  {
  }

  /** The first `n` characters of `s[a..]` are `s[a..a + n]`. */
  lemma PrefixOfSuffix(s: string, a: nat, n: nat)
    requires a + n <= |s|
    ensures s[a..][..n] == s[a..a + n]
  {
  }

  /** `s.trim() === ""` exactly when every character of `s` is white space. */
  lemma TrimEmptyIffAllSpace(s: string)
    ensures Trim(s) == "" <==> forall k :: 0 <= k < |s| ==> IsJsSpace(s[k])
  {
    var t := TrimStart(s);
    if Trim(s) != "" {
      var r := Trim(s);
      assert r[0] == t[0] && !IsJsSpace(t[0]);
      assert s[|s| - |t|] == t[0];
    }
  }

  /** The decimal digit for `d`. */
  function Digit(d: nat): (c: char)
    requires d < 10
    ensures '0' <= c <= '9'
  {
    (48 + d) as char
  }

  /** `String(n)` for a natural number: its decimal representation. */
  function NatToString(n: nat): (r: string)
    ensures 1 <= |r|
    ensures n >= 10 ==> |r| >= 2
    ensures r[|r| - 1] == Digit(n % 10)
    ensures forall k :: 0 <= k < |r| ==> IsDigit(r[k])
  {
    if n < 10 then [Digit(n)] else NatToString(n / 10) + [Digit(n % 10)]
  }

  /** Different numbers render differently, so the names built from them never collide. */
  lemma {:induction false} NatToStringInjective(a: nat, b: nat)
    requires NatToString(a) == NatToString(b)
    ensures a == b
  {
    var sa, sb := NatToString(a), NatToString(b);
    assert a % 10 == b % 10 by {
      assert Digit(a % 10) == sa[|sa| - 1] == sb[|sb| - 1] == Digit(b % 10);
    }
    if a >= 10 && b >= 10 {
      assert NatToString(a / 10) == sa[..|sa| - 1];
      assert NatToString(b / 10) == sb[..|sb| - 1];
      NatToStringInjective(a / 10, b / 10);
    }
  }

  /** `String(n)` (or a template literal) for an integer: a minus sign, then the digits. */
  function IntToString(n: int): (r: string)
    ensures 1 <= |r|
    ensures r[0] == '-' <==> n < 0
  {
    if n < 0 then "-" + NatToString(-n) else NatToString(n)
  }

  /** Different integers render differently. */
  lemma IntToStringInjective(a: int, b: int)
    requires IntToString(a) == IntToString(b)
    ensures a == b
  {
    var s := IntToString(a);
    if a < 0 {
      assert NatToString(-a) == s[1..] == NatToString(-b);
      NatToStringInjective(-a, -b);
    } else {
      NatToStringInjective(a, b);
    }
  }

  predicate IsDigit(c: char) {
    48 <= c as int <= 57
  }

  /** The value of `c` as a digit of bases up to 36: `0`-`9`, then the letters of either
      case from ten on; 36, a digit of no base, for every other character. */
  function DigitValue(c: char): (v: nat)
    ensures v <= 36
  {
    if '0' <= c <= '9' then c as int - 48
    else if 'a' <= c <= 'z' then c as int - 87
    else if 'A' <= c <= 'Z' then c as int - 55
    else 36
  }

  /** `c` is a digit of base `radix`. */
  predicate IsDigitIn(c: char, radix: nat) {
    DigitValue(c) < radix
  }

  /** The length of the run of base-`radix` digits `s` starts with. */
  function LeadingDigits(s: string, radix: nat): (n: nat)
    ensures n <= |s|
    ensures forall k :: 0 <= k < n ==> IsDigitIn(s[k], radix)
    ensures n < |s| ==> !IsDigitIn(s[n], radix)
  {
    if |s| > 0 && IsDigitIn(s[0], radix) then 1 + LeadingDigits(s[1..], radix) else 0
  }

  /** The value of a run of base-`radix` digits, most significant first. */
  function DigitsValue(d: string, radix: nat): nat
    requires forall k :: 0 <= k < |d| ==> IsDigitIn(d[k], radix)
  {
    if |d| == 0 then 0
    else
      DigitsPrefix(d, |d| - 1, radix);
      DigitsValue(d[..|d| - 1], radix) * radix + DigitValue(d[|d| - 1])
  }

  /** A prefix of a run of digits is a run of digits. */
  lemma DigitsPrefix(d: string, n: nat, radix: nat)
    requires n <= |d|
    requires forall k :: 0 <= k < |d| ==> IsDigitIn(d[k], radix)
    ensures forall k :: 0 <= k < n ==> IsDigitIn(d[..n][k], radix)
  {
    forall k | 0 <= k < n ensures IsDigitIn(d[..n][k], radix) {
      assert d[..n][k] == d[k];
    }
  }

  /** `0x` or `0X`, the prefix `parseInt` without a radix reads as base sixteen. */
  predicate HasHexPrefix(u: string) {
    |u| >= 2 && u[0] == '0' && (u[1] == 'x' || u[1] == 'X')
  }

  /** The base `parseInt(s)` reads the unsigned text `u` in, and the text its digits start at. */
  function RadixAndDigits(u: string): (r: (nat, string))
    ensures HasHexPrefix(u) ==> r == (16, u[2..])
    ensures !HasHexPrefix(u) ==> r == (10, u)
  {
    if HasHexPrefix(u) then (16, u[2..]) else (10, u)
  }

  /** `parseInt(s)` with no radix argument: leading white space, an optional sign, then
      hexadecimal digits after a `0x`/`0X` prefix or decimal digits otherwise, as many as
      there are; `None` stands for `NaN` (no digit at all). */
  function ParseInt(s: string): (r: Option<int>)
    ensures var u := SignStripped(TrimStart(s));
      r.None? <==> (if HasHexPrefix(u) then LeadingDigits(u[2..], 16) == 0 else LeadingDigits(u, 10) == 0)
    ensures r.Some? && r.value < 0 ==> TrimStart(s)[0] == '-'
  {
    var t := TrimStart(s);
    var (radix, body) := RadixAndDigits(SignStripped(t));
    var n := LeadingDigits(body, radix);
    LeadingRunIsDigits(body, radix);
    if n == 0 then None
    else
      var v: int := DigitsValue(body[..n], radix);
      if |t| > 0 && t[0] == '-' then Some(-v) else Some(v)
  }

  /** The run `LeadingDigits` measures consists of digits. */
  lemma LeadingRunIsDigits(s: string, radix: nat)
    ensures var n := LeadingDigits(s, radix); forall k :: 0 <= k < n ==> IsDigitIn(s[..n][k], radix)
  {
    var n := LeadingDigits(s, radix);
    forall k | 0 <= k < n ensures IsDigitIn(s[..n][k], radix) {
      assert s[..n][k] == s[k];
    }
  }

  /** Both characters of a two-digit run are read, most significant first. */
  lemma TwoDigits(d: string, radix: nat)
    requires |d| == 2 && IsDigitIn(d[0], radix) && IsDigitIn(d[1], radix)
    ensures LeadingDigits(d, radix) == 2
    ensures DigitsValue(d[..2], radix) == DigitValue(d[0]) * radix + DigitValue(d[1])
  {
    assert d[1..][1..] == [];
    assert d[..2] == d;
    var first := d[..1];
    assert first[..0] == [] && first[0] == d[0];
    assert DigitsValue(first, radix) == DigitValue(d[0]);
    assert d[..2][..1] == first;
  }

  /** Text that starts with a character other than white space is its own `TrimStart`. */
  lemma NoLeadingSpace(t: string)
    requires |t| > 0 && !IsJsSpace(t[0])
    ensures TrimStart(t) == t
  {
  }

  /** After `0x` the digits are read in base sixteen. */
  lemma ParseIntReadsHex()
    ensures ParseInt("0x1f") == Some(31)
  {
    var u := "0x1f";
    NoLeadingSpace(u);
    assert SignStripped(u) == u && HasHexPrefix(u);
    assert u[2..] == "1f";
    TwoDigits("1f", 16);
  }

  /** The sign comes before the prefix, and `0X` is read like `0x`. */
  lemma ParseIntReadsSignedHex()
    ensures ParseInt("-0X10") == Some(-16)
  {
    var t := "-0X10";
    NoLeadingSpace(t);
    assert SignStripped(t) == "0X10" && HasHexPrefix("0X10");
    assert "0X10"[2..] == "10";
    TwoDigits("10", 16);
  }

  /** A prefix with no digit after it is `NaN`. */
  lemma ParseIntBarePrefix()
    ensures ParseInt("0x") == None
  {
    var u := "0x";
    NoLeadingSpace(u);
    assert SignStripped(u) == u && HasHexPrefix(u);
    assert u[2..] == "";
  }

  /** `s` without a leading `+` or `-`. */
  function SignStripped(t: string): (r: string)
    ensures r == t || (|t| > 0 && (t[0] == '-' || t[0] == '+') && r == t[1..])
  {
    if |t| > 0 && (t[0] == '-' || t[0] == '+') then t[1..] else t
  }

  /** The digits `NatToString` writes read back as the number. */
  lemma {:induction false} DigitsValueOfNatToString(n: nat)
    ensures DigitsValue(NatToString(n), 10) == n
  {
    var s := NatToString(n);
    if n >= 10 {
      DigitsValueOfNatToString(n / 10);
      assert s[..|s| - 1] == NatToString(n / 10);
    }
  }

  /** All of a run of digits is read. */
  lemma {:induction false} LeadingDigitsOfDigits(d: string)
    requires forall k :: 0 <= k < |d| ==> IsDigit(d[k])
    ensures LeadingDigits(d, 10) == |d|
  {
    if |d| > 0 {
      LeadingDigitsOfDigits(d[1..]);
    }
  }

  /** A rendered natural number parses back to itself. */
  lemma ParseIntOfNatToString(m: nat)
    ensures LeadingDigits(NatToString(m), 10) == |NatToString(m)|
    ensures DigitsValue(NatToString(m)[..LeadingDigits(NatToString(m), 10)], 10) == m
  {
    var digits := NatToString(m);
    LeadingDigitsOfDigits(digits);
    DigitsValueOfNatToString(m);
    assert digits[..|digits|] == digits;
  }

  /** `parseInt(String(n)) === n`: rendering an integer and parsing it back is the identity. */
  lemma ParseIntOfIntToString(n: int)
    ensures ParseInt(IntToString(n)) == Some(n)
  {
    var s := IntToString(n);
    var m := if n < 0 then -n else n;
    assert TrimStart(s) == s by {
      assert !IsJsSpace(s[0]);
    }
    assert SignStripped(s) == NatToString(m) by {
      if n < 0 {
        assert s[1..] == NatToString(m);
      } else {
        assert IsDigit(s[0]);
      }
    }
    assert !HasHexPrefix(NatToString(m)) by {
      var d := NatToString(m);
      if |d| >= 2 {
        assert IsDigit(d[1]);
      }
    }
    ParseIntOfNatToString(m);
  }
}

=== FILE: user_routes.dfy ===
/** The user-management handlers (Lab03/routes/users.js): the record the add
    handler creates, the update data the edit handler builds, and the guard
    that is meant to stop an admin deleting their own account. Both the
    handlers as written and the corrected handlers are modelled. */
module UserRoutes {
  import opened Outcome
  import opened Text
  import opened AuthGate
  import opened Users

  /** The submitted form fields. */
  datatype UserForm = UserForm(username: string, password: string, role: string)

  /** The submitted password is non-blank: truthy, and not empty after `trim()`. */
  predicate NonBlank(password: string) {
    password != "" && Trim(password) != ""
  }

  /** The edit handler's update data: username and role always, the password only when non-blank. */
  function EditData(f: UserForm): (d: UserChanges)
    ensures d.username == f.username && d.role == f.role
    ensures d.password.Some? <==> NonBlank(f.password)
    ensures d.password.Some? ==> d.password.value == f.password
  {
    UserChanges(f.username, f.role, if NonBlank(f.password) then Some(f.password) else None)
  }

  /** Editing a user replaces the stored hash exactly when the submitted password
      contains a character that is not white space; otherwise the old hash stays. */
  lemma EditReplacesHashIffPasswordHasText(
    t: seq<User>, id: string, f: UserForm, hash: string -> string, i: int)
    requires 0 <= i < |t| && t[i].id == id
    ensures var r := UpdateUser(t, id, EditData(f), hash);
      && r[i].username == f.username && r[i].role == f.role
      && ((exists k :: 0 <= k < |f.password| && !IsJsSpace(f.password[k]))
            ==> r[i].password == Some(hash(f.password)))
      && ((forall k :: 0 <= k < |f.password| ==> IsJsSpace(f.password[k]))
            ==> r[i].password == t[i].password)
  {
    TrimEmptyIffAllSpace(f.password);
  }

  // ---------------------------------------------------------------------------
  // Creating a user

  /** The record the add handler passes to `createUser`, as written: the generated
      identifier goes under `userId`, and the raw password goes to the service. */
  function AddUserRecord(f: UserForm, newId: string): (nu: NewUser)
    ensures nu.id.None? && nu.userId == Some(newId)
    ensures nu.password == f.password
  {
    NewUser(None, Some(newId), f.username, f.password, f.role)
  }

  /** As written, adding a user never succeeds: the Users table is keyed by `id`,
      which the record lacks, so the put is rejected. */
  lemma AddUserAsWrittenAlwaysFails(t: seq<User>, f: UserForm, newId: string, hash: string -> string, now: int)
    ensures CreateUser(t, AddUserRecord(f, newId), hash, now) == Err(MissingKeyAttribute)
  {
  }

  /** The record the add handler is meant to build: the generated identifier as `id`. */
  function AddUserRecordFixed(f: UserForm, newId: string): (nu: NewUser)
    ensures nu.id == Some(newId) && nu.password == f.password
    ensures nu.username == f.username && nu.role == f.role
  {
    NewUser(Some(newId), None, f.username, f.password, f.role)
  }

  /** With the corrected record the new account is stored under the generated id,
      can be fetched by it without its password, and stores only the hash. */
  lemma AddUserFixedStoresAccount(t: seq<User>, f: UserForm, newId: string, hash: string -> string, now: int)
    requires forall i :: 0 <= i < |t| ==> t[i].id != newId
    ensures CreateUser(t, AddUserRecordFixed(f, newId), hash, now).Ok?
    ensures var t' := CreateUser(t, AddUserRecordFixed(f, newId), hash, now).value.1;
      && FindByIdWithoutPassword(t', newId).Some?
      && FindByIdWithoutPassword(t', newId).value.username == f.username
      && t'[|t'| - 1].password == Some(hash(f.password))
  {
    var t' := CreateUser(t, AddUserRecordFixed(f, newId), hash, now).value.1;
    assert t'[|t|].id == newId;
  }

  // ---------------------------------------------------------------------------
  // Deleting a user

  datatype DeleteOutcome = RefuseSelfDelete | DeleteTarget

  /** The guard as written: compares the session user's `userId` with the target. */
  function DeleteGuard(u: SessionUser, target: string): (r: DeleteOutcome)
    ensures r == RefuseSelfDelete <==> u.userId == Some(target)
  {
    if u.userId == Some(target) then RefuseSelfDelete else DeleteTarget
  }

  /** The guard never fires for a Lab03 session: login stores `id`, never `userId`,
      so an admin asking to delete their own account is let through. */
  lemma GuardNeverFiresAfterLogin(
    store: Option<seq<User>>, username: string, password: string, hash: string -> string, target: string)
    requires AuthenticateUser(store, username, password, hash).LoggedIn?
    ensures DeleteGuard(AuthenticateUser(store, username, password, hash).user, target) == DeleteTarget
  {
    LoginSessionShape(store, username, password, hash);
  }

  /** The delete handler as written: the guard, then `deleteUser`. */
  function DeleteHandler(t: seq<User>, u: SessionUser, target: string): (r: (DeleteOutcome, seq<User>))
    ensures r.0 == RefuseSelfDelete ==> r.1 == t
    ensures r.0 == DeleteTarget ==> r.1 == DeleteUser(t, target)
  {
    var d := DeleteGuard(u, target);
    if d == RefuseSelfDelete then (d, t) else (d, DeleteUser(t, target))
  }

  /** Concretely: the admin who just logged in deletes their own record. */
  lemma AdminCanDeleteSelf(t: seq<User>, i: int, password: string, hash: string -> string)
    requires 0 <= i < |t|
    requires forall j :: 0 <= j < |t| && j != i ==> t[j].username != t[i].username
    requires t[i].password == Some(hash(password))
    ensures AuthenticateUser(Some(t), t[i].username, password, hash).LoggedIn?
    ensures var u := AuthenticateUser(Some(t), t[i].username, password, hash).user;
      && u.id == Some(t[i].id)
      && forall k :: 0 <= k < |DeleteHandler(t, u, t[i].id).1| ==> DeleteHandler(t, u, t[i].id).1[k].id != t[i].id
  {
    assert forall j :: 0 <= j < i ==> !NamedFilter(t[i].username)(t[j]);
    assert Seqs.FindIndex(t, NamedFilter(t[i].username)) == i;
  }

  /** The guard as intended: compares the session user's `id`, which login does store. */
  function DeleteGuardFixed(u: SessionUser, target: string): (r: DeleteOutcome)
    ensures r == RefuseSelfDelete <==> u.id == Some(target)
  {
    if u.id == Some(target) then RefuseSelfDelete else DeleteTarget
  }

  /** After a login, the corrected guard refuses exactly the logged-in user's own id. */
  lemma FixedGuardRefusesExactlySelf(
    store: Option<seq<User>>, username: string, password: string, hash: string -> string, target: string)
    requires AuthenticateUser(store, username, password, hash).LoggedIn?
    ensures var u := AuthenticateUser(store, username, password, hash).user;
      DeleteGuardFixed(u, target) == RefuseSelfDelete <==> u.id == Some(target)
  {
  }
}

=== FILE: users.dfy ===
/** User accounts in Lab03 (Lab03/repositories/users.repository.js and
    Lab03/services/users.service.js): lookups that never expose the password
    hash, creation and update with hashing, and the login decision. The hash
    function is a parameter: nothing here depends on which hash it is. */
module Users {
  import opened Outcome
  import opened Seqs
  import opened AuthGate
  import Table

  /** A stored user. `password` holds the hash, and is absent once stripped.
      `userId` is an extra attribute some records carry (see `UserRoutes`). */
  datatype User = User(
    id: string,
    userId: Option<string>,
    username: string,
    password: Option<string>,
    role: string,
    createdAt: Option<int>)

  function Key(u: User): string {
    u.id
  }

  /** `{ ...u, password: undefined }`. */
  function StripPassword(u: User): (r: User)
    ensures r.password.None?
    ensures r.(password := u.password) == u
  {
    u.(password := None)
  }

  /** `verifyPassword`: the stored hash is the hash of the candidate. */
  predicate VerifyPassword(hash: string -> string, password: string, stored: Option<string>) {
    stored == Some(hash(password))
  }

  /** A password verifies against the hash stored for it, never against a record
      without a hash, and, when the hash is injective, no other password does. */
  lemma VerifyPasswordRoundTrip(hash: string -> string, password: string, other: string)
    ensures VerifyPassword(hash, password, Some(hash(password)))
    ensures !VerifyPassword(hash, password, None)
    ensures (forall a, b :: hash(a) == hash(b) ==> a == b) && VerifyPassword(hash, other, Some(hash(password)))
      ==> other == password
  {
  }

  // ---------------------------------------------------------------------------
  // Repository lookups

  function NamedFilter(username: string): User -> bool {
    (u: User) => u.username == username
  }

  function RoleFilter(role: string): User -> bool {
    (u: User) => u.role == role
  }

  /** `findByUsername` / `getUserByUsername`: the first user in scan order with that name, or null. */
  function FindByUsername(t: seq<User>, username: string): (r: Option<User>)
    ensures r.None? <==> forall i :: 0 <= i < |t| ==> t[i].username != username
    ensures r.Some? ==> r.value == t[FindIndex(t, NamedFilter(username))]
  {
    var k := FindIndex(t, NamedFilter(username));
    if k == -1 then None else Some(t[k])
  }

  /** `findAllWithoutPassword` / `getAllUsers`: every user, in order, with the password cleared. */
  function AllWithoutPassword(t: seq<User>): (r: seq<User>)
    ensures |r| == |t|
    ensures forall i :: 0 <= i < |t| ==> r[i].password.None? && r[i].(password := t[i].password) == t[i]
  {
    seq(|t|, i requires 0 <= i < |t| => StripPassword(t[i]))
  }

  /** `findByIdWithoutPassword` / `getUserById`: null when absent, else the record without its password. */
  function FindByIdWithoutPassword(t: seq<User>, id: string): (r: Option<User>)
    ensures r.None? <==> forall i :: 0 <= i < |t| ==> t[i].id != id
    ensures r.Some? ==>
      && r.value.password.None? && r.value.id == id
      && exists i :: 0 <= i < |t| && t[i] == r.value.(password := t[i].password)
  {
    match Table.FindById(t, Key, id)
    case None => None
    case Some(u) => Some(StripPassword(u))
  }

  /** `findByRole`: exactly the users with that role, passwords cleared. */
  function FindByRole(t: seq<User>, role: string): (r: seq<User>)
    ensures r == AllWithoutPassword(Filter(t, RoleFilter(role)))
    ensures forall i :: 0 <= i < |r| ==> r[i].role == role && r[i].password.None?
    ensures forall i :: 0 <= i < |r| ==> exists k :: 0 <= k < |t| && t[k] == r[i].(password := t[k].password)
    ensures forall k :: 0 <= k < |t| && t[k].role == role ==> StripPassword(t[k]) in r
  {
    StrippedSelection(t, RoleFilter(role));
    AllWithoutPassword(Filter(t, RoleFilter(role)))
  }

  /** Stripping the users a filter keeps shows each kept user once stripped, and
      nothing that is not a stored user. */
  lemma StrippedSelection(t: seq<User>, keep: User -> bool)
    ensures var r := AllWithoutPassword(Filter(t, keep));
      && (forall i :: 0 <= i < |r| ==> exists k :: 0 <= k < |t| && t[k] == r[i].(password := t[k].password))
      && (forall k :: 0 <= k < |t| && keep(t[k]) ==> StripPassword(t[k]) in r)
  {
    var matching := Filter(t, keep);
    FilterKeepsMatches(t, keep);
    var r := AllWithoutPassword(matching);
    forall k | 0 <= k < |t| && keep(t[k]) ensures StripPassword(t[k]) in r {
      var j :| 0 <= j < |matching| && matching[j] == t[k];
      assert r[j] == StripPassword(t[k]);
    }
    forall i | 0 <= i < |r| ensures exists k :: 0 <= k < |t| && t[k] == r[i].(password := t[k].password) {
      var k :| 0 <= k < |t| && t[k] == matching[i];
      assert t[k] == r[i].(password := t[k].password);
    }
  }

  // ---------------------------------------------------------------------------
  // Service operations

  /** The record handed to `createUser`. The store keys users by `id`. */
  datatype NewUser = NewUser(
    id: Option<string>,
    userId: Option<string>,
    username: string,
    password: string,
    role: string)

  datatype StoreError = MissingKeyAttribute

  /** `createUser`: stores the record with the password replaced by its hash and a
      creation stamp, and returns it without the password. The put is rejected
      when the record lacks the table's key attribute. */
  function CreateUser(t: seq<User>, nu: NewUser, hash: string -> string, now: int)
    : (r: Result<(User, seq<User>), StoreError>)
    ensures r.Err? <==> nu.id.None?
    ensures r.Ok? ==>
      var (shown, t') := r.value;
      && shown.password.None? && shown.id == nu.id.value && shown.username == nu.username
      && shown.role == nu.role && shown.userId == nu.userId
      && shown.(password := Some(hash(nu.password))) in t'
      && (forall i :: 0 <= i < |t| && t[i].id != nu.id.value ==> t[i] in t')
  {
    if nu.id.None? then Err(MissingKeyAttribute)
    else
      var stored := User(nu.id.value, nu.userId, nu.username, Some(hash(nu.password)), nu.role, Some(now));
      var t' := Table.Put(t, Key, stored);
      Ok((StripPassword(stored), t'))
  }

  /** The fields `updateUser` receives: username and role always, a password optionally. */
  datatype UserChanges = UserChanges(username: string, role: string, password: Option<string>)

  /** `data.password` is truthy. */
  predicate SuppliesPassword(data: UserChanges) {
    data.password.Some? && data.password.value != ""
  }

  /** `updateUser`: sets username and role, and the password's hash only when one is supplied. */
  function UpdateUser(t: seq<User>, id: string, data: UserChanges, hash: string -> string): (r: seq<User>)
    ensures |r| == |t|
    ensures forall i :: 0 <= i < |t| && t[i].id != id ==> r[i] == t[i]
    ensures forall i :: 0 <= i < |t| && t[i].id == id ==>
      && r[i].username == data.username && r[i].role == data.role
      && r[i].id == t[i].id && r[i].userId == t[i].userId && r[i].createdAt == t[i].createdAt
      && (SuppliesPassword(data) ==> r[i].password == Some(hash(data.password.value)))
      && (!SuppliesPassword(data) ==> r[i].password == t[i].password)
  {
    Table.Update(t, Key, id, (u: User) => u.(
      username := data.username,
      role := data.role,
      password := if SuppliesPassword(data) then Some(hash(data.password.value)) else u.password))
  }

  /** `deleteUser`. */
  function DeleteUser(t: seq<User>, id: string): (r: seq<User>)
    ensures forall i :: 0 <= i < |r| ==> r[i] in t && r[i].id != id
    ensures forall i :: 0 <= i < |t| && t[i].id != id ==> t[i] in r
  {
    Table.Delete(t, Key, id)
  }

  datatype LoginMessage = UnknownUsername | WrongPassword | DatabaseError

  datatype AuthResult = LoginFailed(message: LoginMessage) | LoggedIn(user: SessionUser)

  /** `authenticateUser`. `store` is the scan's outcome: `None` when the store fails. */
  function AuthenticateUser(store: Option<seq<User>>, username: string, password: string, hash: string -> string)
    : (r: AuthResult)
    ensures store.None? ==> r == LoginFailed(DatabaseError)
    ensures store.Some? && FindByUsername(store.value, username).None? ==> r == LoginFailed(UnknownUsername)
    ensures store.Some? && FindByUsername(store.value, username).Some? ==>
      var u := FindByUsername(store.value, username).value;
      && (r.LoggedIn? <==> VerifyPassword(hash, password, u.password))
      && (r.LoginFailed? ==> r.message == WrongPassword)
      && (r.LoggedIn? ==> r.user == SessionUser(Some(u.id), None, u.username, Some(u.role), None))
  {
    match store
    case None => LoginFailed(DatabaseError)
    case Some(t) =>
      match FindByUsername(t, username)
      case None => LoginFailed(UnknownUsername)
      case Some(u) =>
        if !VerifyPassword(hash, password, u.password) then LoginFailed(WrongPassword)
        else LoggedIn(SessionUser(Some(u.id), None, u.username, Some(u.role), None))
  }

  /** A successful login never carries a password, and the session user it makes has an `id` but no `userId`. */
  lemma LoginSessionShape(store: Option<seq<User>>, username: string, password: string, hash: string -> string)
    requires AuthenticateUser(store, username, password, hash).LoggedIn?
    ensures var s := AuthenticateUser(store, username, password, hash).user;
      s.id.Some? && s.userId.None? && s.email.None? && s.username == username
  {
  }

  /** Round trip: a user created with a fresh id and an unused name can log in
      with the password it was created with, and the session names that id. */
  lemma CreatedUserCanLogIn(t: seq<User>, nu: NewUser, hash: string -> string, now: int)
    requires nu.id.Some?
    requires forall i :: 0 <= i < |t| ==> t[i].id != nu.id.value && t[i].username != nu.username
    ensures CreateUser(t, nu, hash, now).Ok?
    ensures var t' := CreateUser(t, nu, hash, now).value.1;
      AuthenticateUser(Some(t'), nu.username, nu.password, hash)
        == LoggedIn(SessionUser(nu.id, None, nu.username, Some(nu.role), None))
  {
    var t' := CreateUser(t, nu, hash, now).value.1;
    assert t' == t + [User(nu.id.value, nu.userId, nu.username, Some(hash(nu.password)), nu.role, Some(now))];
    assert FindIndex(t', NamedFilter(nu.username)) == |t|;
  }
}
